=== FILE: README.md ===
# Persistent data structures of shape-functional-java, modelled in Dafny

shape-functional-java is a small Java library of immutable data structures:

- a cons list: `ImmutableList`, with the two cell kinds `NonEmptyImmutableList` and `Nil`;
- `ConcatList`, a binary tree of leaves that appends in constant time and can be rebalanced;
- `HashTable`, a persistent hash array mapped trie (HAMT) with a pluggable hasher;
- `ImmutableSet`, a `HashTable` whose values are unit;
- `MultiHashTable`, a `HashTable` from keys to lists of values;
- `Maybe`, the optional value that every lookup returns.

Every operation returns a new structure and leaves its argument untouched, except `toArray`,
which writes into the array it is given. The model is written as pure functions over Dafny
datatypes. Where the Java code is a loop over mutable local state, the model is a method with
loop invariants: `fromBounded`, `from(Iterable)`, `index`, `foldRight`, `drop` (on the inputs
where its loop ends), `equals`, `partition`, `toArray`, the cached `hashCode`, and ConcatList's
`split`, `update`, `toList`, `reverse`, `foldRight`, `forEach` and `find`.

The modules follow the Java classes:

| module | file | models |
|---|---|---|
| `Seqs` | seqs.dfy | reference folds, filter, reverse and flatten on `seq`, used as the specification of the structures |
| `Outcomes` | outcome.dfy | a Java call that returns, throws `ClassCastException` / `NullPointerException` / `ArrayIndexOutOfBoundsException`, or never returns |
| `Maybes` | maybe.dfy | `Maybe` (`Nothing` / `Just`) and a `Nullable` reference standing for Java's `null` |
| `ImmutableLists` | immutable_list.dfy | `ImmutableList`, `NonEmptyImmutableList`, `Nil` |
| `MaybeLists` | maybe_list.dfy | `Maybe.catMaybes`, `Maybe.mapMaybe`, `Maybe.toList` |
| `ConcatLists` | concat_list.dfy | `ConcatList` and its `Empty`, `Leaf`, `Fork` nodes |
| `HashTables` | hash_table.dfy | the HAMT nodes `Empty`, `Leaf`, `Fork` and their recursive operations |
| `HashTableApi` | hash_table_api.dfy | the public `HashTable` operations on a hasher plus a root |
| `ImmutableSets` | immutable_set.dfy | `ImmutableSet` |
| `MultiHashTables` | multi_hash_table.dfy | `MultiHashTable` |

Each structure has an abstract meaning, and each operation's contract is stated against it:

- a cons list means the sequence `Elems(l)`;
- a ConcatList means the sequence of its leaves, `Leaves(c)`;
- a trie means its entry sequence, `Entries(t)`, whose keys are distinct.

A trie is `Valid` when it has these properties:

- a leaf's `length` is its number of entries, its keys are distinct, and they all have the leaf's remaining hash;
- a fork has 32 slots and its `length` is the sum of its children's;
- slot `i` holds only keys whose next five hash bits are `i`.

`get`, `put`, `remove`, `merge` and `map` are proved to keep these properties. The lookup they
maintain is specified by `Lookup(Entries(t), k)`.

The Java hash is a 32-bit `int`. The model holds its unsigned value, so `hash & 31` is `% 32`
and `hash >>> 5` is `/ 32`. A hasher is a function `K -> Hash`. Key equality is Dafny's `==`.
The equality and identity hashers differ only in what counts as "the same key", which the key type decides here.

## Model

| member | source | states |
|---|---|---|
| ImmutableLists.Length | src/main/java/com/shapesecurity/functional/data/ImmutableList.java:70-76 | the cached length of a list is the number of its elements |
| ImmutableLists.FromSeq | src/main/java/com/shapesecurity/functional/data/ImmutableList.java:201-203 | `from(A...)` builds the list whose elements are exactly the given ones, in order |
| ImmutableLists.FromSeqElems | src/main/java/com/shapesecurity/functional/data/ImmutableList.java:181-203 | building a list from a list's elements gives back the same list (round trip with `Elems`) |
| ImmutableLists.ElemsInjective | src/main/java/com/shapesecurity/functional/data/NonEmptyImmutableList.java:55-84 | two lists with the same element sequence are the same list |
| ImmutableLists.FromBounded | src/main/java/com/shapesecurity/functional/data/ImmutableList.java:223-232 | `fromBounded(el, start, end)` is empty when `start == end`, is `el[start..end]` for in-range `start < end`, and for `start > end` is the single element `el[end-1]`, as the backwards loop does; every other input reads outside the array and throws `ArrayIndexOutOfBoundsException` |
| ImmutableLists.FromIterable | src/main/java/com/shapesecurity/functional/data/ImmutableList.java:126-132 | `from(Iterable)` keeps the iteration order although it conses from the back |
| ImmutableLists.MaybeHead | src/main/java/com/shapesecurity/functional/data/NonEmptyImmutableList.java:119-121 | a head exists iff the list is non-empty, and it is the first element |
| ImmutableLists.MaybeTail | src/main/java/com/shapesecurity/functional/data/NonEmptyImmutableList.java:132-134 | a tail exists iff the list is non-empty, and it holds all elements but the first |
| ImmutableLists.IsEmpty | src/main/java/com/shapesecurity/functional/data/NonEmptyImmutableList.java:278-280 | true exactly when the list has no elements |
| ImmutableLists.Decons | src/main/java/com/shapesecurity/functional/data/NonEmptyImmutableList.java:257-259 | `decons(f)` yields a value iff the list is non-empty, and that value is `f(head, tail)` of `maybeHead`/`maybeTail` |
| ImmutableLists.Last | src/main/java/com/shapesecurity/functional/data/NonEmptyImmutableList.java:143-152 | the last cell's element is the final element of the sequence |
| ImmutableLists.Init | src/main/java/com/shapesecurity/functional/data/NonEmptyImmutableList.java:155-157 | `init()` holds every element but the last, in order |
| ImmutableLists.MaybeLast | src/main/java/com/shapesecurity/functional/data/NonEmptyImmutableList.java:125-127 | defined iff non-empty, then the final element |
| ImmutableLists.MaybeInit | src/main/java/com/shapesecurity/functional/data/NonEmptyImmutableList.java:138-140 | defined iff non-empty, then all but the final element |
| ImmutableLists.InitLast | src/main/java/com/shapesecurity/functional/data/NonEmptyImmutableList.java:143-157 | `init()` followed by `last()` rebuilds the list |
| ImmutableLists.Index | src/main/java/com/shapesecurity/functional/data/ImmutableList.java:787-800 | `index(i)` is `Just` iff `0 <= i < length`, and then the `i`-th element; negative indices give `Nothing` |
| ImmutableLists.FoldLeft | src/main/java/com/shapesecurity/functional/data/NonEmptyImmutableList.java:88-95 | the loop over the cells computes the reference left fold of the element sequence |
| ImmutableLists.FoldRight | src/main/java/com/shapesecurity/functional/data/NonEmptyImmutableList.java:99-105 | the backwards loop over an array of the elements computes the reference right fold |
| ImmutableLists.ReduceLeft | src/main/java/com/shapesecurity/functional/data/NonEmptyImmutableList.java:108-110 | `reduceLeft` is the left fold of the tail seeded with the head |
| ImmutableLists.FoldLeftReverse | src/main/java/com/shapesecurity/functional/data/NonEmptyImmutableList.java:99-105 | a right fold equals a left fold over the reversed sequence with the arguments swapped |
| ImmutableLists.ReduceRightIsFoldRight | src/main/java/com/shapesecurity/functional/data/NonEmptyImmutableList.java:113-115 | `reduceRight` is the right fold of `init()` seeded with `last()` |
| ImmutableLists.Filter | src/main/java/com/shapesecurity/functional/data/NonEmptyImmutableList.java:174-188 | the result is the subsequence of elements satisfying the predicate, in order |
| ImmutableLists.RemoveAll | src/main/java/com/shapesecurity/functional/data/NonEmptyImmutableList.java:375-377 | keeps exactly the elements failing the predicate; its length is the length minus `count` |
| ImmutableLists.FilterRemoveAllSplit | src/main/java/com/shapesecurity/functional/data/NonEmptyImmutableList.java:174-188 | `filter` and `removeAll` split the list: together they hold the same multiset of elements |
| ImmutableLists.FilterMembers | src/main/java/com/shapesecurity/functional/data/NonEmptyImmutableList.java:174-188 | an element survives `filter` iff it was in the list and satisfies the predicate |
| ImmutableLists.Count | src/main/java/com/shapesecurity/functional/data/NonEmptyImmutableList.java:160-170 | `count(f)` is the length of `filter(f)` |
| ImmutableLists.Map | src/main/java/com/shapesecurity/functional/data/NonEmptyImmutableList.java:192-201 | same length, and element `i` of the result is `f` of element `i` |
| ImmutableLists.MapWithIndex | src/main/java/com/shapesecurity/functional/data/NonEmptyImmutableList.java:205-215 | same length, and element `i` of the result is `f(i, element i)` |
| ImmutableLists.ZipWith | src/main/java/com/shapesecurity/functional/data/NonEmptyImmutableList.java:263-275 | the length is the shorter length, and element `i` combines the two `i`-th elements |
| ImmutableLists.Append | src/main/java/com/shapesecurity/functional/data/NonEmptyImmutableList.java:284-295 | the elements of the first list followed by those of the second |
| ImmutableLists.AppendAssociative | src/main/java/com/shapesecurity/functional/data/NonEmptyImmutableList.java:284-295 | `append` is associative |
| ImmutableLists.AppendNil | src/main/java/com/shapesecurity/functional/data/Nil.java:145-148 | the empty list is a left and right unit of `append` |
| ImmutableLists.FlatMap | src/main/java/com/shapesecurity/functional/data/NonEmptyImmutableList.java:347-359 | the concatenation, in order, of `f` applied to each element |
| ImmutableLists.Reverse | src/main/java/com/shapesecurity/functional/data/NonEmptyImmutableList.java:381-389 | the elements in reverse order |
| ImmutableLists.ReverseReverse | src/main/java/com/shapesecurity/functional/data/NonEmptyImmutableList.java:381-389 | reversing twice gives back the list |
| ImmutableLists.MapAccumL | src/main/java/com/shapesecurity/functional/data/NonEmptyImmutableList.java:393-404 | the final accumulator is the left fold of the steps; element `i` is produced from the accumulator after the first `i` elements |
| ImmutableLists.Exists | src/main/java/com/shapesecurity/functional/data/NonEmptyImmutableList.java:298-309 | true iff some element satisfies the predicate |
| ImmutableLists.Every | src/main/java/com/shapesecurity/functional/data/NonEmptyImmutableList.java:362-371 | true iff every element satisfies the predicate |
| ImmutableLists.Contains | src/main/java/com/shapesecurity/functional/data/NonEmptyImmutableList.java:312-323 | true iff the value is among the elements |
| ImmutableLists.Find | src/main/java/com/shapesecurity/functional/data/ImmutableList.java:669-680 | finds a value iff `exists` holds, and the value satisfies the predicate |
| ImmutableLists.FindIndex | src/main/java/com/shapesecurity/functional/data/ImmutableList.java:689-703 | an index exists iff `exists` holds; it is the first index whose element satisfies the predicate |
| ImmutableLists.FindAtFindIndex | src/main/java/com/shapesecurity/functional/data/ImmutableList.java:669-703 | `find` returns exactly the element at `findIndex` |
| ImmutableLists.FindMap | src/main/java/com/shapesecurity/functional/data/ImmutableList.java:715-726 | `Nothing` iff `f` is `Nothing` on every element; otherwise `f` of some element |
| ImmutableLists.FindMapAtFindIndex | src/main/java/com/shapesecurity/functional/data/ImmutableList.java:715-726 | `findMap` returns `f` of the first element on which `f` is `Just` |
| ImmutableLists.Span | src/main/java/com/shapesecurity/functional/data/NonEmptyImmutableList.java:327-343 | the two parts concatenate to the list, the first is the longest prefix satisfying the predicate, and the second is `drop` of its length |
| ImmutableLists.Take | src/main/java/com/shapesecurity/functional/data/ImmutableList.java:425-434 | the first `n` elements, clamped to `[0, length]` (the documented behaviour; see Findings) |
| ImmutableLists.Drop | src/main/java/com/shapesecurity/functional/data/ImmutableList.java:436-446 | all but the first `n` elements, clamped to `[0, length]` (the documented behaviour; see Findings) |
| ImmutableLists.TakeAppendDrop | src/main/java/com/shapesecurity/functional/data/ImmutableList.java:425-446 | `take(n)` appended to `drop(n)` gives back the list |
| ImmutableLists.TakeAsWrittenInRange | src/main/java/com/shapesecurity/functional/data/NonEmptyImmutableList.java:219-231 | for `n <= length`, `take` as written returns the documented prefix |
| ImmutableLists.TakeAsWrittenThrows | src/main/java/com/shapesecurity/functional/data/NonEmptyImmutableList.java:219-231 | for a non-empty list and `n > length`, `take` as written throws `ClassCastException` on the cast of `Nil` |
| ImmutableLists.TakeTwoOfSingleton | src/main/java/com/shapesecurity/functional/data/NonEmptyImmutableList.java:219-231 | `take(2)` of a one-element list throws as written and returns the list as documented |
| ImmutableLists.DropAsWritten | src/main/java/com/shapesecurity/functional/data/NonEmptyImmutableList.java:235-247 | when the loop ends (`n <= length`) it returns the documented suffix |
| ImmutableLists.DropLoopNeverExits | src/main/java/com/shapesecurity/functional/data/NonEmptyImmutableList.java:235-247 | when `n > length`, the counter is still positive after any number of iterations, so the loop never exits |
| ImmutableLists.Patch | src/main/java/com/shapesecurity/functional/data/ImmutableList.java:759-761 | an in-range patch replaces the `patchLength` elements at `index` by the replacements; with the corrected `take` and `drop` the length is right for every input (see Findings) |
| ImmutableLists.DropOutcome | src/main/java/com/shapesecurity/functional/data/NonEmptyImmutableList.java:235-247 | `drop(n)` as written returns the documented suffix exactly when the list is empty or `n <= length`, and otherwise never returns |
| ImmutableLists.IntAdd | src/main/java/com/shapesecurity/functional/data/ImmutableList.java:760 | Java's `int` sum `index + patchLength`: in `int` range, congruent to the exact sum modulo 2^32, and equal to it when it does not overflow |
| ImmutableLists.PatchAsWrittenBehaviour | src/main/java/com/shapesecurity/functional/data/ImmutableList.java:759-761 | `patch` as written on every input: the replacements for the empty list; on a non-empty list `ClassCastException` when `index > length`, no return when the wrapped end `index + patchLength` is past the end, and otherwise prefix, replacements and the suffix after the wrapped end; without overflow and with both cut points in range, exactly the documented patch |
| ImmutableLists.PatchPastEndOfSingleton | src/main/java/com/shapesecurity/functional/data/ImmutableList.java:759-761 | `[x].patch(2, 0, r)` throws and `[x].patch(0, 2, r)` never returns, while the documented patch returns `[x] ++ r` and `r` |
| ImmutableLists.PatchWrapsAround | src/main/java/com/shapesecurity/functional/data/ImmutableList.java:759-761 | `[x].patch(1, 2^31 - 1, r)` wraps the end to `-2^31` and returns `[x] ++ r ++ [x]`, while the documented patch returns `[x] ++ r` |
| ImmutableLists.Equals | src/main/java/com/shapesecurity/functional/data/NonEmptyImmutableList.java:55-84 | with reference identity given as a test that implies equality, the identity check, the length check and the pairwise head comparison answer true iff the two lists are equal |
| ImmutableLists.ElemsLength | src/main/java/com/shapesecurity/functional/data/NonEmptyImmutableList.java:55-84 | lists of different length are never equal, which justifies the early exit of `equals` |
| ImmutableLists.HashOfCons | src/main/java/com/shapesecurity/functional/data/NonEmptyImmutableList.java:437-466 | the hash of a cell mixes the tail's hash with the element's hash |
| ImmutableLists.CalcHashCode | src/main/java/com/shapesecurity/functional/data/NonEmptyImmutableList.java:437-466 | walking down to the first cached cell and mixing back up yields the structural hash; every hash written to the cache is that cell's own hash |
| ImmutableLists.ToArray | src/main/java/com/shapesecurity/functional/data/ImmutableList.java:497-509 | a long enough target is written in place and returned itself, its tail kept; a short one is left alone and a new array of the list's length is returned; either way the front holds the elements in order |
| ImmutableLists.Partition | src/main/java/com/shapesecurity/functional/data/ImmutableList.java:815-832 | the two-ended array fill produces exactly `filter(p)` and `removeAll(p)`, both in list order |
| MaybeLists.JustValuesMembers | src/main/java/com/shapesecurity/functional/data/Maybe.java:88-90 | a value is kept by `catMaybes` iff `Just` of it is in the list |
| MaybeLists.JustValuesLength | src/main/java/com/shapesecurity/functional/data/Maybe.java:88-90 | `catMaybes` never lengthens the list, and keeps its length iff every element is `Just` |
| MaybeLists.CatMaybes | src/main/java/com/shapesecurity/functional/data/Maybe.java:88-90 | the values of the `Just` elements, in order |
| MaybeLists.MapMaybe | src/main/java/com/shapesecurity/functional/data/Maybe.java:93-95 | `mapMaybe(f, l)` is `map(f)` after `catMaybes`, one result per `Just` |
| MaybeLists.ToList | src/main/java/com/shapesecurity/functional/data/Maybe.java:168-170 | at most one element: the value of a `Just` |
| Maybes.FromNullable | src/main/java/com/shapesecurity/functional/data/Maybe.java:71-76 | `Nothing` iff the reference is null, otherwise its target |
| Maybes.ToNullable | src/main/java/com/shapesecurity/functional/data/Maybe.java:79-81 | `fromNullable(toNullable(m))` gives back `m` |
| Maybes.ToNullableFromNullable | src/main/java/com/shapesecurity/functional/data/Maybe.java:71-81 | `toNullable(fromNullable(x))` gives back `x` |
| Maybes.Iff | src/main/java/com/shapesecurity/functional/data/Maybe.java:99-104 | `Just(a)` iff the test holds |
| Maybes.Fold | src/main/java/com/shapesecurity/functional/data/Maybe.java:143-145 | `maybe(def, f)` is the default for `Nothing` and `f(value)` for `Just` |
| Maybes.OrJust | src/main/java/com/shapesecurity/functional/data/Maybe.java:173-175 | `orJust(a)` is `maybe(a, identity)` |
| Maybes.FromJust | src/main/java/com/shapesecurity/functional/data/Maybe.java:132-134 | on a `Just`, the value it wraps; on `Nothing`, a `NullPointerException` |
| Maybes.Map | src/main/java/com/shapesecurity/functional/data/Maybe.java:192-195 | defined iff the argument is, holding `f` of its value |
| Maybes.FlatMap | src/main/java/com/shapesecurity/functional/data/Maybe.java:203-206 | `Nothing` stays `Nothing`; `Just(v)` becomes `f(v)` |
| Maybes.Join | src/main/java/com/shapesecurity/functional/data/Maybe.java:83-85 | `Just` iff both layers are, holding the inner value |
| Maybes.Filter | src/main/java/com/shapesecurity/functional/data/Maybe.java:209-211 | keeps the value iff it satisfies the predicate |
| Maybes.Eq | src/main/java/com/shapesecurity/functional/data/Maybe.java:115-117 | true iff the two are equal |
| Maybes.MapIdentity | src/main/java/com/shapesecurity/functional/data/Maybe.java:192-195 | `map` with the identity changes nothing |
| Maybes.MapCompose | src/main/java/com/shapesecurity/functional/data/Maybe.java:192-195 | mapping twice is mapping the composition |
| Maybes.FlatMapLeftIdentity | src/main/java/com/shapesecurity/functional/data/Maybe.java:203-206 | `of(a).flatMap(f) == f(a)` |
| Maybes.FlatMapRightIdentity | src/main/java/com/shapesecurity/functional/data/Maybe.java:203-206 | `m.flatMap(of) == m` |
| Maybes.FlatMapAssociative | src/main/java/com/shapesecurity/functional/data/Maybe.java:203-206 | `flatMap` is associative |
| Maybes.JoinMap | src/main/java/com/shapesecurity/functional/data/Maybe.java:83-85 | `join(map(f))` is `flatMap(f)` |
| Maybes.FilterFilter | src/main/java/com/shapesecurity/functional/data/Maybe.java:209-211 | two filters are one filter with the conjunction |
| ConcatLists.LengthCountsLeaves | src/main/java/com/shapesecurity/functional/data/ConcatList.java:52-55 | the cached length is the number of leaves; only `Empty` has length 0, and a fork has at least two |
| ConcatLists.Append | src/main/java/com/shapesecurity/functional/data/ConcatList.java:487-492 | the leaves of the receiver followed by those of the argument; `Empty` is dropped on either side |
| ConcatLists.Append1 | src/main/java/com/shapesecurity/functional/data/ConcatList.java:203-205 | one more leaf at the end |
| ConcatLists.AppendMonoid | src/main/java/com/shapesecurity/functional/data/ConcatList.java:320-322 | `Empty` is a unit of `append`, which is associative on leaves |
| ConcatLists.OfInternal | src/main/java/com/shapesecurity/functional/data/ConcatList.java:86-95 | the midpoint split builds a balanced tree of `el[start..end]` |
| ConcatLists.Of | src/main/java/com/shapesecurity/functional/data/ConcatList.java:71-76 | a balanced tree whose leaves are the given elements |
| ConcatLists.Balanced | src/main/java/com/shapesecurity/functional/data/ConcatList.java:441-446 | a balanced tree with the same leaves; an already balanced tree is returned unchanged |
| ConcatLists.IndexAsWrittenBehaviour | src/main/java/com/shapesecurity/functional/data/ConcatList.java:254-270 | `index` as written: the right leaf in range, `Nothing` at or past the end, a `ClassCastException` for a negative index into `Empty`, the first leaf for a negative index otherwise |
| ConcatLists.IndexMinusOne | src/main/java/com/shapesecurity/functional/data/ConcatList.java:254-270 | `index(-1)` of a two-leaf list returns the first leaf |
| ConcatLists.Index | src/main/java/com/shapesecurity/functional/data/ConcatList.java:254-270 | `Just` iff `0 <= index < length`, then that leaf |
| ConcatLists.SplitInternal | src/main/java/com/shapesecurity/functional/data/ConcatList.java:450-482 | the two halves are valid, concatenate to the leaves, and the left one has `index` leaves |
| ConcatLists.Split | src/main/java/com/shapesecurity/functional/data/ConcatList.java:112-123 | `Nothing` iff the index is outside `[0, length]`; otherwise two valid parts of lengths `index` and `length - index` whose leaves concatenate to the list |
| ConcatLists.UpdateInternal | src/main/java/com/shapesecurity/functional/data/ConcatList.java:496-522 | in range, the leaf at `index` is replaced; past the end the result is null; a negative index gives null for a leaf or `Empty` but replaces the first leaf of a fork |
| ConcatLists.Update | src/main/java/com/shapesecurity/functional/data/ConcatList.java:276-278 | `Just` iff `0 <= index < length`, then a valid list of the same length with exactly that leaf replaced |
| ConcatLists.ForEach | src/main/java/com/shapesecurity/functional/data/ConcatList.java:178-197 | the explicit-stack traversal visits the leaves left to right: its effect is the left fold of the action |
| ConcatLists.FoldLeft | src/main/java/com/shapesecurity/functional/data/ConcatList.java:141-149 | the left fold of the leaves |
| ConcatLists.FoldRight | src/main/java/com/shapesecurity/functional/data/ConcatList.java:152-167 | the right fold of the leaves, by a right-to-left stack traversal |
| ConcatLists.Find | src/main/java/com/shapesecurity/functional/data/ConcatList.java:212-229 | `Nothing` iff no leaf satisfies the predicate; otherwise the first leaf that does |
| ConcatLists.Exists | src/main/java/com/shapesecurity/functional/data/ConcatList.java:207-209 | true iff some leaf satisfies the predicate |
| ConcatLists.Reverse | src/main/java/com/shapesecurity/functional/data/ConcatList.java:232-251 | a valid list with the leaves in reverse order |
| ConcatLists.ToList | src/main/java/com/shapesecurity/functional/data/ConcatList.java:414-433 | the cons list of the leaves, in order |
| HashTables.GetLookup | src/main/java/com/shapesecurity/functional/data/HashTable.java:559-565 | on a valid trie, the hash-directed descent of `get` finds exactly what a search of all entries finds |
| HashTables.GetHasKey | src/main/java/com/shapesecurity/functional/data/HashTable.java:436-442 | `get` succeeds iff the key is among the entries |
| HashTables.LengthEntries | src/main/java/com/shapesecurity/functional/data/HashTable.java:71-75 | the `length` of a valid node counts its entries, whose keys are distinct |
| HashTables.PutGet | src/main/java/com/shapesecurity/functional/data/HashTable.java:527-537 | after `put(k, v)` the key maps to `v` and every other key is unchanged |
| HashTables.PutValid | src/main/java/com/shapesecurity/functional/data/HashTable.java:383-400 | `put` keeps the trie valid and adds one to the length iff the key was absent |
| HashTables.RemoveGet | src/main/java/com/shapesecurity/functional/data/HashTable.java:541-555 | `remove` reports no change iff the key is absent; otherwise the key is gone and every other key is unchanged |
| HashTables.RemoveValid | src/main/java/com/shapesecurity/functional/data/HashTable.java:404-424 | a changed trie is valid and one shorter |
| HashTables.MergeLeafLeafMerged | src/main/java/com/shapesecurity/functional/data/HashTable.java:447-469 | two leaves merge into a valid node holding every key of both, the merger combining the values of shared keys |
| HashTables.NodeMergeMerged | src/main/java/com/shapesecurity/functional/data/HashTable.java:569-595 | merging any two valid nodes of one hasher gives a valid node where every key maps to the merged value |
| HashTables.ContainsKeyGet | src/main/java/com/shapesecurity/functional/data/HashTable.java:728-731 | `containsKey` agrees with `get(...).isJust()` |
| HashTables.MapGet | src/main/java/com/shapesecurity/functional/data/HashTable.java:717-725 | after `map(f)` each key maps to `f` of its old value |
| HashTables.MapValid | src/main/java/com/shapesecurity/functional/data/HashTable.java:505-507 | `map` keeps the trie valid |
| HashTables.FoldLeftEntries | src/main/java/com/shapesecurity/functional/data/HashTable.java:599-606 | the node-by-node left fold is the left fold of the entry sequence |
| HashTables.FoldRightEntries | src/main/java/com/shapesecurity/functional/data/HashTable.java:610-618 | the node-by-node right fold is the right fold of the entry sequence |
| HashTables.FindEntries | src/main/java/com/shapesecurity/functional/data/HashTable.java:687-698 | `find` returns the first entry, in entry order, that satisfies the predicate |
| HashTables.FindMapEntries | src/main/java/com/shapesecurity/functional/data/HashTable.java:702-713 | `findMap` returns `f` of the first entry on which `f` is `Just` |
| HashTableApi.Size | src/main/java/com/shapesecurity/functional/data/HashTable.java:71-75 | the table's length is its number of entries |
| HashTableApi.EmptyTable | src/main/java/com/shapesecurity/functional/data/HashTable.java:97-99 | a valid table with no entries and the given hasher |
| HashTableApi.Get | src/main/java/com/shapesecurity/functional/data/HashTable.java:204-206 | the value stored for the key in the entry sequence |
| HashTableApi.ContainsKey | src/main/java/com/shapesecurity/functional/data/HashTable.java:258-260 | true iff `get` finds the key |
| HashTableApi.Put | src/main/java/com/shapesecurity/functional/data/HashTable.java:178-180 | a valid table with the same hasher, the key mapped to the value, other keys unchanged, the size one larger iff the key was new |
| HashTableApi.Remove | src/main/java/com/shapesecurity/functional/data/HashTable.java:193-195 | a valid table, the key absent, other keys unchanged, the size one smaller iff the key was present; the same table when it was absent |
| HashTableApi.MergeAsWritten | src/main/java/com/shapesecurity/functional/data/HashTable.java:569-577 | `merge` as written is correct only when both tables use the same hasher |
| HashTableApi.MergeAsWrittenLosesKeys | src/main/java/com/shapesecurity/functional/data/HashTable.java:447-469 | two tables with different hashers: the key of the argument cannot be found by the merged table's `get` |
| HashTableApi.Merge | src/main/java/com/shapesecurity/functional/data/HashTable.java:569-595 | every key of either table maps to its value, or to the merger's combination when both have it; equal to `merge` as written for equal hashers |
| HashTableApi.MergeRight | src/main/java/com/shapesecurity/functional/data/HashTable.java:213-215 | `merge(tree)`: the argument's value wins where both have the key; under one hasher the lookups are those of the merge as written |
| HashTableApi.PutAll | src/main/java/com/shapesecurity/functional/data/HashTable.java:188-190 | the pairs are put in order, so the last pair with a key wins over earlier pairs and over the table |
| HashTableApi.Map | src/main/java/com/shapesecurity/functional/data/HashTable.java:353-355 | same hasher and size, each value replaced by `f` of it |
| HashTableApi.FoldLeft | src/main/java/com/shapesecurity/functional/data/HashTable.java:310-312 | the left fold of the entry sequence |
| HashTableApi.FoldRight | src/main/java/com/shapesecurity/functional/data/HashTable.java:316-318 | the right fold of the entry sequence |
| HashTableApi.Find | src/main/java/com/shapesecurity/functional/data/HashTable.java:342-344 | the list `find` over the entries |
| HashTableApi.FindMap | src/main/java/com/shapesecurity/functional/data/HashTable.java:348-350 | the list `findMap` over the entries |
| HashTableApi.ContainsValue | src/main/java/com/shapesecurity/functional/data/HashTable.java:264-266 | true iff some entry holds the value |
| HashTableApi.EntryList | src/main/java/com/shapesecurity/functional/data/HashTable.java:236-242 | `entries()` lists every key once (distinct keys, every present key listed), each pair agreeing with `get`; its length is the size |
| ImmutableSets.Length | src/main/java/com/shapesecurity/functional/data/ImmutableSet.java:15-17 | the number of distinct members |
| ImmutableSets.EmptySet | src/main/java/com/shapesecurity/functional/data/ImmutableSet.java:23-25 | a valid set with no members |
| ImmutableSets.Contains | src/main/java/com/shapesecurity/functional/data/ImmutableSet.java:50-52 | true iff the datum is a member |
| ImmutableSets.Put | src/main/java/com/shapesecurity/functional/data/ImmutableSet.java:41-43 | the members are the old ones plus the datum; the hasher is kept |
| ImmutableSets.PutAll | src/main/java/com/shapesecurity/functional/data/ImmutableSet.java:46-48 | the members are the old ones plus every list element; the hasher is kept |
| ImmutableSets.Remove | src/main/java/com/shapesecurity/functional/data/ImmutableSet.java:54-56 | the members are the old ones except the datum; the hasher is kept |
| ImmutableSets.Union | src/main/java/com/shapesecurity/functional/data/ImmutableSet.java:62-64 | a member of the result iff a member of either set; the receiver's hasher is kept unless the receiver is empty, when the argument is returned; under one hasher the lookups are those of the table merge as written |
| ImmutableSets.KeySet | src/main/java/com/shapesecurity/functional/data/HashTable.java:269-271 | `keys()`: a member iff a key of the table |
| ImmutableSets.FoldAbelian | src/main/java/com/shapesecurity/functional/data/ImmutableSet.java:58-60 | the right fold of the members in trie order |
| ImmutableSets.FoldAbelianOrderFree | src/main/java/com/shapesecurity/functional/data/ImmutableSet.java:58-60 | for a commuting step, two sets with the same members fold to the same value whatever their trie orders |
| ImmutableSets.FoldRightPermutation | src/main/java/com/shapesecurity/functional/data/ImmutableSet.java:58-60 | a right fold with a commuting step is the same for any permutation of its sequence |
| ImmutableSets.ToList | src/main/java/com/shapesecurity/functional/data/ImmutableSet.java:67-69 | each member once, so the list is as long as the set |
| ImmutableSets.Equals | src/main/java/com/shapesecurity/functional/data/ImmutableSet.java:73-75 | true iff the two sets have the same members |
| ImmutableSets.EqualsCorrect | src/main/java/com/shapesecurity/functional/data/ImmutableSet.java:73-75 | the source's test, equal sizes and every member of one contained in the other, holds iff the sets have the same members |
| ImmutableSets.SameElementsIff | src/main/java/com/shapesecurity/functional/data/ImmutableSet.java:73-75 | same members iff same number of elements and one's elements are all in the other |
| MultiHashTables.Empty | src/main/java/com/shapesecurity/functional/data/MultiHashTable.java:24-26 | a valid multimap with no keys |
| MultiHashTables.Get | src/main/java/com/shapesecurity/functional/data/MultiHashTable.java:56-58 | the stored list of the key, or the empty list when the key is absent |
| MultiHashTables.Put | src/main/java/com/shapesecurity/functional/data/MultiHashTable.java:46-48 | the value is consed onto the key's list; other keys are unchanged |
| MultiHashTables.Remove | src/main/java/com/shapesecurity/functional/data/MultiHashTable.java:51-53 | the key's list becomes empty; other keys are unchanged |
| MultiHashTables.MergeWith | src/main/java/com/shapesecurity/functional/data/MultiHashTable.java:66-68 | a key in both maps to the merger of the two lists, a key in one keeps its list; the hasher is the receiver's unless the receiver is empty; under one hasher the lookups are those of the table merge as written |
| MultiHashTables.Merge | src/main/java/com/shapesecurity/functional/data/MultiHashTable.java:61-63 | each key's list is the first table's list followed by the second's |
| MultiHashTables.EntryList | src/main/java/com/shapesecurity/functional/data/MultiHashTable.java:71-73 | exactly the table's entries in entry order: distinct keys, every present key listed, each pairing a key with its `get` list |
| MultiHashTables.ToHashTable | src/main/java/com/shapesecurity/functional/data/MultiHashTable.java:84-86 | a key of the multimap maps to the conversion of it and its list; no other key is present |
| MultiHashTables.ToHashTableOfValues | src/main/java/com/shapesecurity/functional/data/MultiHashTable.java:77-80 | each stored list is replaced by its conversion |
| MultiHashTables.Values | src/main/java/com/shapesecurity/functional/data/MultiHashTable.java:89-91 | one list per key, in reverse entry order, since the fold conses |
| MultiHashTables.GatherValues | src/main/java/com/shapesecurity/functional/data/MultiHashTable.java:94-96 | all values of all keys, key lists concatenated in entry order |
| MultiHashTables.MapValues | src/main/java/com/shapesecurity/functional/data/MultiHashTable.java:99-101 | every key's list is mapped by `f` |

## Left out

- Iterators, spliterators, streams, `forEach`/`foreach` on `ImmutableList` and `Maybe`, and `collector()` are left out. They are Java plumbing whose meaning is a left fold, which the model states as `FoldLeft`.
- The iterator of `HashTable` and what is built on it (`forEach`, `toHashMap`, `toIdentityHashMap`) are left out. Its explicit stack pops the highest non-empty slot of a fork first, so its order is not the slot-0-first order of `Entries` and `FoldLeft`.
- Conversions to and from Java collections are left out: `toArrayList`, `toLinkedList`, `toArray(constructor)`, `from(ArrayList)`, `from(Deque)`, `list(List)`, `toHashMap`, `toIdentityHashMap`, `from(Map)` and `putAllFrom`. The lists are modelled through `FromSeq` and `FromIterable`, and `HashTable.from(hasher, list)` is `PutAll` on an empty table.
- `uniqByEquality`, `uniqByIdentity` and `uniqByEqualityOn` are left out. They are a `putAll` into an `ImmutableSet` that is already modelled.
- `toNonEmptyList` is left out. It only refines the static type of a non-empty list.
- `bind`, `orJustLazy`, `filterByPredicate` and `Maybe.just` are left out. They are aliases of `flatMap`, `orJust`, `filter` and `of`.
- `Maybe._try` is left out. It catches Java exceptions.
- `equals`/`hashCode` of `Maybe` and `ImmutableSet.hashCode` are not modelled. `Maybe.equals` is Dafny's `==`, which is what `Eq` states.
- `ImmutableDoubleList`, `EmptyImmutableList`, `Either` and the tuple classes are left out. They are not part of this core.
- The hashers are not modelled as objects. The difference between equality and identity comparison is left out, and so is `containsValue` comparing with `==` rather than `equals`. Keys are compared by Dafny's `==`.
- `ImmutableLists.Contains` compares elements by Dafny's `==`, where `NonEmptyImmutableList.contains` compares references (`list.head == a`). The model answers true for an equal element that is a different Java object.
- Each Java node carries the table's hasher; the model keeps one hasher per table.
- `HashTable.length` and list lengths are Java `int`s. The model does not bound them, so overflow past 2^31 - 1 elements is not modelled. This includes the `right.length * 2` of ConcatList's `Fork` constructor, which wraps once the right side has 2^30 leaves: `BalanceFlag` multiplies without wrapping, so only the `isBalanced` flag (and so the shape `balanced()` rebuilds) could differ, never the leaves. Integer arguments (`take`, `drop`, `index` and the other indices) are unbounded too. The one sum the code computes on them, `index + patchLength` in `patch`, is wrapped by `IntAdd` in `PatchAsWritten`.
- The cached `hashCode` of `ImmutableList` is modelled as a cache function passed to `CalcHashCode`. The writes the method makes are returned as a sequence. The element hash and the mixing step are parameters, so the concrete `HashCodeBuilder` arithmetic is left out.
- ConcatList's debug renderer and `toString` are left out.
- `ImmutableLists.Take`, `ImmutableLists.Drop`, `ImmutableLists.Patch` (which also does not wrap `index + patchLength`), `ConcatLists.Index` and `ConcatLists.Update` state the documented, corrected behaviour. The code as written is modelled beside each one; see Findings.
- `ImmutableLists.Span`: the Javadoc of `span` says the first part is the longest prefix whose elements fail the predicate, but the code keeps the prefix that satisfies it. The model follows the code.
- `HashTableApi.Merge`: rehashes the argument into the receiver's hasher before merging. It is therefore equivalent to the source's `merge(tree, merger)` only when the hashers are equal, which is what its last `ensures` states.
- `HashTableApi.MergeRight`: uses the rehashing `Merge`, so it equals `merge(tree)` only under one hasher (its last `ensures`); with different hashers it keeps keys the source loses.
- `MultiHashTables.MergeWith`: uses the rehashing `Merge`, so it equals the source only under one hasher (its second `ensures`).
- `MultiHashTables.Merge`: goes through `MergeWith` and so through the rehashing `Merge`; it equals the source only under one hasher.
- `ImmutableSets.Union`: uses `MergeRight`, so a union of sets built with different hashers keeps every member where the source loses some; under one hasher its last `ensures` ties it to the merge as written.
- `MultiHashTables.ToHashTable` builds its result with `PutAll` over the converted entries, not with the fold of `put` calls the source uses. The contract states the resulting lookups, which are the same.
- `ImmutableSets.FoldAbelian`: `FoldAbelianOrderFree` requires the step to commute for all elements and accumulators, not only for the members of the set.

## Findings

| source | as written | input that shows it | evidently intended | confidence | as-written member | corrected member |
|---|---|---|---|---|---|---|
| src/main/java/com/shapesecurity/functional/data/NonEmptyImmutableList.java:235-247 | `drop(n)` only decrements `n` while the list is non-empty, so with `n > length` the `while (n > 0)` loop spins on `Nil` forever | `drop(2)` of a one-element list | return the empty list, as the Javadoc of `drop` promises | high (not executed) | ImmutableLists.DropLoopNeverExits | ImmutableLists.Drop |
| src/main/java/com/shapesecurity/functional/data/NonEmptyImmutableList.java:219-231 | `take(n)` casts every tail to `NonEmptyImmutableList`; with `n > length` the cast of `Nil` throws `ClassCastException` | `take(2)` of a one-element list | return a copy of the list, as the Javadoc of `take` promises | high (not executed) | ImmutableLists.TakeTwoOfSingleton | ImmutableLists.Take |
| src/main/java/com/shapesecurity/functional/data/ImmutableList.java:759-761 | `index + patchLength` is an `int` sum; with a large `patchLength` it wraps negative, and `drop` of a negative count keeps the whole list | `patch(1, Integer.MAX_VALUE, r)` of `[x]` returns `[x] ++ r ++ [x]` | everything after `index` replaced, giving `[x] ++ r` | medium (not executed) | ImmutableLists.PatchWrapsAround | ImmutableLists.Patch |
| src/main/java/com/shapesecurity/functional/data/ImmutableList.java:759-761 | `patch` calls `take(index)` and `drop(index + patchLength)` as written, so on a non-empty list a cut point past the end throws or never returns | `patch(2, 0, r)` and `patch(0, 2, r)` of a one-element list | the list with the in-range part replaced, using the documented `take` and `drop` | high (not executed) | ImmutableLists.PatchPastEndOfSingleton | ImmutableLists.Patch |
| src/main/java/com/shapesecurity/functional/data/ConcatList.java:254-270 | `index` checks only `index >= length`; a negative index descends left and returns the first leaf, and on an empty list casts `Empty` to `Leaf` and throws | `index(-1)` of a two-leaf list returns the first leaf | `Maybe.empty()` for every index outside `[0, length)` | high (not executed) | ConcatLists.IndexMinusOne | ConcatLists.Index |
| src/main/java/com/shapesecurity/functional/data/ConcatList.java:496-522 | `Fork.updateInternal` checks only `index >= length`, so `update` with a negative index replaces the first leaf and returns `Just` | `update(-1, e)` of a two-leaf list | `Maybe.empty()` for a negative index, as for an index past the end | high (not executed) | ConcatLists.UpdateInternal | ConcatLists.Update |
| src/main/java/com/shapesecurity/functional/data/HashTable.java:569-577 | `merge` merges the argument's trie into the receiver's node by node and keeps the receiver's hasher, though the argument's keys were placed by the argument's hasher | a table `{0: 10}` under a hasher `k -> k` merged with a table `{1: 20}` under a hasher `k -> 5`: `get(1)` on the result finds nothing | every key of either table is found in the merged table | medium (not executed) | HashTableApi.MergeAsWrittenLosesKeys | HashTableApi.Merge |

=== FILE: concat_list.dfy ===
/**
 * `ConcatList`: a binary tree whose leaves, read left to right, are the
 * elements of the list. `append` is a single `Fork` node; `split` and
 * `update` walk down with an explicit zipper and rebuild on the way back.
 * Every operation is specified against the leaf sequence, `Leaves`.
 */
module ConcatLists {
  import opened Maybes
  import opened Outcomes
  import Seqs
  import ImmutableLists

  datatype ConcatList<+T> =
    | Empty
    | Leaf(data: T)
    | Fork(left: ConcatList<T>, right: ConcatList<T>, length: int, isBalanced: bool)

  /** The `length` field: 0 for `Empty`, 1 for a `Leaf`, stored in a `Fork`. */
  function Length<T>(c: ConcatList<T>): int
  {
    match c
    case Empty => 0
    case Leaf(_) => 1
    case Fork(_, _, n, _) => n
  }

  /** The `isBalanced` field: `Empty` and `Leaf` are balanced by construction. */
  function IsBalanced<T>(c: ConcatList<T>): bool
  {
    match c
    case Fork(_, _, _, b) => b
    case _ => true
  }

  /**
   * The flag the `Fork` constructor computes: both children balanced, and
   * either a small tree or children whose sizes are within a factor of two.
   */
  function BalanceFlag<T>(l: ConcatList<T>, r: ConcatList<T>): bool
  {
    && IsBalanced(l) && IsBalanced(r)
    && (Length(l) + Length(r) < 16 || (Length(l) > Length(r) / 2 && Length(l) < Length(r) * 2))
  }

  /** The private `Fork` constructor, which derives `length` and `isBalanced`. */
  function MkFork<T>(l: ConcatList<T>, r: ConcatList<T>): ConcatList<T>
  {
    Fork(l, r, Length(l) + Length(r), BalanceFlag(l, r))
  }

  /**
   * Every reachable tree: each `Fork` was built by `MkFork` from two
   * non-empty children (only `append` builds forks, and it never puts
   * `Empty` under one), so the `length` field counts the leaves.
   */
  ghost predicate Valid<T>(c: ConcatList<T>)
  {
    && Length(c) == |Leaves(c)|
    && match c
    case Fork(l, r, _, _) => Valid(l) && Valid(r) && !l.Empty? && !r.Empty? && c == MkFork(l, r)
    case _ => true
  }

  /** The elements of the list: the leaves from left to right. */
  function Leaves<T>(c: ConcatList<T>): seq<T>
  {
    match c
    case Empty => []
    case Leaf(x) => [x]
    case Fork(l, r, _, _) => Leaves(l) + Leaves(r)
  }

  /** The number of nodes, which bounds the explicit-stack traversals. */
  function NodeCount<T>(c: ConcatList<T>): (n: nat)
    ensures n >= 1
  {
    match c
    case Fork(l, r, _, _) => NodeCount(l) + NodeCount(r) + 1
    case _ => 1
  }

  /** The stored length counts the leaves; only `Empty` has none and a fork has at least two. */
  lemma {:induction false} LengthCountsLeaves<T>(c: ConcatList<T>)
    requires Valid(c)
    ensures Length(c) == |Leaves(c)|
    ensures c.Empty? <==> Length(c) == 0
    ensures c.Fork? ==> Length(c) >= 2
  {
    match c
    case Empty =>
    case Leaf(_) =>
    case Fork(l, r, _, _) =>
      LengthCountsLeaves(l);
      LengthCountsLeaves(r);
  }

  // ---------------------------------------------------------------------
  // Construction

  /**
   * `append`: `Empty` yields the other operand, an `Empty` right operand
   * yields the receiver, and otherwise one new `Fork` joins the two.
   */
  function Append<T>(c: ConcatList<T>, rhs: ConcatList<T>): (r: ConcatList<T>)
    ensures Leaves(r) == Leaves(c) + Leaves(rhs)
    ensures Valid(c) && Valid(rhs) ==> Valid(r)
    ensures c.Empty? ==> r == rhs
    ensures rhs.Empty? ==> r == c
  {
    if c.Empty? then rhs
    else if rhs.Empty? then c
    else MkFork(c, rhs)
  }

  /** `append1(x)`: append a single leaf. */
  function Append1<T>(c: ConcatList<T>, x: T): (r: ConcatList<T>)
    ensures Leaves(r) == Leaves(c) + [x]
    ensures Valid(c) ==> Valid(r)
  {
    Append(c, Leaf(x))
  }

  /** `append` is the operation of a monoid whose identity is `Empty`. */
  lemma AppendMonoid<T>(a: ConcatList<T>, b: ConcatList<T>, c: ConcatList<T>)
    ensures Append(Empty, a) == a && Append(a, Empty) == a
    ensures Leaves(Append(Append(a, b), c)) == Leaves(Append(a, Append(b, c)))
  {
  }

  /** A midpoint split of at least two elements passes the balance test of `Fork`. */
  lemma MidpointBalanced(start: int, end: int)
    requires start + 2 <= end
    ensures var mid := (start + end) / 2;
      && start < mid < end
      && (end - start < 16 || (mid - start > (end - mid) / 2 && mid - start < (end - mid) * 2))
  {
  }

  /**
   * `ofInternal(el, start, end)` (and `fromListInternal`, which reads the
   * same elements from an iterator): split the range at its midpoint and
   * append the two halves. The tree it builds is always flagged balanced.
   */
  function OfInternal<T>(el: seq<T>, start: int, end: int): (r: ConcatList<T>)
    requires 0 <= start <= end <= |el|
    ensures Valid(r) && IsBalanced(r)
    ensures Leaves(r) == el[start..end]
    ensures Length(r) == end - start
    decreases end - start
  {
    if start == end then Empty
    else if start + 1 == end then Leaf(el[start])
    else
      MidpointBalanced(start, end);
      var mid := (start + end) / 2;
      var l := OfInternal(el, start, mid);
      var r := OfInternal(el, mid, end);
      assert el[start..end] == el[start..mid] + el[mid..end];
      LengthCountsLeaves(l);
      LengthCountsLeaves(r);
      Append(l, r)
  }

  /** `of(elements...)` and `fromList(list)`: a balanced tree of the given elements. */
  function Of<T>(el: seq<T>): (r: ConcatList<T>)
    ensures Valid(r) && IsBalanced(r)
    ensures Leaves(r) == el
    ensures |el| == 0 ==> r == Empty
  {
    if |el| == 0 then Empty else OfInternal(el, 0, |el|)
  }

  /**
   * `balanced()`: a fork that is not flagged balanced is rebuilt from its
   * leaves; anything else is returned as is.
   */
  function Balanced<T>(c: ConcatList<T>): (r: ConcatList<T>)
    requires Valid(c)
    ensures Valid(r) && IsBalanced(r)
    ensures Leaves(r) == Leaves(c)
    ensures IsBalanced(c) ==> r == c
  {
    if c.Fork? && !c.isBalanced then
      LengthCountsLeaves(c);
      OfInternal(Leaves(c), 0, Length(c))
    else c
  }

  // ---------------------------------------------------------------------
  // Index

  /** The `while (list instanceof Fork)` descent of `index`, ending in a cast to `Leaf`. */
  function Walk<T>(list: ConcatList<T>, index: int): Outcome<Maybe<T>>
  {
    match list
    case Fork(l, r, _, _) => if index < Length(l) then Walk(l, index) else Walk(r, index - Length(l))
    case Leaf(x) => Returns(Just(x))
    case Empty => Throws(ClassCastException)
  }

  lemma {:induction false} WalkInRange<T>(list: ConcatList<T>, index: int)
    requires Valid(list) && 0 <= index < Length(list)
    ensures Walk(list, index) == Returns(Just(Leaves(list)[index]))
  {
    LengthCountsLeaves(list);
    match list
    case Empty =>
    case Leaf(_) =>
    case Fork(l, r, _, _) =>
      LengthCountsLeaves(l);
      if index < Length(l) {
        WalkInRange(l, index);
      } else {
        WalkInRange(r, index - Length(l));
      }
  }

  /** A negative index always turns left, down to the first leaf. */
  lemma {:induction false} WalkNegative<T>(list: ConcatList<T>, index: int)
    requires Valid(list) && !list.Empty? && index < 0
    ensures |Leaves(list)| > 0 && Walk(list, index) == Returns(Just(Leaves(list)[0]))
  {
    match list
    case Leaf(_) =>
    case Fork(l, r, _, _) =>
      LengthCountsLeaves(l);
      WalkNegative(l, index);
  }

  /** `index(i)` as written: only the upper bound is checked. */
  function IndexAsWritten<T>(c: ConcatList<T>, index: int): Outcome<Maybe<T>>
  {
    if index >= Length(c) then Returns(Nothing) else Walk(c, index)
  }

  /**
   * What `index` does for every index: the element for `0 <= i < length`,
   * `None` at or past the end, and for a negative index the FIRST element
   * of a non-empty list, or a `ClassCastException` on the empty list.
   */
  lemma IndexAsWrittenBehaviour<T>(c: ConcatList<T>, index: int)
    requires Valid(c)
    ensures 0 <= index < Length(c) ==> IndexAsWritten(c, index) == Returns(Just(Leaves(c)[index]))
    ensures index >= Length(c) ==> IndexAsWritten(c, index) == Returns(Nothing)
    ensures index < 0 && c.Empty? ==> IndexAsWritten(c, index) == Throws(ClassCastException)
    ensures index < 0 && !c.Empty? ==> |Leaves(c)| > 0 && IndexAsWritten(c, index) == Returns(Just(Leaves(c)[0]))
  {
    LengthCountsLeaves(c);
    if 0 <= index < Length(c) {
      WalkInRange(c, index);
    } else if index < 0 && !c.Empty? {
      WalkNegative(c, index);
    }
  }

  /** `[a, b].index(-1)` answers `a` instead of `None`. */
  lemma IndexMinusOne<T>(a: T, b: T)
    ensures IndexAsWritten(Append(Leaf(a), Leaf(b)), -1) == Returns(Just(a))
  {
    var c := Append(Leaf(a), Leaf(b));
    assert c == Fork(Leaf(a), Leaf(b), 2, true);
    assert Walk(c, -1) == Walk(Leaf(a), -1);
  }

  /** `index(i)` with the missing lower-bound check: `None` outside `0 <= i < length`. */
  function Index<T>(c: ConcatList<T>, index: int): (r: Maybe<T>)
    requires Valid(c)
    ensures r.Just? <==> 0 <= index < Length(c)
    ensures r.Just? ==> r.value == Leaves(c)[index]
  {
    if index < 0 || index >= Length(c) then Nothing
    else
      WalkInRange(c, index);
      LengthCountsLeaves(c);
      Walk(c, index).value
  }

  // ---------------------------------------------------------------------
  // The zipper of split and update

  /**
   * The two stacks `zippers1`/`zippers2` of `splitInternal` and
   * `updateInternal`, as one stack of frames, innermost frame on top: the
   * sibling not descended into, and whether it lies to the left.
   */
  datatype Zipper<+T> = Top | Frame(sibling: ConcatList<T>, isLeft: bool, outer: Zipper<T>)

  /** The whole list when the focus of `z` holds the elements `focus`. */
  function Plug<T>(z: Zipper<T>, focus: seq<T>): seq<T>
  {
    match z
    case Top => focus
    case Frame(s, isLeft, outer) => Plug(outer, if isLeft then Leaves(s) + focus else focus + Leaves(s))
  }

  /** `acc` preceded by all leaves left of the focus of `z`. */
  function LeftOf<T>(z: Zipper<T>, acc: seq<T>): seq<T>
  {
    match z
    case Top => acc
    case Frame(s, isLeft, outer) => LeftOf(outer, if isLeft then Leaves(s) + acc else acc)
  }

  /** `acc` followed by all leaves right of the focus of `z`. */
  function RightOf<T>(z: Zipper<T>, acc: seq<T>): seq<T>
  {
    match z
    case Top => acc
    case Frame(s, isLeft, outer) => RightOf(outer, if isLeft then acc else acc + Leaves(s))
  }

  /** The number of leaves left of the focus: the position of the focus in the whole list. */
  function Position<T>(z: Zipper<T>): nat
  {
    match z
    case Top => 0
    case Frame(s, isLeft, outer) => Position(outer) + (if isLeft then |Leaves(s)| else 0)
  }

  ghost predicate ValidZipper<T>(z: Zipper<T>)
  {
    match z
    case Top => true
    case Frame(s, _, outer) => Valid(s) && ValidZipper(outer)
  }

  /** The whole list is the left part, the focus, and the right part. */
  lemma {:induction false} PlugParts<T>(z: Zipper<T>, a: seq<T>, b: seq<T>)
    ensures Plug(z, a + b) == LeftOf(z, a) + RightOf(z, b)
    ensures |LeftOf(z, a)| == Position(z) + |a|
  {
    match z
    case Top =>
    case Frame(s, isLeft, outer) =>
      if isLeft {
        assert Leaves(s) + (a + b) == (Leaves(s) + a) + b;
        PlugParts(outer, Leaves(s) + a, b);
      } else {
        assert (a + b) + Leaves(s) == a + (b + Leaves(s));
        PlugParts(outer, a, b + Leaves(s));
      }
  }

  /** Plugging a different element into the focus changes the list at the focus' position only. */
  lemma PlugReplace<T>(z: Zipper<T>, x: T, e: T)
    ensures Position(z) < |Plug(z, [x])|
    ensures Plug(z, [e]) == Plug(z, [x])[Position(z) := e]
  {
    PlugParts(z, [], [x]);
    PlugParts(z, [], [e]);
    assert [] + [x] == [x] && [] + [e] == [e];
    RightShift(z, [x]);
    RightShift(z, [e]);
  }

  /** `RightOf` puts its accumulator in front of the right part. */
  lemma {:induction false} RightShift<T>(z: Zipper<T>, acc: seq<T>)
    ensures RightOf(z, acc) == acc + RightOf(z, [])
  {
    match z
    case Top =>
    case Frame(s, isLeft, outer) =>
      if isLeft {
        RightShift(outer, acc);
        RightShift(outer, []);
      } else {
        RightShift(outer, acc + Leaves(s));
        RightShift(outer, [] + Leaves(s));
        assert [] + Leaves(s) == Leaves(s);
      }
  }

  /**
   * The first loop of `splitInternal` and `updateInternal`: walk to the leaf
   * at `index`, pushing the sibling of every step. A negative index turns
   * left at every fork and ends on the first leaf.
   */
  method Descend<T>(c: ConcatList<T>, index: int) returns (z: Zipper<T>, focus: ConcatList<T>)
    requires Valid(c) && !c.Empty? && index < Length(c)
    ensures focus.Leaf? && ValidZipper(z)
    ensures Plug(z, Leaves(focus)) == Leaves(c)
    ensures Position(z) == if index < 0 then 0 else index
  {
    z := Top;
    focus := c;
    var i := index;
    while focus.Fork?
      invariant Valid(focus) && !focus.Empty? && i < Length(focus)
      invariant ValidZipper(z)
      invariant Plug(z, Leaves(focus)) == Leaves(c)
      invariant i < 0 ==> i == index && Position(z) == 0
      invariant i >= 0 ==> Position(z) + i == if index < 0 then 0 else index
      decreases focus
    {
      var left := focus.left;
      LengthCountsLeaves(left);
      if i < Length(left) {
        z := Frame(focus.right, false, z);
        focus := left;
      } else {
        i := i - Length(left);
        z := Frame(left, true, z);
        focus := focus.right;
      }
    }
  }

  /**
   * `splitInternal(index)`. `Empty` splits into two empties and a `Leaf`
   * at 0 or 1; a `Fork` descends to the leaf at `index`, which starts the
   * right part, and re-appends the recorded siblings on the way back.
   * `split` calls it only strictly inside a fork.
   */
  method SplitInternal<T>(c: ConcatList<T>, index: int) returns (left: ConcatList<T>, right: ConcatList<T>)
    requires Valid(c) && 0 <= index <= Length(c)
    requires c.Fork? ==> index < Length(c)
    ensures Valid(left) && Valid(right)
    ensures Leaves(left) + Leaves(right) == Leaves(c)
    ensures Length(left) == index
  {
    match c {
      case Empty =>
        return c, c;
      case Leaf(_) =>
        if index == 0 {
          return Empty, c;
        }
        return c, Empty;
      case Fork(_, _, _, _) =>
    }
    var z, focus := Descend(c, index);
    left, right := Rebuild(z, Empty, focus);
    PlugParts(z, [], Leaves(focus));
    assert [] + Leaves(focus) == Leaves(focus);
  }

  /**
   * The second loop of `splitInternal`: pop each frame and append its
   * sibling to the part of the pair on its side.
   */
  method Rebuild<T>(z: Zipper<T>, l0: ConcatList<T>, r0: ConcatList<T>) returns (left: ConcatList<T>, right: ConcatList<T>)
    requires ValidZipper(z) && Valid(l0) && Valid(r0)
    ensures Valid(left) && Valid(right)
    ensures Leaves(left) == LeftOf(z, Leaves(l0))
    ensures Leaves(right) == RightOf(z, Leaves(r0))
  {
    var frames := z;
    left, right := l0, r0;
    while frames.Frame?
      invariant Valid(left) && Valid(right) && ValidZipper(frames)
      invariant LeftOf(frames, Leaves(left)) == LeftOf(z, Leaves(l0))
      invariant RightOf(frames, Leaves(right)) == RightOf(z, Leaves(r0))
      decreases frames
    {
      if frames.isLeft {
        left := Append(frames.sibling, left);
      } else {
        right := Append(right, frames.sibling);
      }
      frames := frames.outer;
    }
  }

  /**
   * `split(index)`: `None` outside `0..length`, otherwise two lists whose
   * leaves concatenate to the original and whose left part has `index`
   * elements.
   */
  method Split<T>(c: ConcatList<T>, index: int) returns (r: Maybe<(ConcatList<T>, ConcatList<T>)>)
    requires Valid(c)
    ensures r.Nothing? <==> index < 0 || index > Length(c)
    ensures r.Just? ==> Valid(r.value.0) && Valid(r.value.1)
    ensures r.Just? ==> Leaves(r.value.0) + Leaves(r.value.1) == Leaves(c)
    ensures r.Just? ==> Length(r.value.0) == index && Length(r.value.1) == Length(c) - index
  {
    if index < 0 || index > Length(c) {
      return Nothing;
    }
    LengthCountsLeaves(c);
    if index == 0 {
      return Just((Empty, c));
    }
    if index == Length(c) {
      return Just((c, Empty));
    }
    var left, right := SplitInternal(c, index);
    return Just((left, right));
  }

  /**
   * `updateInternal(index, e)` as written. `Empty` answers null and a
   * `Leaf` checks `index == 0`, but a `Fork` checks only the upper bound:
   * a negative index replaces the first element.
   */
  method UpdateInternal<T>(c: ConcatList<T>, index: int, e: T) returns (r: Nullable<ConcatList<T>>)
    requires Valid(c)
    ensures 0 <= index < Length(c) ==> r.Ref? && Valid(r.target) && Leaves(r.target) == Leaves(c)[index := e]
    ensures index >= Length(c) ==> r.Null?
    ensures index < 0 && !c.Fork? ==> r.Null?
    ensures index < 0 && c.Fork? ==> |Leaves(c)| > 0 && r.Ref? && Valid(r.target) && Leaves(r.target) == Leaves(c)[0 := e]
  {
    match c {
      case Empty =>
        return Null;
      case Leaf(_) =>
        return if index == 0 then Ref(Leaf(e)) else Null;
      case Fork(_, _, _, _) =>
    }
    if index >= Length(c) {
      return Null;
    }
    var z, focus := Descend(c, index);
    PlugReplace(z, focus.data, e);
    var l := Wrap(z, Leaf(e));
    return Ref(l);
  }

  /**
   * The second loop of `updateInternal`: pop each frame and append its
   * sibling on its side of the rebuilt list.
   */
  method Wrap<T>(z: Zipper<T>, l0: ConcatList<T>) returns (l: ConcatList<T>)
    requires ValidZipper(z) && Valid(l0)
    ensures Valid(l)
    ensures Leaves(l) == Plug(z, Leaves(l0))
  {
    var frames := z;
    l := l0;
    while frames.Frame?
      invariant Valid(l) && ValidZipper(frames)
      invariant Plug(frames, Leaves(l)) == Plug(z, Leaves(l0))
      decreases frames
    {
      l := if frames.isLeft then Append(frames.sibling, l) else Append(l, frames.sibling);
      frames := frames.outer;
    }
  }

  /**
   * `update(index, e)` with the lower-bound check `updateInternal` lacks:
   * `None` outside `0 <= index < length`, otherwise a list of the same
   * length that differs from the original exactly at `index`.
   */
  method Update<T>(c: ConcatList<T>, index: int, e: T) returns (r: Maybe<ConcatList<T>>)
    requires Valid(c)
    ensures r.Just? <==> 0 <= index < Length(c)
    ensures r.Just? ==> Valid(r.value) && Length(r.value) == Length(c)
    ensures r.Just? ==> Leaves(r.value) == Leaves(c)[index := e]
  {
    if index < 0 {
      return Nothing;
    }
    var n := UpdateInternal(c, index, e);
    r := FromNullable(n);
  }

  // ---------------------------------------------------------------------
  // Traversals with an explicit stack

  /** The `Deque`/array stacks of the traversals, top first. */
  datatype Stack<+T> = Bottom | Push(top: ConcatList<T>, below: Stack<T>)

  /** The leaves of a stack read bottom to top: a right-to-left traversal consumes them from the end. */
  function StackLeaves<T>(s: Stack<T>): seq<T>
  {
    match s
    case Bottom => []
    case Push(x, below) => StackLeaves(below) + Leaves(x)
  }

  /** The leaves of a stack read top to bottom: the order a left-to-right traversal visits them. */
  function Pending<T>(s: Stack<T>): seq<T>
  {
    match s
    case Bottom => []
    case Push(x, below) => Leaves(x) + Pending(below)
  }

  function StackSize<T>(s: Stack<T>): nat
  {
    match s
    case Bottom => 0
    case Push(x, below) => NodeCount(x) + StackSize(below)
  }

  /** Replacing a fork on top of the stack by its two children, in either order. */
  lemma PushChildren<T>(c: ConcatList<T>, below: Stack<T>)
    requires c.Fork?
    ensures Pending(Push(c.left, Push(c.right, below))) == Pending(Push(c, below))
    ensures StackLeaves(Push(c.right, Push(c.left, below))) == StackLeaves(Push(c, below))
    ensures StackSize(Push(c.left, Push(c.right, below))) < StackSize(Push(c, below))
    ensures StackSize(Push(c.right, Push(c.left, below))) < StackSize(Push(c, below))
  {
    assert Leaves(c.left) + (Leaves(c.right) + Pending(below)) == Leaves(c) + Pending(below);
    assert (StackLeaves(below) + Leaves(c.left)) + Leaves(c.right) == StackLeaves(below) + Leaves(c);
  }

  /**
   * `forEach(action)`: visit the leaves left to right. The action's effect
   * is modelled as a state it transforms, so the final state is the left
   * fold of the action over the leaves.
   */
  method ForEach<T, S>(c: ConcatList<T>, action: (S, T) -> S, s0: S) returns (s: S)
    requires Valid(c)
    ensures s == Seqs.FoldLeft(Leaves(c), action, s0)
  {
    s := s0;
    if Length(c) == 0 {
      LengthCountsLeaves(c);
      return;
    }
    var stack := Push(c, Bottom);
    assert Pending(stack) == Leaves(c) + [] == Leaves(c);
    while stack.Push?
      invariant Seqs.FoldLeft(Pending(stack), action, s) == Seqs.FoldLeft(Leaves(c), action, s0)
      decreases StackSize(stack)
    {
      var curr := stack.top;
      ghost var prev := stack;
      stack := stack.below;
      assert prev == Push(curr, stack);
      if curr.Fork? {
        PushChildren(curr, stack);
        stack := Push(curr.left, Push(curr.right, stack));
      } else if curr.Leaf? {
        assert ([curr.data] + Pending(stack))[1..] == Pending(stack);
        s := action(s, curr.data);
      } else {
        assert Pending(prev) == [] + Pending(stack) == Pending(stack);
      }
    }
  }

  /** `foldLeft(f, init)`: `init` for an empty list, otherwise `forEach` threading the accumulator. */
  method FoldLeft<T, B>(c: ConcatList<T>, f: (B, T) -> B, init: B) returns (r: B)
    requires Valid(c)
    ensures r == Seqs.FoldLeft(Leaves(c), f, init)
  {
    if c.Empty? {
      return init;
    }
    r := ForEach(c, f, init);
  }

  /** `foldRight(f, init)`: pop the right child first, so `f` meets the leaves right to left. */
  method FoldRight<T, B>(c: ConcatList<T>, f: (T, B) -> B, init: B) returns (r: B)
    ensures r == Seqs.FoldRight(Leaves(c), f, init)
  {
    r := init;
    var stack := Push(c, Bottom);
    assert StackLeaves(stack) == [] + Leaves(c) == Leaves(c);
    while stack.Push?
      invariant Seqs.FoldRight(StackLeaves(stack), f, r) == Seqs.FoldRight(Leaves(c), f, init)
      decreases StackSize(stack)
    {
      var curr := stack.top;
      ghost var prev := stack;
      stack := stack.below;
      assert prev == Push(curr, stack);
      if curr.Fork? {
        PushChildren(curr, stack);
        stack := Push(curr.right, Push(curr.left, stack));
      } else if curr.Leaf? {
        Seqs.FoldRightAppend(StackLeaves(stack), [curr.data], f, r);
        r := f(curr.data, r);
      } else {
        assert StackLeaves(prev) == StackLeaves(stack) + [] == StackLeaves(stack);
      }
    }
  }

  /**
   * `find(f)`: visit the leaves left to right and stop at the first one
   * satisfying `f`.
   */
  method Find<T>(c: ConcatList<T>, f: T -> bool) returns (r: Maybe<T>)
    ensures r.Nothing? ==> forall k :: 0 <= k < |Leaves(c)| ==> !f(Leaves(c)[k])
    ensures r.Just? ==> f(r.value)
    ensures r.Just? ==> exists k :: 0 <= k < |Leaves(c)| && Leaves(c)[k] == r.value
                                     && forall j :: 0 <= j < k ==> !f(Leaves(c)[j])
  {
    var stack := Push(c, Bottom);
    ghost var visited: seq<T> := [];
    assert visited + Pending(stack) == Leaves(c);
    while stack.Push?
      invariant visited + Pending(stack) == Leaves(c)
      invariant forall j :: 0 <= j < |visited| ==> !f(visited[j])
      decreases StackSize(stack)
    {
      var curr := stack.top;
      ghost var prev := stack;
      stack := stack.below;
      assert prev == Push(curr, stack);
      if curr.Fork? {
        PushChildren(curr, stack);
        stack := Push(curr.left, Push(curr.right, stack));
      } else if curr.Leaf? {
        assert visited + ([curr.data] + Pending(stack)) == (visited + [curr.data]) + Pending(stack);
        if f(curr.data) {
          assert Leaves(c)[|visited|] == curr.data;
          return Just(curr.data);
        }
        visited := visited + [curr.data];
      } else {
        assert Pending(prev) == [] + Pending(stack) == Pending(stack);
      }
    }
    return Nothing;
  }

  /** `exists(f)`: whether `find(f)` finds something. */
  method Exists<T>(c: ConcatList<T>, f: T -> bool) returns (b: bool)
    ensures b <==> exists k :: 0 <= k < |Leaves(c)| && f(Leaves(c)[k])
  {
    var m := Find(c, f);
    b := m.Just?;
  }

  /**
   * `reverse()`: `Empty` is returned as is; otherwise the leaves are
   * collected right to left and rebuilt with `fromList`.
   */
  method Reverse<T>(c: ConcatList<T>) returns (r: ConcatList<T>)
    ensures Valid(r)
    ensures Leaves(r) == Seqs.Reverse(Leaves(c))
    ensures c.Empty? ==> r == c
  {
    if c.Empty? {
      return c;
    }
    var list: seq<T> := [];
    var stack := Push(c, Bottom);
    assert StackLeaves(stack) + Seqs.Reverse(list) == Leaves(c);
    while stack.Push?
      invariant StackLeaves(stack) + Seqs.Reverse(list) == Leaves(c)
      decreases StackSize(stack)
    {
      var curr := stack.top;
      ghost var prev := stack;
      stack := stack.below;
      assert prev == Push(curr, stack);
      if curr.Fork? {
        PushChildren(curr, stack);
        stack := Push(curr.right, Push(curr.left, stack));
      } else if curr.Leaf? {
        assert StackLeaves(prev) == StackLeaves(stack) + [curr.data];
        ReverseSnoc(StackLeaves(stack), list, curr.data);
        list := list + [curr.data];
      } else {
        assert Leaves(curr) == [];
        assert StackLeaves(prev) == StackLeaves(stack) + [] == StackLeaves(stack);
      }
    }
    assert Seqs.Reverse(list) == [] + Seqs.Reverse(list) == Leaves(c);
    Seqs.ReverseInvolutive(list);
    r := Of(list);
  }

  /** Moving the last remaining leaf onto the reversed collection. */
  lemma ReverseSnoc<T>(rest: seq<T>, list: seq<T>, x: T)
    ensures (rest + [x]) + Seqs.Reverse(list) == rest + Seqs.Reverse(list + [x])
  {
    Seqs.ReverseAppend(list, [x]);
    assert Seqs.Reverse([x]) == [x];
  }

  /**
   * `toList()` of a `Fork`: walk down right spines, pushing left children,
   * and cons each leaf met, so the list is built from its last element.
   */
  method ToList<T>(c: ConcatList<T>) returns (out: ImmutableLists.List<T>)
    ensures ImmutableLists.Elems(out) == Leaves(c)
  {
    match c {
      case Empty =>
        return ImmutableLists.Nil;
      case Leaf(x) =>
        return ImmutableLists.Cons(x, ImmutableLists.Nil);
      case Fork(_, _, _, _) =>
    }
    out := ImmutableLists.Nil;
    var stack := Push(c.left, Bottom);
    var next := c.right;
    while true
      invariant StackLeaves(stack) + Leaves(next) + ImmutableLists.Elems(out) == Leaves(c)
      decreases StackSize(stack) + NodeCount(next)
    {
      if next.Fork? {
        stack := Push(next.left, stack);
        next := next.right;
      } else {
        if next.Leaf? {
          out := ImmutableLists.Cons(next.data, out);
        }
        if stack.Bottom? {
          break;
        }
        next := stack.top;
        stack := stack.below;
      }
    }
  }
}

=== FILE: hash_table.dfy ===
// The hash array mapped trie of HashTable.java.
//
// A table is a hasher plus a root node. A node is Empty, a Leaf holding a
// collision list of entries whose remaining hash all equal the leaf's
// `baseHash`, or a Fork with 32 slots, each either null or a child node.
// Each level of the trie consumes five bits of the hash: the slot of a key
// is `hash & 31` and the child sees `hash >>> 5`.
//
// The Java hash is a 32-bit int; it is modelled by its unsigned value, a
// natural number below 2^32, so `& 31` is `% 32` and `>>> 5` is `/ 32`.
// Key equality is Dafny's `==` on the key type: the equality hasher and the
// identity hasher differ only in what their keys are, which is the key
// type's business here.
module HashTables {
  import opened Maybes
  import Seqs
  import ImmutableLists

  type Hash = h: int | 0 <= h < 0x1_0000_0000

  /** The hash function of a hasher. */
  datatype Hasher<!K> = Hasher(hash: K -> Hash)

  datatype Node<K, V> =
    | Empty
    | Leaf(baseHash: Hash, dataList: seq<(K, V)>, length: int)
    | Fork(children: seq<Slot<K, V>>, length: int)

  /** A fork slot: Java's array element, which may be null. */
  type Slot<K, V> = Nullable<Node<K, V>>

  datatype HashTable<!K, V> = HashTable(hasher: Hasher<K>, root: Node<K, V>)

  const Width := 32

  /** The part of a hash seen `depth` levels down: `hash >>> (5 * depth)`. */
  function Shift(h: Hash, depth: nat): Hash
  {
    if depth == 0 then h else Shift(h, depth - 1) / 32
  }

  /** The stored length field; zero for Empty. */
  function Length<K, V>(t: Node<K, V>): int
  {
    match t
    case Empty => 0
    case Leaf(_, _, n) => n
    case Fork(_, n) => n
  }

  function SlotLength<K, V>(s: Slot<K, V>): int
  {
    match s
    case Null => 0
    case Ref(c) => Length(c)
  }

  /** The sum of the length fields of the non-null slots. */
  function SumLengths<K, V>(cs: seq<Slot<K, V>>): int
  {
    if |cs| == 0 then 0 else SlotLength(cs[0]) + SumLengths(cs[1..])
  }

  /** Every fork has 32 slots, all the way down. */
  ghost predicate Shaped<K, V>(t: Node<K, V>)
  {
    match t
    case Fork(cs, _) => |cs| == Width && forall i :: 0 <= i < |cs| && cs[i].Ref? ==> Shaped(cs[i].target)
    case _ => true
  }

  /** The entries in the order foldLeft visits them: slot 0 first, each collision list front to back. */
  function Entries<K, V>(t: Node<K, V>): seq<(K, V)>
    decreases t, 1
  {
    match t
    case Empty => []
    case Leaf(_, es, _) => es
    case Fork(cs, _) => Seqs.Flatten(ChildEntries(t))
  }

  function ChildEntries<K, V>(t: Node<K, V>): (r: seq<seq<(K, V)>>)
    requires t.Fork?
    ensures |r| == |t.children|
    decreases t, 0
  {
    seq(|t.children|, i requires 0 <= i < |t.children| => SlotEntries(t.children[i]))
  }

  function SlotEntries<K, V>(s: Slot<K, V>): seq<(K, V)>
    decreases s
  {
    match s
    case Null => []
    case Ref(c) => Entries(c)
  }

  // ---- collision lists ----

  /** The key of every entry appears nowhere else in the list. */
  ghost predicate DistinctKeys<K, V>(es: seq<(K, V)>)
  {
    forall i, j :: 0 <= i < j < |es| ==> es[i].0 != es[j].0
  }

  /** Leaf.get: the value of the first entry with the key. */
  function Lookup<K(==), V>(es: seq<(K, V)>, k: K): Maybe<V>
  {
    if |es| == 0 then Nothing
    else if es[0].0 == k then Just(es[0].1)
    else Lookup(es[1..], k)
  }

  /** Leaf.containsKey: some entry has the key. */
  function HasKey<K(==), V>(es: seq<(K, V)>, k: K): bool
  {
    if |es| == 0 then false else es[0].0 == k || HasKey(es[1..], k)
  }

  /**
   * The mapAccumL of Leaf.put: the first entry with the key gets the new
   * value, everything else is kept; the flag says whether one was found.
   */
  function ReplaceFirst<K(==), V>(es: seq<(K, V)>, k: K, v: V): (bool, seq<(K, V)>)
  {
    if |es| == 0 then (false, [])
    else if es[0].0 == k then (true, [(k, v)] + es[1..])
    else
      var rest := ReplaceFirst(es[1..], k, v);
      (rest.0, [es[0]] + rest.1)
  }

  /**
   * The foldRight of Leaf.remove: walking from the back, the first entry
   * with the key is dropped; the flag says whether one was.
   */
  function RemoveLast<K(==), V>(es: seq<(K, V)>, k: K): (bool, seq<(K, V)>)
  {
    if |es| == 0 then (false, [])
    else
      var rest := RemoveLast(es[1..], k);
      if rest.0 then (true, [es[0]] + rest.1)
      else if es[0].0 == k then (true, rest.1)
      else (false, [es[0]] + rest.1)
  }

  // ---- validity ----

  /**
   * The invariant of a node `depth` levels down under hash function `hf`:
   * a leaf's length is its list's length, its keys are distinct and all have
   * remaining hash `baseHash`; a fork has 32 slots, its length is the sum of
   * its children's, and slot i holds valid children whose keys have i as
   * the five bits this level consumes. A fork child may be Empty.
   */
  ghost predicate Valid<K, V>(t: Node<K, V>, hf: K -> Hash, depth: nat)
    decreases t, 0
  {
    match t
    case Empty => true
    case Leaf(b, es, n) =>
      && n == |es|
      && DistinctKeys(es)
      && forall j :: 0 <= j < |es| ==> Shift(hf(es[j].0), depth) == b
    case Fork(cs, n) =>
      && |cs| == Width
      && n == SumLengths(cs)
      && forall i :: 0 <= i < |cs| ==>
           && Routed(SlotEntries(cs[i]), hf, depth, i)
           && (cs[i].Ref? ==> Valid(cs[i].target, hf, depth + 1))
  }

  /** Every key in the list has `i` as the five bits consumed `depth` levels down. */
  ghost predicate Routed<K, V>(es: seq<(K, V)>, hf: K -> Hash, depth: nat, i: int)
  {
    forall j :: 0 <= j < |es| ==> Shift(hf(es[j].0), depth) % 32 == i
  }

  /** A key found in a routed list is routed. */
  lemma RoutedKey<K, V>(es: seq<(K, V)>, hf: K -> Hash, depth: nat, i: int, k: K)
    requires Routed(es, hf, depth, i) && HasKey(es, k)
    ensures Shift(hf(k), depth) % 32 == i
  {
    HasKeyIndex(es, k);
  }

  ghost predicate ValidTable<K, V>(t: HashTable<K, V>)
  {
    Valid(t.root, t.hasher.hash, 0)
  }

  // ---- node operations; `h` is the key's remaining hash ----

  function NodeGet<K(==), V>(t: Node<K, V>, k: K, h: Hash): Maybe<V>
    requires Shaped(t)
  {
    match t
    case Empty => Nothing
    case Leaf(b, es, _) => if h != b then Nothing else Lookup(es, k)
    case Fork(cs, _) =>
      match cs[h % 32]
      case Null => Nothing
      case Ref(c) => NodeGet(c, k, h / 32)
  }

  function NodeContainsKey<K(==), V>(t: Node<K, V>, k: K, h: Hash): bool
    requires Shaped(t)
  {
    match t
    case Empty => false
    case Leaf(b, es, _) => h == b && HasKey(es, k)
    case Fork(cs, _) =>
      match cs[h % 32]
      case Null => false
      case Ref(c) => NodeContainsKey(c, k, h / 32)
  }

  function NullSlots<K, V>(): (r: seq<Slot<K, V>>)
    ensures |r| == Width && forall i :: 0 <= i < |r| ==> r[i] == Null
  {
    seq(Width, _ => Null)
  }

  /** Leaf.toFork: the collision list moves one level down, into the slot of its base hash. */
  function ToFork<K, V>(b: Hash, es: seq<(K, V)>, n: int): Node<K, V>
  {
    Fork(NullSlots()[b % 32 := Ref(Leaf(b / 32, es, n))], n)
  }

  /**
   * Leaf.put. With the leaf's own hash the key's entry is replaced in place,
   * or the entry is consed on the front; with another hash the leaf becomes a
   * fork (toFork) and the put goes on there, which can only reach this
   * function again, one level down.
   */
  function LeafPut<K(==), V>(b: Hash, es: seq<(K, V)>, n: int, k: K, v: V, h: Hash): (r: Node<K, V>)
    ensures Shaped(r)
    decreases b + h
  {
    if h == b then
      var (found, es') := ReplaceFirst(es, k, v);
      if found then Leaf(b, es', n) else Leaf(b, [(k, v)] + es, n + 1)
    else
      var cs := NullSlots()[b % 32 := Ref(Leaf(b / 32, es, n))];
      var i := h % 32;
      var child := if cs[i].Null? then Leaf(h / 32, [], 0) else cs[i].target;
      var put := LeafPut(child.baseHash, child.dataList, child.length, k, v, h / 32);
      Fork(cs[i := Ref(put)], n - child.length + Length(put))
  }

  /** put on a node: Empty.put, Leaf.put, Fork.put. */
  function NodePut<K(==), V>(t: Node<K, V>, k: K, v: V, h: Hash): (r: Node<K, V>)
    requires Shaped(t)
    ensures Shaped(r)
  {
    match t
    case Empty => Leaf(h, [(k, v)], 1)
    case Leaf(b, es, n) => LeafPut(b, es, n, k, v, h)
    case Fork(cs, n) =>
      var i := h % 32;
      match cs[i]
      case Null =>
        var put := LeafPut(h / 32, [], 0, k, v, h / 32);
        Fork(cs[i := Ref(put)], n - 0 + Length(put))
      case Ref(c) =>
        var put := NodePut(c, k, v, h / 32);
        Fork(cs[i := Ref(put)], n - Length(c) + Length(put))
  }

  /**
   * remove on a node: Nothing when the key is absent. A leaf that loses its
   * last entry becomes Empty; a fork of length one becomes Empty; otherwise
   * the fork keeps the child's result in the slot, even when it is Empty.
   */
  function NodeRemove<K(==), V>(t: Node<K, V>, k: K, h: Hash): (r: Maybe<Node<K, V>>)
    requires Shaped(t)
    ensures r.Just? ==> Shaped(r.value)
  {
    match t
    case Empty => Nothing
    case Leaf(b, es, n) =>
      if b != h then Nothing
      else
        var (found, es') := RemoveLast(es, k);
        if !found then Nothing
        else if n == 1 then Just(Empty)
        else Just(Leaf(b, es', n - 1))
    case Fork(cs, n) =>
      var i := h % 32;
      match cs[i]
      case Null => Nothing
      case Ref(c) =>
        match NodeRemove(c, k, h / 32)
        case Nothing => Nothing
        case Just(c') => Just(if n == 1 then Empty else Fork(cs[i := Ref(c')], n - 1))
  }

  /** What merge promises for one key: the merger combines two values, a lone value is kept. */
  function MergeValues<V>(a: Maybe<V>, b: Maybe<V>, merger: (V, V) -> V): Maybe<V>
  {
    match (a, b)
    case (Just(x), Just(y)) => Just(merger(x, y))
    case (Just(_), Nothing) => a
    case (Nothing, _) => b
  }

  /** The index loop of Leaf.merge: the first position holding the key, or the list's length. */
  function IndexOfKey<K(==), V>(es: seq<(K, V)>, k: K): (r: nat)
    ensures r <= |es|
    ensures r < |es| ==> es[r].0 == k
    ensures forall j :: 0 <= j < r ==> es[j].0 != k
  {
    if |es| == 0 then 0
    else if es[0].0 == k then 0
    else 1 + IndexOfKey(es[1..], k)
  }

  /**
   * The foldLeft of Leaf.merge over the other leaf's list: an entry whose key
   * is in `pairs` merges into that pair's value; any other entry is consed
   * onto `right`.
   */
  function CombineFrom<K(==), V>(pairs: seq<(K, V)>, right: seq<(K, V)>, other: seq<(K, V)>, merger: (V, V) -> V)
    : (seq<(K, V)>, seq<(K, V)>)
    decreases |other|
  {
    if |other| == 0 then (pairs, right)
    else
      var kv := other[0];
      var j := IndexOfKey(pairs, kv.0);
      if j < |pairs| then
        CombineFrom(pairs[j := (pairs[j].0, merger(pairs[j].1, kv.1))], right, other[1..], merger)
      else
        CombineFrom(pairs, [kv] + right, other[1..], merger)
  }

  /** Leaf.merge of two leaves with the same base hash: the merged pairs, then the other leaf's new entries. */
  function CombineLeaves<K(==), V>(b: Hash, es1: seq<(K, V)>, es2: seq<(K, V)>, merger: (V, V) -> V): Node<K, V>
  {
    var (pairs, right) := CombineFrom(es1, [], es2, merger);
    Leaf(b, pairs + right, |pairs + right|)
  }

  /**
   * Leaf.merge of two leaves. With different base hashes both become forks
   * (toFork, then mergeFork): a slot only one of them uses keeps that leaf,
   * and the one slot both use, when there is one, merges the two leaves one
   * level down. The fork's length sums its slots, as mergeFork counts.
   */
  function MergeLeafLeaf<K(==), V>(b1: Hash, es1: seq<(K, V)>, n1: int, b2: Hash, es2: seq<(K, V)>, n2: int, merger: (V, V) -> V)
    : (r: Node<K, V>)
    ensures Shaped(r)
    decreases b1 + b2
  {
    if b1 == b2 then CombineLeaves(b1, es1, es2, merger)
    else
      var cs1 := ToFork(b1, es1, n1).children;
      var cs2 := ToFork(b2, es2, n2).children;
      var cs := seq(Width, i requires 0 <= i < Width =>
        if cs1[i].Null? then cs2[i]
        else if cs2[i].Null? then cs1[i]
        else Ref(MergeLeafLeaf(b1 / 32, es1, n1, b2 / 32, es2, n2, merger)));
      Fork(cs, SumLengths(cs))
  }

  /** Leaf.merge of a leaf with any node. */
  function MergeLeafNode<K(==), V>(b: Hash, es: seq<(K, V)>, n: int, t: Node<K, V>, merger: (V, V) -> V): (r: Node<K, V>)
    requires Shaped(t)
    ensures Shaped(r)
    decreases t, 1
  {
    match t
    case Empty => Leaf(b, es, n)
    case Leaf(b2, es2, n2) => MergeLeafLeaf(b, es, n, b2, es2, n2, merger)
    case Fork(_, _) => MergeLeafFork(b, es, n, t, merger)
  }

  /** Leaf.merge of a leaf with a fork: toFork, then mergeFork. */
  function MergeLeafFork<K(==), V>(b: Hash, es: seq<(K, V)>, n: int, f: Node<K, V>, merger: (V, V) -> V): (r: Node<K, V>)
    requires f.Fork? && Shaped(f)
    ensures Shaped(r)
    decreases f, 0
  {
    var cs1 := ToFork(b, es, n).children;
    var cs2 := f.children;
    var cs := seq(Width, i requires 0 <= i < Width =>
      if cs1[i].Null? then cs2[i]
      else if cs2[i].Null? then cs1[i]
      else Ref(MergeLeafNode(b / 32, es, n, cs2[i].target, merger)));
    Fork(cs, SumLengths(cs))
  }

  /** merge of any node with a leaf: Empty.merge returns the leaf, Leaf.merge, Fork.merge. */
  function MergeNodeLeaf<K(==), V>(t: Node<K, V>, b: Hash, es: seq<(K, V)>, n: int, merger: (V, V) -> V): (r: Node<K, V>)
    requires Shaped(t)
    ensures Shaped(r)
    decreases t, 1
  {
    match t
    case Empty => Leaf(b, es, n)
    case Leaf(b1, es1, n1) => MergeLeafLeaf(b1, es1, n1, b, es, n, merger)
    case Fork(_, _) => MergeForkLeaf(t, b, es, n, merger)
  }

  /** Fork.merge of a fork with a leaf: mergeFork with the leaf's toFork. */
  function MergeForkLeaf<K(==), V>(f: Node<K, V>, b: Hash, es: seq<(K, V)>, n: int, merger: (V, V) -> V): (r: Node<K, V>)
    requires f.Fork? && Shaped(f)
    ensures Shaped(r)
    decreases f, 0
  {
    var cs1 := f.children;
    var cs2 := ToFork(b, es, n).children;
    var cs := seq(Width, i requires 0 <= i < Width =>
      if cs1[i].Null? then cs2[i]
      else if cs2[i].Null? then cs1[i]
      else Ref(MergeNodeLeaf(cs1[i].target, b / 32, es, n, merger)));
    Fork(cs, SumLengths(cs))
  }

  /** mergeFork of two forks: slot by slot, a null slot takes the other's child, two children merge. */
  function MergeForks<K(==), V>(f1: Node<K, V>, f2: Node<K, V>, merger: (V, V) -> V): (r: Node<K, V>)
    requires f1.Fork? && Shaped(f1) && f2.Fork? && Shaped(f2)
    ensures Shaped(r)
    decreases f1, f2, 0
  {
    var cs1 := f1.children;
    var cs2 := f2.children;
    var cs := seq(Width, i requires 0 <= i < Width =>
      if cs1[i].Null? then cs2[i]
      else if cs2[i].Null? then cs1[i]
      else Ref(NodeMerge(cs1[i].target, cs2[i].target, merger)));
    Fork(cs, SumLengths(cs))
  }

  /** merge on nodes: Empty.merge, Leaf.merge, Fork.merge. Values of keys in both go through `merger(this, other)`. */
  function NodeMerge<K(==), V>(t1: Node<K, V>, t2: Node<K, V>, merger: (V, V) -> V): (r: Node<K, V>)
    requires Shaped(t1) && Shaped(t2)
    ensures Shaped(r)
    decreases t1, t2, 1
  {
    match t1
    case Empty => t2
    case Leaf(b, es, n) => MergeLeafNode(b, es, n, t2, merger)
    case Fork(_, _) =>
      match t2
      case Empty => t1
      case Leaf(b2, es2, n2) => MergeForkLeaf(t1, b2, es2, n2, merger)
      case Fork(_, _) => MergeForks(t1, t2, merger)
  }

  // ---- collision-list facts ----

  lemma {:induction false} HasKeyIndex<K, V>(es: seq<(K, V)>, k: K)
    ensures !HasKey(es, k) <==> forall j :: 0 <= j < |es| ==> es[j].0 != k
    decreases |es|
  {
    if |es| > 0 {
      HasKeyIndex(es[1..], k);
      assert forall j :: 0 < j < |es| ==> es[j] == es[1..][j - 1];
    }
  }

  lemma HasKeySingle<K, V>(e: (K, V), k: K)
    ensures HasKey([e], k) == (e.0 == k)
  {
    assert [e][1..] == [];
  }

  lemma {:induction false} LookupHasKey<K, V>(es: seq<(K, V)>, k: K)
    ensures Lookup(es, k).Just? <==> HasKey(es, k)
    decreases |es|
  {
    if |es| > 0 && es[0].0 != k {
      LookupHasKey(es[1..], k);
    }
  }

  /** With distinct keys, lookup finds every entry of the list. */
  lemma {:induction false} LookupAt<K, V>(es: seq<(K, V)>, j: int)
    requires DistinctKeys(es) && 0 <= j < |es|
    ensures Lookup(es, es[j].0) == Just(es[j].1)
    decreases j
  {
    if j > 0 {
      assert es[0].0 != es[j].0;
      assert DistinctKeys(es[1..]) by {
        forall a, b | 0 <= a < b < |es| - 1 ensures es[1..][a].0 != es[1..][b].0 {
          assert es[1..][a] == es[a + 1] && es[1..][b] == es[b + 1];
        }
      }
      LookupAt(es[1..], j - 1);
    }
  }

  lemma {:induction false} HasKeyAppend<K, V>(a: seq<(K, V)>, b: seq<(K, V)>, k: K)
    ensures HasKey(a + b, k) == (HasKey(a, k) || HasKey(b, k))
    decreases |a|
  {
    if |a| == 0 {
      assert a + b == b;
    } else {
      assert (a + b)[1..] == a[1..] + b;
      HasKeyAppend(a[1..], b, k);
    }
  }

  lemma {:induction false} LookupAppend<K, V>(a: seq<(K, V)>, b: seq<(K, V)>, k: K)
    ensures Lookup(a + b, k) == if HasKey(a, k) then Lookup(a, k) else Lookup(b, k)
    decreases |a|
  {
    if |a| == 0 {
      assert a + b == b;
    } else {
      assert (a + b)[1..] == a[1..] + b;
      LookupAppend(a[1..], b, k);
    }
  }

  /** A key no part holds is not in the concatenation. */
  lemma {:induction false} FlattenNoKey<K, V>(ss: seq<seq<(K, V)>>, k: K)
    requires forall j :: 0 <= j < |ss| ==> !HasKey(ss[j], k)
    ensures !HasKey(Seqs.Flatten(ss), k)
    decreases |ss|
  {
    if |ss| > 0 {
      FlattenNoKey(ss[1..], k);
      HasKeyAppend(ss[0], Seqs.Flatten(ss[1..]), k);
    }
  }

  /** When only part i can hold the key, looking it up in the concatenation looks in part i. */
  lemma {:induction false} FlattenLookup<K, V>(ss: seq<seq<(K, V)>>, i: int, k: K)
    requires 0 <= i < |ss|
    requires forall j :: 0 <= j < |ss| && j != i ==> !HasKey(ss[j], k)
    ensures Lookup(Seqs.Flatten(ss), k) == Lookup(ss[i], k)
    decreases |ss|
  {
    LookupAppend(ss[0], Seqs.Flatten(ss[1..]), k);
    if i == 0 {
      FlattenNoKey(ss[1..], k);
      LookupHasKey(ss[0], k);
      LookupHasKey(Seqs.Flatten(ss[1..]), k);
    } else {
      FlattenLookup(ss[1..], i - 1, k);
    }
  }

  lemma {:induction false} DistinctAppend<K, V>(a: seq<(K, V)>, b: seq<(K, V)>)
    requires DistinctKeys(a) && DistinctKeys(b)
    requires forall k :: HasKey(a, k) ==> !HasKey(b, k)
    ensures DistinctKeys(a + b)
  {
    forall i, j | 0 <= i < j < |a + b| ensures (a + b)[i].0 != (a + b)[j].0 {
      if i < |a| <= j {
        HasKeyIndex(a, a[i].0);
        HasKeyIndex(b, a[i].0);
        assert (a + b)[j] == b[j - |a|];
      }
    }
  }

  /** Parts with distinct keys and pairwise disjoint key sets concatenate to a list with distinct keys. */
  lemma {:induction false} FlattenDistinct<K, V>(ss: seq<seq<(K, V)>>)
    requires forall j :: 0 <= j < |ss| ==> DistinctKeys(ss[j])
    requires forall j1, j2, k :: 0 <= j1 < j2 < |ss| && HasKey(ss[j1], k) ==> !HasKey(ss[j2], k)
    ensures DistinctKeys(Seqs.Flatten(ss))
    decreases |ss|
  {
    if |ss| > 0 {
      FlattenDistinct(ss[1..]);
      forall k | HasKey(ss[0], k) ensures !HasKey(Seqs.Flatten(ss[1..]), k) {
        FlattenNoKey(ss[1..], k);
      }
      DistinctAppend(ss[0], Seqs.Flatten(ss[1..]));
    }
  }

  /** Slot lengths that count their parts sum to the length of the concatenation. */
  lemma {:induction false} FlattenLength<K, V>(cs: seq<Slot<K, V>>, ss: seq<seq<(K, V)>>)
    requires |cs| == |ss|
    requires forall j :: 0 <= j < |cs| ==> SlotLength(cs[j]) == |ss[j]|
    ensures SumLengths(cs) == |Seqs.Flatten(ss)|
    decreases |cs|
  {
    if |cs| > 0 {
      FlattenLength(cs[1..], ss[1..]);
    }
  }

  // ---- the abstraction ----

  lemma {:induction false} ValidShaped<K, V>(t: Node<K, V>, hf: K -> Hash, depth: nat)
    requires Valid(t, hf, depth)
    ensures Shaped(t)
    decreases t
  {
    if t.Fork? {
      forall i | 0 <= i < |t.children| && t.children[i].Ref? ensures Shaped(t.children[i].target) {
        ValidShaped(t.children[i].target, hf, depth + 1);
      }
    }
  }

  /** A key's remaining hash one level down is the old one without its slot bits. */
  lemma ShiftNext(h: Hash, depth: nat)
    ensures Shift(h, depth + 1) == Shift(h, depth) / 32
  {
  }

  /**
   * On a valid node, get along the key's own hash finds exactly what a
   * lookup in the entry list finds.
   */
  lemma {:induction false} GetLookup<K, V>(t: Node<K, V>, hf: K -> Hash, depth: nat, k: K)
    requires Valid(t, hf, depth)
    ensures Shaped(t)
    ensures NodeGet(t, k, Shift(hf(k), depth)) == Lookup(Entries(t), k)
    decreases t
  {
    ValidShaped(t, hf, depth);
    var h := Shift(hf(k), depth);
    match t
    case Empty =>
    case Leaf(b, es, _) =>
      if h != b {
        HasKeyIndex(es, k);
        LookupHasKey(es, k);
      }
    case Fork(cs, _) =>
      var i := h % 32;
      var ss := ChildEntries(t);
      forall j | 0 <= j < |ss| && j != i ensures !HasKey(ss[j], k) {
        if HasKey(ss[j], k) {
          RoutedKey(ss[j], hf, depth, j, k);
        }
      }
      FlattenLookup(ss, i, k);
      if cs[i].Ref? {
        GetLookup(cs[i].target, hf, depth + 1, k);
      }
  }

  /** The length field of a valid node counts its entries, and no key occurs twice. */
  lemma {:induction false} LengthEntries<K, V>(t: Node<K, V>, hf: K -> Hash, depth: nat)
    requires Valid(t, hf, depth)
    ensures Length(t) == |Entries(t)|
    ensures DistinctKeys(Entries(t))
    decreases t
  {
    match t
    case Empty =>
    case Leaf(_, _, _) =>
    case Fork(cs, _) =>
      var ss := ChildEntries(t);
      forall j | 0 <= j < |cs| ensures SlotLength(cs[j]) == |ss[j]| && DistinctKeys(ss[j]) {
        if cs[j].Ref? {
          LengthEntries(cs[j].target, hf, depth + 1);
        }
      }
      FlattenLength(cs, ss);
      forall j1, j2, k | 0 <= j1 < j2 < |ss| && HasKey(ss[j1], k) ensures !HasKey(ss[j2], k) {
        RoutedKey(ss[j1], hf, depth, j1, k);
        if HasKey(ss[j2], k) {
          RoutedKey(ss[j2], hf, depth, j2, k);
        }
      }
      FlattenDistinct(ss);
  }

  /** Whether a valid node holds a key is whether get along its hash finds it. */
  lemma GetHasKey<K, V>(t: Node<K, V>, hf: K -> Hash, depth: nat, k: K)
    requires Valid(t, hf, depth)
    ensures Shaped(t)
    ensures HasKey(Entries(t), k) == NodeGet(t, k, Shift(hf(k), depth)).Just?
  {
    GetLookup(t, hf, depth, k);
    LookupHasKey(Entries(t), k);
  }

  /** A list whose keys are those of a routed list, or one more routed key, is routed. */
  lemma RoutedSubset<K, V>(a: seq<(K, V)>, b: seq<(K, V)>, hf: K -> Hash, depth: nat, i: int, k: K)
    requires Routed(a, hf, depth, i) && Shift(hf(k), depth) % 32 == i
    requires forall key :: HasKey(b, key) ==> key == k || HasKey(a, key)
    ensures Routed(b, hf, depth, i)
  {
    forall j | 0 <= j < |b| ensures Shift(hf(b[j].0), depth) % 32 == i {
      HasKeyIndex(b, b[j].0);
      if b[j].0 != k {
        RoutedKey(a, hf, depth, i, b[j].0);
      }
    }
  }

  lemma {:induction false} SumLengthsUpdate<K, V>(cs: seq<Slot<K, V>>, i: int, x: Slot<K, V>)
    requires 0 <= i < |cs|
    ensures SumLengths(cs[i := x]) == SumLengths(cs) - SlotLength(cs[i]) + SlotLength(x)
    decreases |cs|
  {
    if i == 0 {
      assert cs[i := x][1..] == cs[1..];
    } else {
      assert cs[i := x][1..] == cs[1..][i - 1 := x];
      SumLengthsUpdate(cs[1..], i - 1, x);
    }
  }

  lemma {:induction false} SumLengthsNull<K, V>(cs: seq<Slot<K, V>>)
    requires forall j :: 0 <= j < |cs| ==> cs[j] == Null
    ensures SumLengths(cs) == 0
    decreases |cs|
  {
    if |cs| > 0 {
      SumLengthsNull(cs[1..]);
    }
  }

  // ---- put ----

  /** The first entry with the key gets the new value; keys stay where they were. */
  lemma {:induction false} ReplaceFirstSpec<K, V>(es: seq<(K, V)>, k: K, v: V)
    ensures ReplaceFirst(es, k, v).0 == HasKey(es, k)
    ensures |ReplaceFirst(es, k, v).1| == |es|
    ensures forall j :: 0 <= j < |es| ==> ReplaceFirst(es, k, v).1[j].0 == es[j].0
    ensures HasKey(es, k) ==> Lookup(ReplaceFirst(es, k, v).1, k) == Just(v)
    ensures forall k' :: k' != k ==> Lookup(ReplaceFirst(es, k, v).1, k') == Lookup(es, k')
    decreases |es|
  {
    if |es| > 0 {
      var r := ReplaceFirst(es, k, v).1;
      assert r[1..] == if es[0].0 == k then es[1..] else ReplaceFirst(es[1..], k, v).1;
      if es[0].0 != k {
        ReplaceFirstSpec(es[1..], k, v);
      }
    }
  }

  /**
   * Get after Leaf.put: the put key maps to the new value and every other
   * key reads as before. Only the hashes matter: equal keys have equal hashes.
   */
  lemma {:induction false} LeafPutGet<K, V>(b: Hash, es: seq<(K, V)>, n: int, k: K, v: V, h: Hash, k': K, h': Hash)
    requires k == k' ==> h == h'
    ensures NodeGet(LeafPut(b, es, n, k, v, h), k', h') == if k' == k then Just(v) else NodeGet(Leaf(b, es, n), k', h')
    decreases b + h
  {
    if h == b {
      ReplaceFirstSpec(es, k, v);
      assert ([(k, v)] + es)[1..] == es;
    } else {
      var cs := NullSlots()[b % 32 := Ref(Leaf(b / 32, es, n))];
      var i := h % 32;
      var child := if cs[i].Null? then Leaf(h / 32, [], 0) else cs[i].target;
      LeafPutGet(child.baseHash, child.dataList, child.length, k, v, h / 32, k', h' / 32);
      assert h' % 32 == b % 32 ==> (h' == b <==> h' / 32 == b / 32);
    }
  }

  /** Get after put on any well-shaped node. */
  lemma {:induction false} PutGet<K, V>(t: Node<K, V>, k: K, v: V, h: Hash, k': K, h': Hash)
    requires Shaped(t)
    requires k == k' ==> h == h'
    ensures NodeGet(NodePut(t, k, v, h), k', h') == if k' == k then Just(v) else NodeGet(t, k', h')
    decreases t
  {
    match t
    case Empty =>
      assert Lookup([(k, v)], k') == if k' == k then Just(v) else Lookup([(k, v)][1..], k');
    case Leaf(b, es, n) =>
      LeafPutGet(b, es, n, k, v, h, k', h');
    case Fork(cs, n) =>
      if h' % 32 == h % 32 {
        match cs[h % 32]
        case Null =>
          LeafPutGet(h / 32, [], 0, k, v, h / 32, k', h' / 32);
        case Ref(c) =>
          PutGet(c, k, v, h / 32, k', h' / 32);
      }
  }

  /** Parts that are all empty but one concatenate to that one. */
  lemma {:induction false} FlattenSingle<A>(ss: seq<seq<A>>, i: int)
    requires 0 <= i < |ss|
    requires forall j :: 0 <= j < |ss| && j != i ==> ss[j] == []
    ensures Seqs.Flatten(ss) == ss[i]
    decreases |ss|
  {
    if i == 0 {
      assert Seqs.Flatten(ss[1..]) == [] by {
        if |ss| > 1 {
          FlattenSingle(ss[1..], 0);
        }
      }
      assert ss[0] + [] == ss[0];
    } else {
      FlattenSingle(ss[1..], i - 1);
    }
  }

  /** toFork keeps a leaf's entries, in order, and its length. */
  lemma ToForkEntries<K, V>(b: Hash, es: seq<(K, V)>, n: int)
    ensures Entries(ToFork(b, es, n)) == es
    ensures Length(ToFork(b, es, n)) == n
  {
    var f := ToFork(b, es, n);
    var ss := ChildEntries(f);
    assert f.children[b % 32] == Ref(Leaf(b / 32, es, n));
    assert ss[b % 32] == SlotEntries(f.children[b % 32]) == es;
    forall j | 0 <= j < |ss| && j != b % 32 ensures ss[j] == [] {
      assert f.children[j] == Null;
      assert ss[j] == SlotEntries(f.children[j]);
    }
    FlattenSingle(ss, b % 32);
  }

  /** A valid leaf moved one level down, as toFork moves it, is valid there and routed to its slot. */
  lemma LeafDown<K, V>(b: Hash, es: seq<(K, V)>, n: int, hf: K -> Hash, depth: nat)
    requires Valid(Leaf(b, es, n), hf, depth)
    ensures Valid(Leaf(b / 32, es, n), hf, depth + 1)
    ensures Routed(es, hf, depth, b % 32)
  {
    forall j | 0 <= j < |es| ensures Shift(hf(es[j].0), depth + 1) == b / 32 {
      ShiftNext(hf(es[j].0), depth);
    }
  }

  /** toFork of a valid leaf is a valid fork. */
  lemma ToForkValid<K, V>(b: Hash, es: seq<(K, V)>, n: int, hf: K -> Hash, depth: nat)
    requires Valid(Leaf(b, es, n), hf, depth)
    ensures Valid(ToFork(b, es, n), hf, depth)
  {
    var none := NullSlots<K, V>();
    var leaf := Leaf(b / 32, es, n);
    NullForkValid<K, V>(hf, depth);
    LeafDown(b, es, n, hf, depth);
    ForkUpdateValid(Fork(none, 0), b % 32, leaf, hf, depth);
    assert SlotLength(none[b % 32]) == 0 && Length(leaf) == n;
  }

  /** A fork whose slots are all null is valid at any depth. */
  lemma NullForkValid<K, V>(hf: K -> Hash, depth: nat)
    ensures Valid(Fork(NullSlots<K, V>(), 0), hf, depth)
  {
    var none := NullSlots<K, V>();
    SumLengthsNull(none);
    forall j | 0 <= j < Width ensures SlotEntries(none[j]) == [] {
      assert none[j] == Null;
    }
  }

  /** Replacing one slot of a valid fork by a valid child routed to it leaves a valid fork. */
  lemma ForkUpdateValid<K, V>(f: Node<K, V>, i: int, x: Node<K, V>, hf: K -> Hash, depth: nat)
    requires f.Fork? && Valid(f, hf, depth) && 0 <= i < Width
    requires Valid(x, hf, depth + 1) && Routed(Entries(x), hf, depth, i)
    ensures Valid(Fork(f.children[i := Ref(x)], f.length - SlotLength(f.children[i]) + Length(x)), hf, depth)
  {
    SumLengthsUpdate(f.children, i, Ref(x));
  }

  /**
   * The child a put goes into, after routing, keeps its slot: its new keys
   * are its old ones and the put key, which routes there too.
   */
  lemma PutRouted<K, V>(child: Node<K, V>, put: Node<K, V>, k: K, hf: K -> Hash, depth: nat, i: int)
    requires Valid(child, hf, depth + 1) && Valid(put, hf, depth + 1)
    requires Shaped(child) && Shaped(put)
    requires Routed(Entries(child), hf, depth, i) && Shift(hf(k), depth) % 32 == i
    requires forall key :: NodeGet(put, key, Shift(hf(key), depth + 1)).Just? ==>
      key == k || NodeGet(child, key, Shift(hf(key), depth + 1)).Just?
    ensures Routed(Entries(put), hf, depth, i)
  {
    forall key | HasKey(Entries(put), key) ensures key == k || HasKey(Entries(child), key) {
      GetHasKey(put, hf, depth + 1, key);
      GetHasKey(child, hf, depth + 1, key);
    }
    RoutedSubset(Entries(child), Entries(put), hf, depth, i, k);
  }

  /** The child a put descends into stays routed to its slot. */
  lemma NodePutRouted<K, V>(child: Node<K, V>, k: K, v: V, hf: K -> Hash, depth: nat, i: int)
    requires Valid(child, hf, depth + 1) && Shaped(child)
    requires Routed(Entries(child), hf, depth, i) && Shift(hf(k), depth) % 32 == i
    requires Valid(NodePut(child, k, v, Shift(hf(k), depth + 1)), hf, depth + 1)
    ensures Routed(Entries(NodePut(child, k, v, Shift(hf(k), depth + 1))), hf, depth, i)
  {
    var put := NodePut(child, k, v, Shift(hf(k), depth + 1));
    forall key | NodeGet(put, key, Shift(hf(key), depth + 1)).Just?
      ensures key == k || NodeGet(child, key, Shift(hf(key), depth + 1)).Just?
    {
      PutGet(child, k, v, Shift(hf(k), depth + 1), key, Shift(hf(key), depth + 1));
    }
    ValidShaped(put, hf, depth + 1);
    PutRouted(child, put, k, hf, depth, i);
  }

  /** Leaf.put keeps a valid leaf valid and grows it by one exactly when the key is new. */
  lemma {:induction false} LeafPutValid<K, V>(b: Hash, es: seq<(K, V)>, n: int, k: K, v: V, hf: K -> Hash, depth: nat)
    requires Valid(Leaf(b, es, n), hf, depth)
    ensures var r := LeafPut(b, es, n, k, v, Shift(hf(k), depth));
      && Valid(r, hf, depth)
      && Length(r) == n + (if Shift(hf(k), depth) == b && HasKey(es, k) then 0 else 1)
    decreases b + Shift(hf(k), depth), 1
  {
    var h := Shift(hf(k), depth);
    if h == b {
      ReplaceFirstSpec(es, k, v);
      if !HasKey(es, k) {
        HasKeyIndex(es, k);
        var es' := [(k, v)] + es;
        assert forall j :: 0 < j < |es'| ==> es'[j] == es[j - 1];
      }
    } else {
      LeafSplitValid(b, es, n, k, v, hf, depth);
    }
  }

  /** The toFork branch of Leaf.put: the key's hash differs from the leaf's, so the key is new. */
  lemma {:induction false} LeafSplitValid<K, V>(b: Hash, es: seq<(K, V)>, n: int, k: K, v: V, hf: K -> Hash, depth: nat)
    requires Valid(Leaf(b, es, n), hf, depth) && Shift(hf(k), depth) != b
    ensures var r := LeafPut(b, es, n, k, v, Shift(hf(k), depth));
      && Valid(r, hf, depth)
      && Length(r) == n + 1
    decreases b + Shift(hf(k), depth), 0
  {
    var h := Shift(hf(k), depth);
    ToForkValid(b, es, n, hf, depth);
    ToForkEntries(b, es, n);
    var f := ToFork(b, es, n);
    var cs := f.children;
    var i := h % 32;
    var child := if cs[i].Null? then Leaf(h / 32, [], 0) else cs[i].target;
    assert child.length == SlotLength(cs[i]);
    ShiftNext(hf(k), depth);
    LeafPutValid(child.baseHash, child.dataList, child.length, k, v, hf, depth + 1);
    HasKeyIndex(es, k);
    var put := LeafPut(child.baseHash, child.dataList, child.length, k, v, h / 32);
    assert put == NodePut(child, k, v, h / 32);
    assert Routed(Entries(child), hf, depth, i);
    NodePutRouted(child, k, v, hf, depth, i);
    ForkUpdateValid(f, i, put, hf, depth);
  }

  /** put keeps a valid node valid and grows it by one exactly when get did not find the key. */
  lemma {:induction false} PutValid<K, V>(t: Node<K, V>, k: K, v: V, hf: K -> Hash, depth: nat)
    requires Valid(t, hf, depth)
    ensures Shaped(t)
    ensures var h := Shift(hf(k), depth);
      && Valid(NodePut(t, k, v, h), hf, depth)
      && Length(NodePut(t, k, v, h)) == Length(t) + (if NodeGet(t, k, h).Just? then 0 else 1)
    decreases t, 1
  {
    ValidShaped(t, hf, depth);
    var h := Shift(hf(k), depth);
    match t
    case Empty =>
    case Leaf(b, es, n) =>
      LeafPutValid(b, es, n, k, v, hf, depth);
      LookupHasKey(es, k);
    case Fork(cs, n) =>
      ForkPutValid(t, k, v, hf, depth);
  }

  /** Fork.put: the child in the key's slot takes the put, or a fresh leaf does. */
  lemma {:induction false} ForkPutValid<K, V>(t: Node<K, V>, k: K, v: V, hf: K -> Hash, depth: nat)
    requires t.Fork? && Valid(t, hf, depth)
    ensures Shaped(t)
    ensures var h := Shift(hf(k), depth);
      && Valid(NodePut(t, k, v, h), hf, depth)
      && Length(NodePut(t, k, v, h)) == Length(t) + (if NodeGet(t, k, h).Just? then 0 else 1)
    decreases t, 0
  {
    ValidShaped(t, hf, depth);
    var h := Shift(hf(k), depth);
    var cs := t.children;
    var i := h % 32;
    ShiftNext(hf(k), depth);
    var child := if cs[i].Null? then Leaf(h / 32, [], 0) else cs[i].target;
    var put := NodePut(t, k, v, h).children[i].target;
    if cs[i].Null? {
      LeafPutValid(h / 32, [], 0, k, v, hf, depth + 1);
    } else {
      PutValid(child, k, v, hf, depth + 1);
    }
    assert put == NodePut(child, k, v, h / 32);
    assert Routed(Entries(child), hf, depth, i);
    NodePutRouted(child, k, v, hf, depth, i);
    ForkUpdateValid(t, i, put, hf, depth);
  }

  // ---- remove ----

  lemma {:induction false} RemoveLastFound<K, V>(es: seq<(K, V)>, k: K)
    ensures RemoveLast(es, k).0 == HasKey(es, k)
    ensures !HasKey(es, k) ==> RemoveLast(es, k).1 == es
    ensures HasKey(es, k) ==> |RemoveLast(es, k).1| == |es| - 1
    decreases |es|
  {
    if |es| > 0 {
      RemoveLastFound(es[1..], k);
      if !HasKey(es, k) {
        assert [es[0]] + es[1..] == es;
      }
    }
  }

  /** Dropping an entry with the key leaves every other key's lookup alone and adds no key. */
  lemma {:induction false} RemoveLastLookup<K, V>(es: seq<(K, V)>, k: K, k': K)
    ensures k' != k ==> Lookup(RemoveLast(es, k).1, k') == Lookup(es, k')
    ensures HasKey(RemoveLast(es, k).1, k') ==> HasKey(es, k')
    decreases |es|
  {
    if |es| > 0 {
      var rest := RemoveLast(es[1..], k);
      RemoveLastLookup(es[1..], k, k');
      assert ([es[0]] + rest.1)[1..] == rest.1;
    }
  }

  /** With distinct keys, the one entry with the key is gone. */
  lemma {:induction false} RemoveLastDistinct<K, V>(es: seq<(K, V)>, k: K)
    requires DistinctKeys(es)
    ensures DistinctKeys(RemoveLast(es, k).1)
    ensures !HasKey(RemoveLast(es, k).1, k)
    decreases |es|
  {
    if |es| > 0 {
      var tail := es[1..];
      assert DistinctKeys(tail) by {
        forall a, b | 0 <= a < b < |tail| ensures tail[a].0 != tail[b].0 {
          assert tail[a] == es[a + 1] && tail[b] == es[b + 1];
        }
      }
      RemoveLastDistinct(tail, k);
      var rest := RemoveLast(tail, k);
      HasKeyIndex(tail, es[0].0);
      HasKeyIndex(tail, k);
      RemoveLastLookup(tail, k, es[0].0);
      RemoveLastFound(tail, k);
      if rest.0 {
        forall key | HasKey([es[0]], key) ensures !HasKey(rest.1, key) {
          HasKeySingle(es[0], key);
          assert forall j :: 0 <= j < |tail| ==> tail[j] == es[j + 1];
        }
        DistinctAppend([es[0]], rest.1);
        HasKeyAppend([es[0]], rest.1, k);
        assert [es[0]][1..] == [];
      }
    }
  }

  /**
   * Get after remove: remove reports Nothing exactly when get finds no value
   * for the key; otherwise the key is gone and every other key reads as before.
   */
  lemma {:induction false} RemoveGet<K, V>(t: Node<K, V>, hf: K -> Hash, depth: nat, k: K, k': K)
    requires Valid(t, hf, depth)
    ensures Shaped(t)
    ensures var r := NodeRemove(t, k, Shift(hf(k), depth));
      && (r.Nothing? <==> NodeGet(t, k, Shift(hf(k), depth)).Nothing?)
      && (r.Just? ==>
            NodeGet(r.value, k', Shift(hf(k'), depth)) ==
            (if k' == k then Nothing else NodeGet(t, k', Shift(hf(k'), depth))))
    decreases t
  {
    ValidShaped(t, hf, depth);
    var h := Shift(hf(k), depth);
    var h' := Shift(hf(k'), depth);
    match t
    case Empty =>
    case Leaf(b, es, n) =>
      LookupHasKey(es, k);
      RemoveLastFound(es, k);
      RemoveLastLookup(es, k, k');
      RemoveLastDistinct(es, k);
      LookupHasKey(RemoveLast(es, k).1, k);
      if b == h && HasKey(es, k) && n == 1 && k' != k {
        HasKeyIndex(es, k);
        assert es[0].0 == k;
        assert Lookup(es, k') == Lookup(es[1..], k');
      }
    case Fork(cs, n) =>
      var i := h % 32;
      ShiftNext(hf(k), depth);
      ShiftNext(hf(k'), depth);
      if cs[i].Ref? {
        RemoveGet(cs[i].target, hf, depth + 1, k, k');
        if n == 1 && NodeRemove(t, k, h).Just? && k' != k {
          LengthEntries(t, hf, depth);
          GetHasKey(t, hf, depth, k);
          GetHasKey(t, hf, depth, k');
          HasKeyIndex(Entries(t), k);
          HasKeyIndex(Entries(t), k');
        }
      }
  }

  /** remove keeps a valid node valid and, when it finds the key, shrinks it by one. */
  lemma {:induction false} RemoveValid<K, V>(t: Node<K, V>, hf: K -> Hash, depth: nat, k: K)
    requires Valid(t, hf, depth)
    ensures Shaped(t)
    ensures var r := NodeRemove(t, k, Shift(hf(k), depth));
      r.Just? ==> Valid(r.value, hf, depth) && Length(r.value) == Length(t) - 1
    decreases t, 1
  {
    ValidShaped(t, hf, depth);
    var h := Shift(hf(k), depth);
    match t
    case Empty =>
    case Leaf(b, es, n) =>
      LeafRemoveValid(b, es, n, hf, depth, k);
    case Fork(cs, n) =>
      ForkRemoveValid(t, hf, depth, k);
  }

  /** Fork.remove: a fork that keeps entries keeps its slots routed. */
  lemma {:induction false} ForkRemoveValid<K, V>(t: Node<K, V>, hf: K -> Hash, depth: nat, k: K)
    requires t.Fork? && Valid(t, hf, depth)
    ensures Shaped(t)
    ensures var r := NodeRemove(t, k, Shift(hf(k), depth));
      r.Just? ==> Valid(r.value, hf, depth) && Length(r.value) == Length(t) - 1
    decreases t, 0
  {
    ValidShaped(t, hf, depth);
    var h := Shift(hf(k), depth);
    var cs, n := t.children, t.length;
    var i := h % 32;
    ShiftNext(hf(k), depth);
    if cs[i].Ref? && NodeRemove(t, k, h).Just? && n != 1 {
      var c := cs[i].target;
      var c' := NodeRemove(c, k, h / 32).value;
      RemoveValid(c, hf, depth + 1, k);
      ValidShaped(c', hf, depth + 1);
      forall key | NodeGet(c', key, Shift(hf(key), depth + 1)).Just?
        ensures key == k || NodeGet(c, key, Shift(hf(key), depth + 1)).Just?
      {
        RemoveGet(c, hf, depth + 1, k, key);
      }
      assert Routed(Entries(c), hf, depth, i);
      PutRouted(c, c', k, hf, depth, i);
      ForkUpdateValid(t, i, c', hf, depth);
    }
  }


  /** Leaf.remove keeps a valid leaf valid. */
  lemma LeafRemoveValid<K, V>(b: Hash, es: seq<(K, V)>, n: int, hf: K -> Hash, depth: nat, k: K)
    requires Valid(Leaf(b, es, n), hf, depth)
    ensures var r := NodeRemove(Leaf(b, es, n), k, Shift(hf(k), depth));
      r.Just? ==> Valid(r.value, hf, depth) && Length(r.value) == n - 1
  {
    RemoveLastFound(es, k);
    RemoveLastDistinct(es, k);
    var es' := RemoveLast(es, k).1;
    forall j | 0 <= j < |es'| ensures Shift(hf(es'[j].0), depth) == b {
      HasKeyIndex(es', es'[j].0);
      RemoveLastLookup(es, k, es'[j].0);
      HasKeyIndex(es, es'[j].0);
    }
  }

  // ---- merge: combining two collision lists ----

  lemma DistinctTail<K, V>(es: seq<(K, V)>)
    requires DistinctKeys(es) && |es| > 0
    ensures DistinctKeys(es[1..])
    ensures !HasKey(es[1..], es[0].0)
  {
    HasKeyIndex(es[1..], es[0].0);
    forall a, b | 0 <= a < b < |es| - 1 ensures es[1..][a].0 != es[1..][b].0 {
      assert es[1..][a] == es[a + 1] && es[1..][b] == es[b + 1];
    }
  }

  /** Lists with the same keys in the same places hold the same keys. */
  lemma SameKeys<K, V>(a: seq<(K, V)>, b: seq<(K, V)>)
    requires |a| == |b| && forall j :: 0 <= j < |a| ==> a[j].0 == b[j].0
    ensures forall k :: HasKey(a, k) == HasKey(b, k)
    ensures DistinctKeys(a) == DistinctKeys(b)
  {
    forall k ensures HasKey(a, k) == HasKey(b, k) {
      HasKeyIndex(a, k);
      HasKeyIndex(b, k);
    }
  }

  /** Writing a pair with the same key at the key's first position changes that key's lookup only. */
  lemma {:induction false} LookupUpdateFirst<K, V>(pairs: seq<(K, V)>, x: (K, V), k: K)
    requires IndexOfKey(pairs, x.0) < |pairs|
    ensures Lookup(pairs, x.0) == Just(pairs[IndexOfKey(pairs, x.0)].1)
    ensures Lookup(pairs[IndexOfKey(pairs, x.0) := x], k) == if k == x.0 then Just(x.1) else Lookup(pairs, k)
    decreases |pairs|
  {
    var j := IndexOfKey(pairs, x.0);
    if j > 0 {
      assert pairs[j := x][1..] == pairs[1..][j - 1 := x];
      LookupUpdateFirst(pairs[1..], x, k);
    }
  }

  /** The pairs after the fold keep their keys in place. */
  lemma {:induction false} CombineKeys<K, V>(pairs: seq<(K, V)>, right: seq<(K, V)>, other: seq<(K, V)>, merger: (V, V) -> V)
    ensures var p := CombineFrom(pairs, right, other, merger).0;
      |p| == |pairs| && forall j :: 0 <= j < |p| ==> p[j].0 == pairs[j].0
    decreases |other|
  {
    if |other| > 0 {
      var kv := other[0];
      var j := IndexOfKey(pairs, kv.0);
      if j < |pairs| {
        CombineKeys(pairs[j := (pairs[j].0, merger(pairs[j].1, kv.1))], right, other[1..], merger);
      } else {
        CombineKeys(pairs, [kv] + right, other[1..], merger);
      }
    }
  }

  /** A key of `pairs` ends up with its value merged with the other list's value, if it has one. */
  lemma {:induction false} CombinePairs<K, V>(pairs: seq<(K, V)>, right: seq<(K, V)>, other: seq<(K, V)>, merger: (V, V) -> V, k: K)
    requires DistinctKeys(other)
    ensures Lookup(CombineFrom(pairs, right, other, merger).0, k) ==
      if Lookup(pairs, k).Just? then MergeValues(Lookup(pairs, k), Lookup(other, k), merger) else Nothing
    decreases |other|
  {
    if |other| > 0 {
      var kv := other[0];
      var j := IndexOfKey(pairs, kv.0);
      DistinctTail(other);
      LookupHasKey(other[1..], kv.0);
      if j < |pairs| {
        var x := (pairs[j].0, merger(pairs[j].1, kv.1));
        LookupUpdateFirst(pairs, x, k);
        CombinePairs(pairs[j := x], right, other[1..], merger, k);
      } else {
        HasKeyIndex(pairs, kv.0);
        LookupHasKey(pairs, kv.0);
        CombinePairs(pairs, [kv] + right, other[1..], merger, k);
      }
    }
  }

  /** The entries consed onto `right` are the other list's entries whose key `pairs` lacks. */
  lemma {:induction false} CombineRight<K, V>(pairs: seq<(K, V)>, right: seq<(K, V)>, other: seq<(K, V)>, merger: (V, V) -> V, k: K)
    requires DistinctKeys(other) && DistinctKeys(right)
    requires forall key :: HasKey(right, key) ==> !HasKey(other, key) && !HasKey(pairs, key)
    ensures var r := CombineFrom(pairs, right, other, merger).1;
      && DistinctKeys(r)
      && HasKey(r, k) == (HasKey(right, k) || (HasKey(other, k) && !HasKey(pairs, k)))
      && Lookup(r, k) == if HasKey(other, k) && !HasKey(pairs, k) then Lookup(other, k) else Lookup(right, k)
    decreases |other|
  {
    if |other| > 0 {
      var kv := other[0];
      var j := IndexOfKey(pairs, kv.0);
      DistinctTail(other);
      assert forall key :: HasKey(other[1..], key) ==> HasKey(other, key);
      assert forall key :: key != kv.0 ==> HasKey(other[1..], key) == HasKey(other, key);
      if j < |pairs| {
        var x := (pairs[j].0, merger(pairs[j].1, kv.1));
        CombineKeysOne(pairs, x);
        HasKeyIndex(pairs, kv.0);
        CombineRight(pairs[j := x], right, other[1..], merger, k);
      } else {
        HasKeyIndex(pairs, kv.0);
        var right' := [kv] + right;
        assert right'[1..] == right;
        forall key | HasKey([kv], key) ensures !HasKey(right, key) {
          HasKeySingle(kv, key);
        }
        DistinctAppend([kv], right);
        assert forall key :: HasKey(right', key) == (key == kv.0 || HasKey(right, key));
        CombineRight(pairs, right', other[1..], merger, k);
      }
    }
  }

  /** Updating one pair without changing its key keeps the keys. */
  lemma CombineKeysOne<K, V>(pairs: seq<(K, V)>, x: (K, V))
    requires IndexOfKey(pairs, x.0) < |pairs|
    ensures forall key :: HasKey(pairs[IndexOfKey(pairs, x.0) := x], key) == HasKey(pairs, key)
  {
    SameKeys(pairs[IndexOfKey(pairs, x.0) := x], pairs);
  }

  // ---- merge: nodes ----

  /** For key `k`, get on `r` finds what MergeValues makes of the values get finds in `t1` and `t2`. */
  ghost predicate MergedAt<K, V>(r: Node<K, V>, t1: Node<K, V>, t2: Node<K, V>, merger: (V, V) -> V, hf: K -> Hash, depth: nat, k: K)
  {
    && Shaped(r) && Shaped(t1) && Shaped(t2)
    && NodeGet(r, k, Shift(hf(k), depth)) ==
         MergeValues(NodeGet(t1, k, Shift(hf(k), depth)), NodeGet(t2, k, Shift(hf(k), depth)), merger)
  }

  /** Where both forks have a child in slot i, the slot of `cs` holds their merge, as far as key `k` goes. */
  ghost predicate ChildMergedAt<K, V>(cs: seq<Slot<K, V>>, f1: Node<K, V>, f2: Node<K, V>, i: int,
                                      merger: (V, V) -> V, hf: K -> Hash, depth: nat, k: K)
    requires f1.Fork? && f2.Fork? && |cs| == |f1.children| == |f2.children| && 0 <= i < |cs|
  {
    f1.children[i].Ref? && f2.children[i].Ref? ==>
      cs[i].Ref? && MergedAt(cs[i].target, f1.children[i].target, f2.children[i].target, merger, hf, depth + 1, k)
  }

  /** Keys drawn from two routed lists are routed. */
  lemma RoutedUnion<K, V>(a1: seq<(K, V)>, a2: seq<(K, V)>, b: seq<(K, V)>, hf: K -> Hash, depth: nat, i: int)
    requires Routed(a1, hf, depth, i) && Routed(a2, hf, depth, i)
    requires forall key :: HasKey(b, key) ==> HasKey(a1, key) || HasKey(a2, key)
    ensures Routed(b, hf, depth, i)
  {
    forall j | 0 <= j < |b| ensures Shift(hf(b[j].0), depth) % 32 == i {
      HasKeyIndex(b, b[j].0);
      if HasKey(a1, b[j].0) {
        RoutedKey(a1, hf, depth, i, b[j].0);
      } else {
        RoutedKey(a2, hf, depth, i, b[j].0);
      }
    }
  }

  /** toFork changes nothing get can see. */
  lemma ToForkGet<K, V>(b: Hash, es: seq<(K, V)>, n: int, k: K, h: Hash)
    ensures Shaped(ToFork(b, es, n))
    ensures NodeGet(ToFork(b, es, n), k, h) == NodeGet(Leaf(b, es, n), k, h)
  {
    assert h % 32 == b % 32 ==> (h == b <==> h / 32 == b / 32);
  }

  /** The leaf Leaf.merge builds from two same-hash leaves is valid. */
  lemma CombineLeavesValid<K, V>(b: Hash, es1: seq<(K, V)>, n1: int, es2: seq<(K, V)>, n2: int, merger: (V, V) -> V, hf: K -> Hash, depth: nat)
    requires Valid(Leaf(b, es1, n1), hf, depth) && Valid(Leaf(b, es2, n2), hf, depth)
    ensures Valid(CombineLeaves(b, es1, es2, merger), hf, depth)
  {
    var (p, r) := CombineFrom(es1, [], es2, merger);
    CombineKeys(es1, [], es2, merger);
    SameKeys(p, es1);
    forall key ensures HasKey(r, key) == (HasKey(es2, key) && !HasKey(es1, key)) && DistinctKeys(r) {
      CombineRight(es1, [], es2, merger, key);
    }
    assert DistinctKeys(r) by {
      if |es2| > 0 {
        CombineRight(es1, [], es2, merger, es2[0].0);
      } else {
        assert r == [];
      }
    }
    DistinctAppend(p, r);
    var l := p + r;
    forall j | 0 <= j < |l| ensures Shift(hf(l[j].0), depth) == b {
      if j >= |p| {
        assert l[j] == r[j - |p|];
        HasKeyIndex(r, l[j].0);
        HasKeyIndex(es2, l[j].0);
      }
    }
  }

  /** Leaf.merge of two same-hash leaves merges the values of shared keys and keeps the others. */
  lemma CombineLeavesMerged<K, V>(b: Hash, es1: seq<(K, V)>, n1: int, es2: seq<(K, V)>, n2: int, merger: (V, V) -> V, hf: K -> Hash, depth: nat)
    requires Valid(Leaf(b, es1, n1), hf, depth) && Valid(Leaf(b, es2, n2), hf, depth)
    ensures Valid(CombineLeaves(b, es1, es2, merger), hf, depth)
    ensures forall k :: MergedAt(CombineLeaves(b, es1, es2, merger), Leaf(b, es1, n1), Leaf(b, es2, n2), merger, hf, depth, k)
  {
    CombineLeavesValid(b, es1, n1, es2, n2, merger, hf, depth);
    var (p, r) := CombineFrom(es1, [], es2, merger);
    CombineKeys(es1, [], es2, merger);
    SameKeys(p, es1);
    forall k ensures Lookup(p + r, k) == MergeValues(Lookup(es1, k), Lookup(es2, k), merger) {
      CombineRight(es1, [], es2, merger, k);
      CombinePairs(es1, [], es2, merger, k);
      LookupAppend(p, r, k);
      LookupHasKey(es1, k);
      LookupHasKey(es2, k);
    }
  }

  /** The shape both mergeFork lemmas assume of the merged slots. */
  ghost predicate MergedSlots<K, V>(f1: Node<K, V>, f2: Node<K, V>, cs: seq<Slot<K, V>>, hf: K -> Hash, depth: nat)
    requires f1.Fork? && f2.Fork? && |f1.children| == |f2.children| == |cs| == Width
  {
    forall i :: 0 <= i < Width ==>
      if f1.children[i].Null? then cs[i] == f2.children[i]
      else if f2.children[i].Null? then cs[i] == f1.children[i]
      else cs[i].Ref? && Valid(cs[i].target, hf, depth + 1)
  }

  /** mergeFork keeps the slots routed, so its fork is valid. */
  lemma ForkMergedValid<K, V>(f1: Node<K, V>, f2: Node<K, V>, cs: seq<Slot<K, V>>, merger: (V, V) -> V, hf: K -> Hash, depth: nat)
    requires f1.Fork? && f2.Fork? && Valid(f1, hf, depth) && Valid(f2, hf, depth) && |cs| == Width
    requires MergedSlots(f1, f2, cs, hf, depth)
    requires forall i, k :: 0 <= i < Width ==> ChildMergedAt(cs, f1, f2, i, merger, hf, depth, k)
    ensures Valid(Fork(cs, SumLengths(cs)), hf, depth)
  {
    forall i | 0 <= i < Width && f1.children[i].Ref? && f2.children[i].Ref?
      ensures Routed(SlotEntries(cs[i]), hf, depth, i)
    {
      var c1, c2, x := f1.children[i].target, f2.children[i].target, cs[i].target;
      forall key | HasKey(Entries(x), key) ensures HasKey(Entries(c1), key) || HasKey(Entries(c2), key) {
        assert ChildMergedAt(cs, f1, f2, i, merger, hf, depth, key);
        GetHasKey(x, hf, depth + 1, key);
        GetHasKey(c1, hf, depth + 1, key);
        GetHasKey(c2, hf, depth + 1, key);
      }
      assert Routed(SlotEntries(f1.children[i]), hf, depth, i);
      assert Routed(SlotEntries(f2.children[i]), hf, depth, i);
      RoutedUnion(Entries(c1), Entries(c2), Entries(x), hf, depth, i);
    }
  }

  /**
   * mergeFork, in general: a fork whose slots take the other fork's child
   * where one is null and a merge of the two children where both are
   * present is a merge of the two forks.
   */
  lemma ForkMerged<K, V>(f1: Node<K, V>, f2: Node<K, V>, cs: seq<Slot<K, V>>, merger: (V, V) -> V, hf: K -> Hash, depth: nat)
    requires f1.Fork? && f2.Fork? && Valid(f1, hf, depth) && Valid(f2, hf, depth) && |cs| == Width
    requires MergedSlots(f1, f2, cs, hf, depth)
    requires forall i, k :: 0 <= i < Width ==> ChildMergedAt(cs, f1, f2, i, merger, hf, depth, k)
    ensures Valid(Fork(cs, SumLengths(cs)), hf, depth)
    ensures forall k :: MergedAt(Fork(cs, SumLengths(cs)), f1, f2, merger, hf, depth, k)
  {
    ValidShaped(f1, hf, depth);
    ValidShaped(f2, hf, depth);
    ForkMergedValid(f1, f2, cs, merger, hf, depth);
    var r := Fork(cs, SumLengths(cs));
    ValidShaped(r, hf, depth);
    forall k ensures MergedAt(r, f1, f2, merger, hf, depth, k) {
      ShiftNext(hf(k), depth);
      var i := Shift(hf(k), depth) % 32;
      assert ChildMergedAt(cs, f1, f2, i, merger, hf, depth, k);
    }
  }

  /** Leaf.merge of two valid leaves is a merge. */
  lemma {:induction false} MergeLeafLeafMerged<K, V>(b1: Hash, es1: seq<(K, V)>, n1: int, b2: Hash, es2: seq<(K, V)>, n2: int,
                                                     merger: (V, V) -> V, hf: K -> Hash, depth: nat)
    requires Valid(Leaf(b1, es1, n1), hf, depth) && Valid(Leaf(b2, es2, n2), hf, depth)
    ensures Valid(MergeLeafLeaf(b1, es1, n1, b2, es2, n2, merger), hf, depth)
    ensures forall k :: MergedAt(MergeLeafLeaf(b1, es1, n1, b2, es2, n2, merger), Leaf(b1, es1, n1), Leaf(b2, es2, n2), merger, hf, depth, k)
    decreases b1 + b2
  {
    if b1 == b2 {
      CombineLeavesMerged(b1, es1, n1, es2, n2, merger, hf, depth);
    } else {
      var f1, f2 := ToFork(b1, es1, n1), ToFork(b2, es2, n2);
      ToForkValid(b1, es1, n1, hf, depth);
      ToForkValid(b2, es2, n2, hf, depth);
      LeafDown(b1, es1, n1, hf, depth);
      LeafDown(b2, es2, n2, hf, depth);
      MergeLeafLeafMerged(b1 / 32, es1, n1, b2 / 32, es2, n2, merger, hf, depth + 1);
      var r := MergeLeafLeaf(b1, es1, n1, b2, es2, n2, merger);
      ForkMerged(f1, f2, r.children, merger, hf, depth);
      forall k ensures MergedAt(r, Leaf(b1, es1, n1), Leaf(b2, es2, n2), merger, hf, depth, k) {
        assert MergedAt(r, f1, f2, merger, hf, depth, k);
        ToForkGet(b1, es1, n1, k, Shift(hf(k), depth));
        ToForkGet(b2, es2, n2, k, Shift(hf(k), depth));
      }
    }
  }

  /** Leaf.merge of a valid leaf with any valid node is a merge. */
  lemma {:induction false} MergeLeafNodeMerged<K, V>(b: Hash, es: seq<(K, V)>, n: int, t: Node<K, V>, merger: (V, V) -> V, hf: K -> Hash, depth: nat)
    requires Valid(Leaf(b, es, n), hf, depth) && Valid(t, hf, depth)
    ensures Shaped(t)
    ensures Valid(MergeLeafNode(b, es, n, t, merger), hf, depth)
    ensures forall k :: MergedAt(MergeLeafNode(b, es, n, t, merger), Leaf(b, es, n), t, merger, hf, depth, k)
    decreases t, 1
  {
    ValidShaped(t, hf, depth);
    match t
    case Empty =>
    case Leaf(b2, es2, n2) =>
      MergeLeafLeafMerged(b, es, n, b2, es2, n2, merger, hf, depth);
    case Fork(_, _) =>
      MergeLeafForkMerged(b, es, n, t, merger, hf, depth);
  }

  lemma {:induction false} MergeLeafForkMerged<K, V>(b: Hash, es: seq<(K, V)>, n: int, f: Node<K, V>, merger: (V, V) -> V, hf: K -> Hash, depth: nat)
    requires f.Fork? && Valid(Leaf(b, es, n), hf, depth) && Valid(f, hf, depth)
    ensures Shaped(f)
    ensures Valid(MergeLeafFork(b, es, n, f, merger), hf, depth)
    ensures forall k :: MergedAt(MergeLeafFork(b, es, n, f, merger), Leaf(b, es, n), f, merger, hf, depth, k)
    decreases f, 0
  {
    ValidShaped(f, hf, depth);
    var f1 := ToFork(b, es, n);
    ToForkValid(b, es, n, hf, depth);
    LeafDown(b, es, n, hf, depth);
    var i := b % 32;
    if f.children[i].Ref? {
      MergeLeafNodeMerged(b / 32, es, n, f.children[i].target, merger, hf, depth + 1);
    }
    var r := MergeLeafFork(b, es, n, f, merger);
    ForkMerged(f1, f, r.children, merger, hf, depth);
    forall k ensures MergedAt(r, Leaf(b, es, n), f, merger, hf, depth, k) {
      assert MergedAt(r, f1, f, merger, hf, depth, k);
      ToForkGet(b, es, n, k, Shift(hf(k), depth));
    }
  }

  /** merge of any valid node with a valid leaf is a merge. */
  lemma {:induction false} MergeNodeLeafMerged<K, V>(t: Node<K, V>, b: Hash, es: seq<(K, V)>, n: int, merger: (V, V) -> V, hf: K -> Hash, depth: nat)
    requires Valid(t, hf, depth) && Valid(Leaf(b, es, n), hf, depth)
    ensures Shaped(t)
    ensures Valid(MergeNodeLeaf(t, b, es, n, merger), hf, depth)
    ensures forall k :: MergedAt(MergeNodeLeaf(t, b, es, n, merger), t, Leaf(b, es, n), merger, hf, depth, k)
    decreases t, 1
  {
    ValidShaped(t, hf, depth);
    match t
    case Empty =>
    case Leaf(b1, es1, n1) =>
      MergeLeafLeafMerged(b1, es1, n1, b, es, n, merger, hf, depth);
    case Fork(_, _) =>
      MergeForkLeafMerged(t, b, es, n, merger, hf, depth);
  }

  lemma {:induction false} MergeForkLeafMerged<K, V>(f: Node<K, V>, b: Hash, es: seq<(K, V)>, n: int, merger: (V, V) -> V, hf: K -> Hash, depth: nat)
    requires f.Fork? && Valid(f, hf, depth) && Valid(Leaf(b, es, n), hf, depth)
    ensures Shaped(f)
    ensures Valid(MergeForkLeaf(f, b, es, n, merger), hf, depth)
    ensures forall k :: MergedAt(MergeForkLeaf(f, b, es, n, merger), f, Leaf(b, es, n), merger, hf, depth, k)
    decreases f, 0
  {
    ValidShaped(f, hf, depth);
    var f2 := ToFork(b, es, n);
    ToForkValid(b, es, n, hf, depth);
    LeafDown(b, es, n, hf, depth);
    var i := b % 32;
    if f.children[i].Ref? {
      MergeNodeLeafMerged(f.children[i].target, b / 32, es, n, merger, hf, depth + 1);
    }
    var r := MergeForkLeaf(f, b, es, n, merger);
    ForkMerged(f, f2, r.children, merger, hf, depth);
    forall k ensures MergedAt(r, f, Leaf(b, es, n), merger, hf, depth, k) {
      assert MergedAt(r, f, f2, merger, hf, depth, k);
      ToForkGet(b, es, n, k, Shift(hf(k), depth));
    }
  }

  /** merge of two valid nodes under one hash function is a merge. */
  lemma {:induction false} NodeMergeMerged<K, V>(t1: Node<K, V>, t2: Node<K, V>, merger: (V, V) -> V, hf: K -> Hash, depth: nat)
    requires Valid(t1, hf, depth) && Valid(t2, hf, depth)
    ensures Shaped(t1) && Shaped(t2)
    ensures Valid(NodeMerge(t1, t2, merger), hf, depth)
    ensures forall k :: MergedAt(NodeMerge(t1, t2, merger), t1, t2, merger, hf, depth, k)
    decreases t1, t2, 1
  {
    ValidShaped(t1, hf, depth);
    ValidShaped(t2, hf, depth);
    match t1
    case Empty =>
    case Leaf(b, es, n) =>
      MergeLeafNodeMerged(b, es, n, t2, merger, hf, depth);
    case Fork(_, _) =>
      match t2
      case Empty =>
      case Leaf(b2, es2, n2) =>
        MergeForkLeafMerged(t1, b2, es2, n2, merger, hf, depth);
      case Fork(_, _) =>
        MergeForksMerged(t1, t2, merger, hf, depth);
  }

  lemma {:induction false} MergeForksMerged<K, V>(f1: Node<K, V>, f2: Node<K, V>, merger: (V, V) -> V, hf: K -> Hash, depth: nat)
    requires f1.Fork? && f2.Fork? && Valid(f1, hf, depth) && Valid(f2, hf, depth)
    ensures Shaped(f1) && Shaped(f2)
    ensures Valid(MergeForks(f1, f2, merger), hf, depth)
    ensures forall k :: MergedAt(MergeForks(f1, f2, merger), f1, f2, merger, hf, depth, k)
    decreases f1, f2, 0
  {
    ValidShaped(f1, hf, depth);
    ValidShaped(f2, hf, depth);
    var cs := MergeForks(f1, f2, merger).children;
    forall i, k | 0 <= i < Width ensures ChildMergedAt(cs, f1, f2, i, merger, hf, depth, k) {
      if f1.children[i].Ref? && f2.children[i].Ref? {
        NodeMergeMerged(f1.children[i].target, f2.children[i].target, merger, hf, depth + 1);
      }
    }
    forall i | 0 <= i < Width && f1.children[i].Ref? && f2.children[i].Ref?
      ensures cs[i].Ref? && Valid(cs[i].target, hf, depth + 1)
    {
      NodeMergeMerged(f1.children[i].target, f2.children[i].target, merger, hf, depth + 1);
    }
    ForkMerged(f1, f2, cs, merger, hf, depth);
  }

  // ---- containsKey ----

  /** containsKey along a hash holds exactly when get along it finds a value. */
  lemma {:induction false} ContainsKeyGet<K, V>(t: Node<K, V>, k: K, h: Hash)
    requires Shaped(t)
    ensures NodeContainsKey(t, k, h) == NodeGet(t, k, h).Just?
    decreases t
  {
    match t
    case Empty =>
    case Leaf(b, es, _) =>
      LookupHasKey(es, k);
    case Fork(cs, _) =>
      if cs[h % 32].Ref? {
        ContainsKeyGet(cs[h % 32].target, k, h / 32);
      }
  }

  // ---- map ----

  /** Pair.mapRight over a collision list: each value goes through `f`, keys and order stay. */
  function MapValues<K, V, B>(es: seq<(K, V)>, f: V -> B): seq<(K, B)>
  {
    seq(|es|, j requires 0 <= j < |es| => (es[j].0, f(es[j].1)))
  }

  /** map on a node: Empty stays Empty, a leaf maps its list, a fork maps each non-null child. */
  function NodeMap<K, V, B>(t: Node<K, V>, f: V -> B): Node<K, B>
    decreases t
  {
    match t
    case Empty => Empty
    case Leaf(b, es, n) => Leaf(b, MapValues(es, f), n)
    case Fork(cs, n) => Fork(seq(|cs|, i requires 0 <= i < |cs| => SlotMap(cs[i], f)), n)
  }

  function SlotMap<K, V, B>(s: Slot<K, V>, f: V -> B): Slot<K, B>
    decreases s
  {
    match s
    case Null => Null
    case Ref(c) => Ref(NodeMap(c, f))
  }

  lemma {:induction false} LookupMapValues<K, V, B>(es: seq<(K, V)>, f: V -> B, k: K)
    ensures Lookup(MapValues(es, f), k) == Maybes.Map(Lookup(es, k), f)
    decreases |es|
  {
    if |es| > 0 {
      assert MapValues(es, f)[1..] == MapValues(es[1..], f);
      LookupMapValues(es[1..], f, k);
    }
  }

  lemma {:induction false} FlattenMapValues<K, V, B>(ss: seq<seq<(K, V)>>, ms: seq<seq<(K, B)>>, f: V -> B)
    requires |ms| == |ss| && forall j :: 0 <= j < |ss| ==> ms[j] == MapValues(ss[j], f)
    ensures Seqs.Flatten(ms) == MapValues(Seqs.Flatten(ss), f)
    decreases |ss|
  {
    if |ss| > 0 {
      FlattenMapValues(ss[1..], ms[1..], f);
      assert MapValues(ss[0] + Seqs.Flatten(ss[1..]), f) == MapValues(ss[0], f) + MapValues(Seqs.Flatten(ss[1..]), f);
    }
  }

  /** map visits the same entries in the same order, each value sent through `f`. */
  lemma {:induction false} MapEntries<K, V, B>(t: Node<K, V>, f: V -> B)
    ensures Length(NodeMap(t, f)) == Length(t)
    ensures Entries(NodeMap(t, f)) == MapValues(Entries(t), f)
    decreases t
  {
    match t
    case Empty =>
    case Leaf(_, _, _) =>
    case Fork(cs, _) =>
      var m := NodeMap(t, f);
      forall i | 0 <= i < |cs| ensures ChildEntries(m)[i] == MapValues(ChildEntries(t)[i], f) {
        assert m.children[i] == SlotMap(cs[i], f);
        if cs[i].Ref? {
          MapEntries(cs[i].target, f);
        } else {
          assert MapValues(SlotEntries(cs[i]), f) == [];
        }
      }
      FlattenMapValues(ChildEntries(t), ChildEntries(m), f);
  }

  lemma {:induction false} SumLengthsMap<K, V, B>(cs: seq<Slot<K, V>>, ms: seq<Slot<K, B>>)
    requires |ms| == |cs| && forall j :: 0 <= j < |cs| ==> SlotLength(ms[j]) == SlotLength(cs[j])
    ensures SumLengths(ms) == SumLengths(cs)
    decreases |cs|
  {
    if |cs| > 0 {
      SumLengthsMap(cs[1..], ms[1..]);
    }
  }

  /** map keeps a node valid: the keys, and so their routes, do not change. */
  lemma {:induction false} MapValid<K, V, B>(t: Node<K, V>, f: V -> B, hf: K -> Hash, depth: nat)
    requires Valid(t, hf, depth)
    ensures Valid(NodeMap(t, f), hf, depth)
    decreases t
  {
    MapEntries(t, f);
    match t
    case Empty =>
    case Leaf(b, es, n) =>
      assert forall j :: 0 <= j < |es| ==> MapValues(es, f)[j].0 == es[j].0;
    case Fork(cs, n) =>
      var ms := NodeMap(t, f).children;
      forall i | 0 <= i < |cs|
        ensures SlotLength(ms[i]) == SlotLength(cs[i])
        ensures Routed(SlotEntries(ms[i]), hf, depth, i)
        ensures ms[i].Ref? ==> Valid(ms[i].target, hf, depth + 1)
      {
        if cs[i].Ref? {
          MapEntries(cs[i].target, f);
          MapValid(cs[i].target, f, hf, depth + 1);
          assert forall j :: 0 <= j < |SlotEntries(ms[i])| ==> SlotEntries(ms[i])[j].0 == SlotEntries(cs[i])[j].0;
        }
      }
      SumLengthsMap(cs, ms);
  }

  /** get after map is the old get with `f` applied to the value. */
  lemma {:induction false} MapGet<K, V, B>(t: Node<K, V>, f: V -> B, k: K, h: Hash)
    requires Shaped(t)
    ensures Shaped(NodeMap(t, f))
    ensures NodeGet(NodeMap(t, f), k, h) == Maybes.Map(NodeGet(t, k, h), f)
    decreases t
  {
    match t
    case Empty =>
    case Leaf(_, es, _) =>
      LookupMapValues(es, f, k);
    case Fork(cs, _) =>
      forall i | 0 <= i < |cs| && cs[i].Ref? ensures Shaped(NodeMap(cs[i].target, f)) {
        MapGet(cs[i].target, f, k, h);
      }
      if cs[h % 32].Ref? {
        MapGet(cs[h % 32].target, f, k, h / 32);
      }
  }

  // ---- traversals ----

  /** foldLeft on a node: a leaf folds its list, a fork its non-null children from slot 0 up. */
  function NodeFoldLeft<K, V, A>(t: Node<K, V>, f: (A, (K, V)) -> A, init: A): A
    decreases t, 1, 0
  {
    match t
    case Empty => init
    case Leaf(_, es, _) => ImmutableLists.FoldLeft(ImmutableLists.FromSeq(es), f, init)
    case Fork(_, _) => ForkFoldLeft(t, 0, f, init)
  }

  /** The loop of Fork.foldLeft from slot `i` on. */
  function ForkFoldLeft<K, V, A>(t: Node<K, V>, i: nat, f: (A, (K, V)) -> A, acc: A): A
    requires t.Fork? && i <= |t.children|
    decreases t, 0, |t.children| - i
  {
    if i == |t.children| then acc
    else match t.children[i]
      case Null => ForkFoldLeft(t, i + 1, f, acc)
      case Ref(c) => ForkFoldLeft(t, i + 1, f, NodeFoldLeft(c, f, acc))
  }

  /** foldRight on a node: a leaf folds its list, a fork its non-null children from the last slot down. */
  function NodeFoldRight<K, V, A>(t: Node<K, V>, f: ((K, V), A) -> A, init: A): A
    decreases t, 1, 0
  {
    match t
    case Empty => init
    case Leaf(_, es, _) => Seqs.FoldRight(es, f, init)
    case Fork(cs, _) => ForkFoldRight(t, |cs|, f, init)
  }

  /** The loop of Fork.foldRight over the slots below `i`, highest first. */
  function ForkFoldRight<K, V, A>(t: Node<K, V>, i: nat, f: ((K, V), A) -> A, acc: A): A
    requires t.Fork? && i <= |t.children|
    decreases t, 0, i
  {
    if i == 0 then acc
    else match t.children[i - 1]
      case Null => ForkFoldRight(t, i - 1, f, acc)
      case Ref(c) => ForkFoldRight(t, i - 1, f, NodeFoldRight(c, f, acc))
  }

  /** find on a node: the first entry, in foldLeft order, that satisfies `p`. */
  function NodeFind<K, V>(t: Node<K, V>, p: ((K, V)) -> bool): Maybe<(K, V)>
    decreases t, 1, 0
  {
    match t
    case Empty => Nothing
    case Leaf(_, es, _) => ImmutableLists.Find(ImmutableLists.FromSeq(es), p)
    case Fork(_, _) => ForkFind(t, 0, p)
  }

  /** The loop of Fork.find from slot `i` on; it returns at the first child that finds something. */
  function ForkFind<K, V>(t: Node<K, V>, i: nat, p: ((K, V)) -> bool): Maybe<(K, V)>
    requires t.Fork? && i <= |t.children|
    decreases t, 0, |t.children| - i
  {
    if i == |t.children| then Nothing
    else match t.children[i]
      case Null => ForkFind(t, i + 1, p)
      case Ref(c) =>
        var r := NodeFind(c, p);
        if r.Just? then r else ForkFind(t, i + 1, p)
  }

  /** findMap on a node: `f` of the first entry, in foldLeft order, on which it gives a value. */
  function NodeFindMap<K, V, R>(t: Node<K, V>, f: ((K, V)) -> Maybe<R>): Maybe<R>
    decreases t, 1, 0
  {
    match t
    case Empty => Nothing
    case Leaf(_, es, _) => ImmutableLists.FindMap(ImmutableLists.FromSeq(es), f)
    case Fork(_, _) => ForkFindMap(t, 0, f)
  }

  function ForkFindMap<K, V, R>(t: Node<K, V>, i: nat, f: ((K, V)) -> Maybe<R>): Maybe<R>
    requires t.Fork? && i <= |t.children|
    decreases t, 0, |t.children| - i
  {
    if i == |t.children| then Nothing
    else match t.children[i]
      case Null => ForkFindMap(t, i + 1, f)
      case Ref(c) =>
        var r := NodeFindMap(c, f);
        if r.Just? then r else ForkFindMap(t, i + 1, f)
  }

  /** The entries from slot `i` on. */
  lemma FlattenFrom<A>(ss: seq<seq<A>>, i: int)
    requires 0 <= i < |ss|
    ensures Seqs.Flatten(ss[i..]) == ss[i] + Seqs.Flatten(ss[i + 1..])
  {
    assert ss[i..][1..] == ss[i + 1..];
  }

  /** The entries of the slots below `i`. */
  lemma FlattenUpTo<A>(ss: seq<seq<A>>, i: int)
    requires 0 < i <= |ss|
    ensures Seqs.Flatten(ss[..i]) == Seqs.Flatten(ss[..i - 1]) + ss[i - 1]
  {
    assert ss[..i] == ss[..i - 1] + [ss[i - 1]];
    Seqs.FlattenAppend(ss[..i - 1], [ss[i - 1]]);
    assert [ss[i - 1]][1..] == [];
  }

  /** foldLeft folds the entries in the order Entries lists them. */
  lemma {:induction false} FoldLeftEntries<K, V, A>(t: Node<K, V>, f: (A, (K, V)) -> A, init: A)
    ensures NodeFoldLeft(t, f, init) == Seqs.FoldLeft(Entries(t), f, init)
    decreases t, 1, 0
  {
    if t.Fork? {
      ForkFoldLeftEntries(t, 0, f, init);
    }
  }

  lemma {:induction false} ForkFoldLeftEntries<K, V, A>(t: Node<K, V>, i: nat, f: (A, (K, V)) -> A, acc: A)
    requires t.Fork? && i <= |t.children|
    ensures ForkFoldLeft(t, i, f, acc) == Seqs.FoldLeft(Seqs.Flatten(ChildEntries(t)[i..]), f, acc)
    decreases t, 0, |t.children| - i
  {
    var ss := ChildEntries(t);
    if i < |t.children| {
      FlattenFrom(ss, i);
      Seqs.FoldLeftAppend(ss[i], Seqs.Flatten(ss[i + 1..]), f, acc);
      match t.children[i]
      case Null =>
        ForkFoldLeftEntries(t, i + 1, f, acc);
      case Ref(c) =>
        FoldLeftEntries(c, f, acc);
        ForkFoldLeftEntries(t, i + 1, f, NodeFoldLeft(c, f, acc));
    }
  }

  /** foldRight folds the entries in the order Entries lists them, from the back. */
  lemma {:induction false} FoldRightEntries<K, V, A>(t: Node<K, V>, f: ((K, V), A) -> A, init: A)
    ensures NodeFoldRight(t, f, init) == Seqs.FoldRight(Entries(t), f, init)
    decreases t, 1, 0
  {
    if t.Fork? {
      ForkFoldRightEntries(t, |t.children|, f, init);
      assert ChildEntries(t)[..|t.children|] == ChildEntries(t);
    }
  }

  lemma {:induction false} ForkFoldRightEntries<K, V, A>(t: Node<K, V>, i: nat, f: ((K, V), A) -> A, acc: A)
    requires t.Fork? && i <= |t.children|
    ensures ForkFoldRight(t, i, f, acc) == Seqs.FoldRight(Seqs.Flatten(ChildEntries(t)[..i]), f, acc)
    decreases t, 0, i
  {
    var ss := ChildEntries(t);
    if i > 0 {
      FlattenUpTo(ss, i);
      Seqs.FoldRightAppend(Seqs.Flatten(ss[..i - 1]), ss[i - 1], f, acc);
      match t.children[i - 1]
      case Null =>
        ForkFoldRightEntries(t, i - 1, f, acc);
      case Ref(c) =>
        FoldRightEntries(c, f, acc);
        ForkFoldRightEntries(t, i - 1, f, NodeFoldRight(c, f, acc));
    } else {
      assert ss[..0] == [];
    }
  }

  /** find over a concatenation looks in the second part only when the first has no match. */
  lemma {:induction false} FindAppend<T>(a: seq<T>, b: seq<T>, p: T -> bool)
    ensures ImmutableLists.Find(ImmutableLists.FromSeq(a + b), p)
         == var r := ImmutableLists.Find(ImmutableLists.FromSeq(a), p);
            if r.Just? then r else ImmutableLists.Find(ImmutableLists.FromSeq(b), p)
    decreases |a|
  {
    if |a| == 0 {
      assert a + b == b;
    } else {
      assert (a + b)[1..] == a[1..] + b;
      FindAppend(a[1..], b, p);
    }
  }

  lemma {:induction false} FindMapAppend<T, R>(a: seq<T>, b: seq<T>, f: T -> Maybe<R>)
    ensures ImmutableLists.FindMap(ImmutableLists.FromSeq(a + b), f)
         == var r := ImmutableLists.FindMap(ImmutableLists.FromSeq(a), f);
            if r.Just? then r else ImmutableLists.FindMap(ImmutableLists.FromSeq(b), f)
    decreases |a|
  {
    if |a| == 0 {
      assert a + b == b;
    } else {
      assert (a + b)[1..] == a[1..] + b;
      FindMapAppend(a[1..], b, f);
    }
  }

  /** find on a node is find on its entry list: the first entry satisfying `p`, in foldLeft order. */
  lemma {:induction false} FindEntries<K, V>(t: Node<K, V>, p: ((K, V)) -> bool)
    ensures NodeFind(t, p) == ImmutableLists.Find(ImmutableLists.FromSeq(Entries(t)), p)
    decreases t, 1, 0
  {
    if t.Fork? {
      ForkFindEntries(t, 0, p);
    }
  }

  lemma {:induction false} ForkFindEntries<K, V>(t: Node<K, V>, i: nat, p: ((K, V)) -> bool)
    requires t.Fork? && i <= |t.children|
    ensures ForkFind(t, i, p) == ImmutableLists.Find(ImmutableLists.FromSeq(Seqs.Flatten(ChildEntries(t)[i..])), p)
    decreases t, 0, |t.children| - i
  {
    var ss := ChildEntries(t);
    if i < |t.children| {
      FlattenFrom(ss, i);
      FindAppend(ss[i], Seqs.Flatten(ss[i + 1..]), p);
      ForkFindEntries(t, i + 1, p);
      if t.children[i].Ref? {
        FindEntries(t.children[i].target, p);
      }
    } else {
      assert ss[i..] == [];
    }
  }

  /** findMap on a node is findMap on its entry list. */
  lemma {:induction false} FindMapEntries<K, V, R>(t: Node<K, V>, f: ((K, V)) -> Maybe<R>)
    ensures NodeFindMap(t, f) == ImmutableLists.FindMap(ImmutableLists.FromSeq(Entries(t)), f)
    decreases t, 1, 0
  {
    if t.Fork? {
      ForkFindMapEntries(t, 0, f);
    }
  }

  lemma {:induction false} ForkFindMapEntries<K, V, R>(t: Node<K, V>, i: nat, f: ((K, V)) -> Maybe<R>)
    requires t.Fork? && i <= |t.children|
    ensures ForkFindMap(t, i, f) == ImmutableLists.FindMap(ImmutableLists.FromSeq(Seqs.Flatten(ChildEntries(t)[i..])), f)
    decreases t, 0, |t.children| - i
  {
    var ss := ChildEntries(t);
    if i < |t.children| {
      FlattenFrom(ss, i);
      FindMapAppend(ss[i], Seqs.Flatten(ss[i + 1..]), f);
      ForkFindMapEntries(t, i + 1, f);
      if t.children[i].Ref? {
        FindMapEntries(t.children[i].target, f);
      }
    } else {
      assert ss[i..] == [];
    }
  }
}

=== FILE: hash_table_api.dfy ===
// The public operations of HashTable.java: each hashes the key once with the
// table's hasher and hands it to the root node. Every table built by these
// operations satisfies `ValidTable`, so what they promise is stated against
// the table's entry list: `Get` is a lookup in it, `Size` its length.
module HashTableApi {
  import opened Maybes
  import Seqs
  import ImmutableLists
  import opened HashTables

  /** The `length` field: the number of entries. */
  function Size<K, V>(t: HashTable<K, V>): (n: int)
    requires ValidTable(t)
    ensures n == |Entries(t.root)|
  {
    LengthEntries(t.root, t.hasher.hash, 0);
    Length(t.root)
  }

  /** `empty(hasher)`: a table without entries. */
  function EmptyTable<K, V>(hasher: Hasher<K>): (r: HashTable<K, V>)
    ensures ValidTable(r) && r.hasher == hasher
    ensures Entries(r.root) == []
  {
    HashTable(hasher, Empty)
  }

  /** `get(key)`: the value the entry list holds for the key. */
  function Get<K(==), V>(t: HashTable<K, V>, k: K): (r: Maybe<V>)
    requires ValidTable(t)
    ensures r == Lookup(Entries(t.root), k)
  {
    GetLookup(t.root, t.hasher.hash, 0, k);
    NodeGet(t.root, k, t.hasher.hash(k))
  }

  /** `containsKey(key)`: the key has a value. */
  function ContainsKey<K(==), V>(t: HashTable<K, V>, k: K): (r: bool)
    requires ValidTable(t)
    ensures r == Get(t, k).Just?
    ensures r == HasKey(Entries(t.root), k)
  {
    ValidShaped(t.root, t.hasher.hash, 0);
    ContainsKeyGet(t.root, k, t.hasher.hash(k));
    LookupHasKey(Entries(t.root), k);
    NodeContainsKey(t.root, k, t.hasher.hash(k))
  }

  /** `put(key, value)`: the key now maps to the value, every other key as before. */
  function Put<K(==, !new), V>(t: HashTable<K, V>, k: K, v: V): (r: HashTable<K, V>)
    requires ValidTable(t)
    ensures ValidTable(r) && r.hasher == t.hasher
    ensures forall k' :: Get(r, k') == if k' == k then Just(v) else Get(t, k')
    ensures Size(r) == Size(t) + (if ContainsKey(t, k) then 0 else 1)
  {
    PutTable(t, k, v);
    HashTable(t.hasher, NodePut(t.root, k, v, t.hasher.hash(k)))
  }

  lemma PutTable<K, V>(t: HashTable<K, V>, k: K, v: V)
    requires ValidTable(t)
    ensures Shaped(t.root)
    ensures var r := HashTable(t.hasher, NodePut(t.root, k, v, t.hasher.hash(k)));
      && ValidTable(r)
      && (forall k' :: Get(r, k') == if k' == k then Just(v) else Get(t, k'))
      && Size(r) == Size(t) + (if ContainsKey(t, k) then 0 else 1)
  {
    var hf := t.hasher.hash;
    PutValid(t.root, k, v, hf, 0);
    var r := HashTable(t.hasher, NodePut(t.root, k, v, hf(k)));
    forall k' ensures Get(r, k') == if k' == k then Just(v) else Get(t, k') {
      PutGet(t.root, k, v, hf(k), k', hf(k'));
    }
  }

  /**
   * `remove(key)`: the key has no value any more, every other key keeps its
   * own; a table without the key comes back as it was (`orJust(this)`).
   */
  function Remove<K(==, !new), V>(t: HashTable<K, V>, k: K): (r: HashTable<K, V>)
    requires ValidTable(t)
    ensures ValidTable(r) && r.hasher == t.hasher
    ensures forall k' :: Get(r, k') == if k' == k then Nothing else Get(t, k')
    ensures Size(r) == Size(t) - (if ContainsKey(t, k) then 1 else 0)
    ensures !ContainsKey(t, k) ==> r == t
  {
    RemoveTable(t, k);
    match NodeRemove(t.root, k, t.hasher.hash(k))
    case Nothing => t
    case Just(root) => HashTable(t.hasher, root)
  }

  lemma RemoveTable<K, V>(t: HashTable<K, V>, k: K)
    requires ValidTable(t)
    ensures Shaped(t.root)
    ensures var m := NodeRemove(t.root, k, t.hasher.hash(k));
      && (m.Nothing? <==> !ContainsKey(t, k))
      && (m.Just? ==>
            var r := HashTable(t.hasher, m.value);
            && ValidTable(r)
            && (forall k' :: Get(r, k') == if k' == k then Nothing else Get(t, k'))
            && Size(r) == Size(t) - 1)
  {
    var hf := t.hasher.hash;
    RemoveValid(t.root, hf, 0, k);
    RemoveGet(t.root, hf, 0, k, k);
    var m := NodeRemove(t.root, k, hf(k));
    if m.Just? {
      var r := HashTable(t.hasher, m.value);
      forall k' ensures Get(r, k') == if k' == k then Nothing else Get(t, k') {
        RemoveGet(t.root, hf, 0, k, k');
      }
    }
  }

  /**
   * `merge(tree, merger)` as HashTable.java writes it: an empty receiver
   * returns the argument; otherwise the argument's trie is merged into the
   * receiver's node by node, and the result keeps the receiver's hasher.
   * Only when both tables use the same hasher does every key of both end up
   * where `get` looks for it (`MergeAsWrittenLosesKeys` shows a case where
   * it does not).
   */
  function MergeAsWritten<K(==, !new), V>(t1: HashTable<K, V>, t2: HashTable<K, V>, merger: (V, V) -> V): (r: HashTable<K, V>)
    requires ValidTable(t1) && ValidTable(t2)
    ensures Shaped(r.root)
    ensures r.hasher == if t1.root.Empty? then t2.hasher else t1.hasher
    ensures t1.hasher == t2.hasher ==> ValidTable(r)
    ensures t1.hasher == t2.hasher ==> forall k :: Get(r, k) == MergeValues(Get(t1, k), Get(t2, k), merger)
  {
    ValidShaped(t1.root, t1.hasher.hash, 0);
    ValidShaped(t2.root, t2.hasher.hash, 0);
    MergeTable(t1, t2, merger);
    if t1.root.Empty? then t2 else HashTable(t1.hasher, NodeMerge(t1.root, t2.root, merger))
  }

  lemma MergeTable<K, V>(t1: HashTable<K, V>, t2: HashTable<K, V>, merger: (V, V) -> V)
    requires ValidTable(t1) && ValidTable(t2)
    ensures Shaped(t1.root) && Shaped(t2.root)
    ensures var r := if t1.root.Empty? then t2 else HashTable(t1.hasher, NodeMerge(t1.root, t2.root, merger));
      t1.hasher == t2.hasher ==>
        && ValidTable(r)
        && forall k :: Get(r, k) == MergeValues(Get(t1, k), Get(t2, k), merger)
  {
    var hf := t1.hasher.hash;
    ValidShaped(t1.root, hf, 0);
    ValidShaped(t2.root, t2.hasher.hash, 0);
    if t1.hasher == t2.hasher {
      NodeMergeMerged(t1.root, t2.root, merger, hf, 0);
      var r := if t1.root.Empty? then t2 else HashTable(t1.hasher, NodeMerge(t1.root, t2.root, merger));
      forall k ensures Get(r, k) == MergeValues(Get(t1, k), Get(t2, k), merger) {
        assert MergedAt(NodeMerge(t1.root, t2.root, merger), t1.root, t2.root, merger, hf, 0, k);
      }
    }
  }

  /** `putAll(pairs)`: put each pair in list order, so a later pair wins over an earlier one with its key. */
  function PutAll<K(==, !new), V>(t: HashTable<K, V>, ps: ImmutableLists.List<(K, V)>): (r: HashTable<K, V>)
    requires ValidTable(t)
    ensures ValidTable(r) && r.hasher == t.hasher
    ensures forall k :: Get(r, k) == Lookup(Seqs.Reverse(ImmutableLists.Elems(ps)) + Entries(t.root), k)
    decreases ps
  {
    match ps
    case Nil =>
      assert Seqs.Reverse(ImmutableLists.Elems(ps)) + Entries(t.root) == Entries(t.root);
      t
    case Cons(p, rest) =>
      var r := PutAll(Put(t, p.0, p.1), rest);
      PutAllStep(t, p, rest, r);
      r
  }

  /** One step of putAll: what the rest puts on top of `put(p)` is what the whole list puts on top of `t`. */
  lemma PutAllStep<K(!new), V>(t: HashTable<K, V>, p: (K, V), rest: ImmutableLists.List<(K, V)>, r: HashTable<K, V>)
    requires ValidTable(t) && ValidTable(r)
    requires forall k :: Get(r, k) == Lookup(Seqs.Reverse(ImmutableLists.Elems(rest)) + Entries(Put(t, p.0, p.1).root), k)
    ensures forall k :: Get(r, k) == Lookup(Seqs.Reverse(ImmutableLists.Elems(ImmutableLists.Cons(p, rest))) + Entries(t.root), k)
  {
    var back := Seqs.Reverse(ImmutableLists.Elems(rest));
    assert ImmutableLists.Elems(ImmutableLists.Cons(p, rest)) == [p] + ImmutableLists.Elems(rest);
    Seqs.ReverseAppend([p], ImmutableLists.Elems(rest));
    assert Seqs.Reverse([p]) == [p] by {
      assert [p][1..] == [];
    }
    forall k ensures Get(r, k) == Lookup(back + [p] + Entries(t.root), k) {
      PutAllStepAt(t, p, back, k);
    }
  }

  lemma PutAllStepAt<K(!new), V>(t: HashTable<K, V>, p: (K, V), back: seq<(K, V)>, k: K)
    requires ValidTable(t)
    ensures Lookup(back + Entries(Put(t, p.0, p.1).root), k) == Lookup(back + [p] + Entries(t.root), k)
  {
    var t' := Put(t, p.0, p.1);
    assert back + [p] + Entries(t.root) == back + ([p] + Entries(t.root));
    LookupAppend(back, [p] + Entries(t.root), k);
    LookupAppend(back, Entries(t'.root), k);
    assert ([p] + Entries(t.root))[1..] == Entries(t.root);
    assert Get(t', k) == Lookup(Entries(t'.root), k);
    assert Get(t, k) == Lookup(Entries(t.root), k);
  }

  /** Reading a list with distinct keys backwards finds the same values. */
  lemma LookupReverse<K, V>(es: seq<(K, V)>, k: K)
    requires DistinctKeys(es)
    ensures Lookup(Seqs.Reverse(es), k) == Lookup(es, k)
  {
    var rs := Seqs.Reverse(es);
    Seqs.ReverseIndex(es);
    assert DistinctKeys(rs) by {
      forall i, j | 0 <= i < j < |rs| ensures rs[i].0 != rs[j].0 {
        assert rs[i] == es[|es| - 1 - i] && rs[j] == es[|es| - 1 - j];
      }
    }
    HasKeyIndex(es, k);
    HasKeyIndex(rs, k);
    LookupHasKey(es, k);
    LookupHasKey(rs, k);
    if HasKey(es, k) {
      var j :| 0 <= j < |es| && es[j].0 == k;
      LookupAt(es, j);
      assert rs[|es| - 1 - j] == es[j];
      LookupAt(rs, |es| - 1 - j);
    } else {
      assert forall j :: 0 <= j < |rs| ==> rs[j] == es[|es| - 1 - j];
    }
  }

  /** The entries of `t` put into an empty table with another hasher: the same keys, the same values. */
  function Rehash<K(==, !new), V>(t: HashTable<K, V>, hasher: Hasher<K>): (r: HashTable<K, V>)
    requires ValidTable(t)
    ensures ValidTable(r) && r.hasher == hasher
    ensures forall k :: Get(r, k) == Get(t, k)
  {
    var es := Entries(t.root);
    var r := PutAll(EmptyTable(hasher), ImmutableLists.FromSeq(es));
    LengthEntries(t.root, t.hasher.hash, 0);
    assert forall k :: Get(r, k) == Get(t, k) by {
      forall k ensures Get(r, k) == Get(t, k) {
        assert Seqs.Reverse(es) + [] == Seqs.Reverse(es);
        LookupReverse(es, k);
      }
    }
    r
  }

  /**
   * merge with the hasher mismatch repaired: the argument is first rehashed
   * with the receiver's hasher, then merged as before. Every key of either
   * table keeps its value or gets the merger's combination.
   */
  function Merge<K(==, !new), V>(t1: HashTable<K, V>, t2: HashTable<K, V>, merger: (V, V) -> V): (r: HashTable<K, V>)
    requires ValidTable(t1) && ValidTable(t2)
    ensures ValidTable(r)
    ensures r.hasher == if t1.root.Empty? then t2.hasher else t1.hasher
    ensures forall k :: Get(r, k) == MergeValues(Get(t1, k), Get(t2, k), merger)
    ensures t1.hasher == t2.hasher ==> forall k :: Get(r, k) == Get(MergeAsWritten(t1, t2, merger), k)
  {
    if t1.root.Empty? then
      assert forall k :: Get(t1, k) == Nothing;
      t2
    else
      var t2' := Rehash(t2, t1.hasher);
      var r := MergeAsWritten(t1, t2', merger);
      assert forall k :: Get(r, k) == MergeValues(Get(t1, k), Get(t2, k), merger);
      r
  }

  /** The default merger of `merge(tree)`: the argument's value wins. */
  function KeepRight<V>(a: V, b: V): V
  {
    b
  }

  /** `merge(tree)`: the default merger keeps the argument's value. */
  function MergeRight<K(==, !new), V>(t1: HashTable<K, V>, t2: HashTable<K, V>): (r: HashTable<K, V>)
    requires ValidTable(t1) && ValidTable(t2)
    ensures ValidTable(r)
    ensures r.hasher == if t1.root.Empty? then t2.hasher else t1.hasher
    ensures forall k :: Get(r, k) == if Get(t2, k).Just? then Get(t2, k) else Get(t1, k)
    ensures t1.hasher == t2.hasher ==> forall k :: Get(r, k) == Get(MergeAsWritten(t1, t2, KeepRight), k)
  {
    Merge(t1, t2, KeepRight)
  }

  /** `map(f)`: the same keys, each value sent through `f`. */
  function Map<K(==, !new), V, B>(t: HashTable<K, V>, f: V -> B): (r: HashTable<K, B>)
    requires ValidTable(t)
    ensures ValidTable(r) && r.hasher == t.hasher
    ensures Size(r) == Size(t)
    ensures forall k :: Get(r, k) == Maybes.Map(Get(t, k), f)
  {
    var hf := t.hasher.hash;
    var r := HashTable(t.hasher, NodeMap(t.root, f));
    MapValid(t.root, f, hf, 0);
    MapEntries(t.root, f);
    LengthEntries(t.root, hf, 0);
    LengthEntries(r.root, hf, 0);
    assert forall k :: Get(r, k) == Maybes.Map(Get(t, k), f) by {
      forall k ensures Get(r, k) == Maybes.Map(Get(t, k), f) {
        LookupMapValues(Entries(t.root), f, k);
      }
    }
    r
  }

  /** `foldLeft(f, init)`: the entries folded in Entries order. */
  function FoldLeft<K, V, A>(t: HashTable<K, V>, f: (A, (K, V)) -> A, init: A): (r: A)
    ensures r == Seqs.FoldLeft(Entries(t.root), f, init)
  {
    FoldLeftEntries(t.root, f, init);
    NodeFoldLeft(t.root, f, init)
  }

  /** `foldRight(f, init)`: the entries folded from the back of Entries order. */
  function FoldRight<K, V, A>(t: HashTable<K, V>, f: ((K, V), A) -> A, init: A): (r: A)
    ensures r == Seqs.FoldRight(Entries(t.root), f, init)
  {
    FoldRightEntries(t.root, f, init);
    NodeFoldRight(t.root, f, init)
  }

  /** `find(f)`: the first entry in Entries order that satisfies `f`. */
  function Find<K, V>(t: HashTable<K, V>, p: ((K, V)) -> bool): (r: Maybe<(K, V)>)
    ensures r == ImmutableLists.Find(ImmutableLists.FromSeq(Entries(t.root)), p)
  {
    FindEntries(t.root, p);
    NodeFind(t.root, p)
  }

  /** `findMap(f)`: `f` of the first entry in Entries order on which it gives a value. */
  function FindMap<K, V, R>(t: HashTable<K, V>, f: ((K, V)) -> Maybe<R>): (r: Maybe<R>)
    ensures r == ImmutableLists.FindMap(ImmutableLists.FromSeq(Entries(t.root)), f)
  {
    FindMapEntries(t.root, f);
    NodeFindMap(t.root, f)
  }

  /** `containsValue(value)`: some entry holds the value. */
  function ContainsValue<K, V(==)>(t: HashTable<K, V>, v: V): (r: bool)
    ensures r <==> exists j :: 0 <= j < |Entries(t.root)| && Entries(t.root)[j].1 == v
  {
    var found := Find(t, (e: (K, V)) => e.1 == v);
    assert ImmutableLists.Elems(ImmutableLists.FromSeq(Entries(t.root))) == Entries(t.root);
    found.Just?
  }

  /** `entries()`: an array of `length` slots filled in forEach order, which is Entries order. */
  function EntryList<K(==, !new), V>(t: HashTable<K, V>): (r: ImmutableLists.List<(K, V)>)
    requires ValidTable(t)
    ensures ImmutableLists.Elems(r) == Entries(t.root)
    ensures DistinctKeys(ImmutableLists.Elems(r))
    ensures forall k :: ContainsKey(t, k) <==> HasKey(ImmutableLists.Elems(r), k)
    ensures forall j :: 0 <= j < |ImmutableLists.Elems(r)| ==>
      Get(t, ImmutableLists.Elems(r)[j].0) == Just(ImmutableLists.Elems(r)[j].1)
    ensures ImmutableLists.Length(r) == Size(t)
  {
    var es := Entries(t.root);
    LengthEntries(t.root, t.hasher.hash, 0);
    assert forall j :: 0 <= j < |es| ==> Get(t, es[j].0) == Just(es[j].1) by {
      forall j | 0 <= j < |es| ensures Get(t, es[j].0) == Just(es[j].1) {
        LookupAt(es, j);
      }
    }
    ImmutableLists.FromSeq(es)
  }

  // ---- the hasher mismatch of merge ----

  /** A hasher that sends every int in the 32-bit range to itself. */
  function LowHash(k: int): Hash
  {
    if 0 <= k < 0x1_0000_0000 then k else 0
  }

  /** A hasher that sends every key to 5. */
  function FiveHash(k: int): Hash
  {
    5
  }

  /**
   * Merging a table of key 0 under one hasher with a table of key 1 under
   * another: the merged trie routes key 1 by the argument's hash, but get on
   * the result, `get(key, hasher.hash(key))`, looks along the receiver's and
   * finds nothing. The repaired merge finds the argument's value.
   */
  lemma MergeAsWrittenLosesKeys()
    ensures var t1 := HashTable(Hasher(LowHash), Leaf(0, [(0, 10)], 1));
            var t2 := HashTable(Hasher(FiveHash), Leaf(5, [(1, 20)], 1));
            && ValidTable(t1) && ValidTable(t2)
            && Get(t2, 1) == Just(20)
            && NodeGet(MergeAsWritten(t1, t2, (a, b) => b).root, 1, LowHash(1)) == Nothing
            && Get(Merge(t1, t2, (a, b) => b), 1) == Just(20)
  {
    var t1 := HashTable(Hasher(LowHash), Leaf(0, [(0, 10)], 1));
    var t2 := HashTable(Hasher(FiveHash), Leaf(5, [(1, 20)], 1));
    assert ValidTable(t1) by {
      assert DistinctKeys([(0, 10)]);
    }
    assert ValidTable(t2) by {
      assert DistinctKeys([(1, 20)]);
    }
    var m := MergeAsWritten(t1, t2, (a, b) => b);
    var cs := ToFork(0, [(0, 10)], 1).children;
    assert cs[1].Null?;
    assert m.root.Fork? && m.root.children[1].Null?;
    assert Get(t1, 1) == Nothing;
  }
}

=== FILE: immutable_list.dfy ===
/**
 * The persistent singly linked list `ImmutableList`: the empty list `Nil`
 * and the non-empty cell `NonEmptyImmutableList` (a head and a shared tail).
 * Every operation is a pure function of the list value, specified against
 * the sequence of its elements, `Elems`.
 */
module ImmutableLists {
  import opened Maybes
  import opened Outcomes
  import Seqs

  datatype List<+T> = Nil | Cons(head: T, tail: List<T>)

  /** The elements of the list, head first. */
  function Elems<T>(l: List<T>): seq<T>
  {
    match l
    case Nil => []
    case Cons(h, t) => [h] + Elems(t)
  }

  /** The `length` field each cell stores: the tail's length plus one. */
  function Length<T>(l: List<T>): (n: nat)
    ensures n == |Elems(l)|
  {
    match l
    case Nil => 0
    case Cons(_, t) => Length(t) + 1
  }

  /** The elements of a cell: its head, then its tail's elements. */
  lemma ConsIndex<T>(h: T, t: List<T>)
    ensures Elems(Cons(h, t))[0] == h
    ensures forall i :: 0 < i < Length(Cons(h, t)) ==> Elems(Cons(h, t))[i] == Elems(t)[i - 1]
  {
  }

  /** The list holding the elements of `s` in order (what `from` builds from an array). */
  function FromSeq<T>(s: seq<T>): (l: List<T>)
    ensures Elems(l) == s
  {
    if |s| == 0 then Nil else Cons(s[0], FromSeq(s[1..]))
  }

  /** A list is determined by its elements. */
  lemma {:induction false} ElemsInjective<T>(a: List<T>, b: List<T>)
    requires Elems(a) == Elems(b)
    ensures a == b
  {
    match a
    case Nil =>
      assert |Elems(b)| == 0;
    case Cons(h, t) =>
      assert Elems(b)[0] == Elems(a)[0];
      assert Elems(t) == Elems(a)[1..] == Elems(b)[1..] == Elems(b.tail);
      ElemsInjective(t, b.tail);
  }

  /** `FromSeq` and `Elems` are inverse to each other. */
  lemma {:induction false} FromSeqElems<T>(l: List<T>)
    ensures FromSeq(Elems(l)) == l
  {
    match l
    case Nil =>
    case Cons(h, t) =>
      FromSeqElems(t);
      assert Elems(l)[1..] == Elems(t);
  }

  // ---------------------------------------------------------------------
  // Construction

  /**
   * `fromBounded(el, start, end)`: the list of `el[start..end]`, built by
   * consing from the end. Nothing checks the bounds: `el[end - 1]` is read
   * first, then `el[i]` for `i` from `end - 2` down to `start`, and an
   * index outside the array throws. For `start > end` the loop never runs
   * and the result is the single element `el[end - 1]`.
   */
  method FromBounded<T>(el: seq<T>, start: int, end: int) returns (r: Outcome<List<T>>)
    ensures start == end ==> r == Returns(Nil)
    ensures 0 <= start < end <= |el| ==> r.Returns? && Elems(r.value) == el[start..end]
    ensures 1 <= end <= |el| && start > end ==> r.Returns? && Elems(r.value) == [el[end - 1]]
    ensures start != end && !(1 <= end <= |el| && (0 <= start || start > end)) ==>
      r == Throws(ArrayIndexOutOfBoundsException)
  {
    if end == start {
      return Returns(Nil);
    }
    if end - 1 < 0 || end - 1 >= |el| {
      return Throws(ArrayIndexOutOfBoundsException);
    }
    var l := Cons(el[end - 1], Nil);
    var i := end - 2;
    while i >= start
      invariant -1 <= i <= end - 2
      invariant start <= end ==> start - 1 <= i && Elems(l) == el[i + 1..end]
      invariant start > end ==> Elems(l) == [el[end - 1]]
      decreases i - start
    {
      if i < 0 {
        return Throws(ArrayIndexOutOfBoundsException);
      }
      l := Cons(el[i], l);
      i := i - 1;
    }
    return Returns(l);
  }

  /** `from(Iterable)`: cons every item onto the front, then reverse. */
  method FromIterable<T>(items: seq<T>) returns (l: List<T>)
    ensures Elems(l) == items
  {
    var acc: List<T> := Nil;
    var k := 0;
    while k < |items|
      invariant k <= |items|
      invariant Elems(acc) == Seqs.Reverse(items[..k])
    {
      assert items[..k + 1] == items[..k] + [items[k]];
      Seqs.ReverseAppend(items[..k], [items[k]]);
      acc := Cons(items[k], acc);
      k := k + 1;
    }
    assert items[..k] == items;
    l := Reverse(acc);
    Seqs.ReverseInvolutive(items);
  }

  // ---------------------------------------------------------------------
  // Observers

  function MaybeHead<T>(l: List<T>): (r: Maybe<T>)
    ensures r.Just? <==> Length(l) > 0
    ensures r.Just? ==> r.value == Elems(l)[0]
  {
    match l
    case Nil => Nothing
    case Cons(h, _) => Just(h)
  }

  function MaybeTail<T>(l: List<T>): (r: Maybe<List<T>>)
    ensures r.Just? <==> Length(l) > 0
    ensures r.Just? ==> Elems(r.value) == Elems(l)[1..]
  {
    match l
    case Nil => Nothing
    case Cons(_, t) => Just(t)
  }

  /** `isEmpty()`: true exactly for the list with no elements. */
  function IsEmpty<T>(l: List<T>): (r: bool)
    ensures r <==> Elems(l) == []
  {
    l.Nil?
  }

  /** `decons(f)`: `f` applied to the head and the tail, or nothing for the empty list. */
  function Decons<T, B>(l: List<T>, f: (T, List<T>) -> B): (r: Maybe<B>)
    ensures r.Just? <==> !IsEmpty(l)
    ensures r.Just? ==> r.value == f(MaybeHead(l).value, MaybeTail(l).value)
  {
    match l
    case Nil => Nothing
    case Cons(h, t) => Just(f(h, t))
  }

  /** `last()` of a non-empty list: walk to the final cell. */
  function Last<T>(l: List<T>): (r: T)
    requires l.Cons?
    ensures r == Elems(l)[|Elems(l)| - 1]
  {
    if l.tail.Cons? then Last(l.tail) else l.head
  }

  /** `init()` of a non-empty list: every element but the last. */
  function Init<T>(l: List<T>): (r: List<T>)
    requires l.Cons?
    ensures Elems(r) == Elems(l)[..|Elems(l)| - 1]
  {
    if l.tail.Cons? then Cons(l.head, Init(l.tail)) else Nil
  }

  function MaybeLast<T>(l: List<T>): (r: Maybe<T>)
    ensures r.Just? <==> Length(l) > 0
    ensures r.Just? ==> r.value == Elems(l)[Length(l) - 1]
  {
    if l.Nil? then Nothing else Just(Last(l))
  }

  function MaybeInit<T>(l: List<T>): (r: Maybe<List<T>>)
    ensures r.Just? <==> Length(l) > 0
    ensures r.Just? ==> Elems(r.value) == Elems(l)[..Length(l) - 1]
  {
    if l.Nil? then Nothing else Just(Init(l))
  }

  /** A non-empty list is its `init` followed by its `last`. */
  lemma {:induction false} InitLast<T>(l: List<T>)
    requires l.Cons?
    ensures Elems(l) == Elems(Init(l)) + [Last(l)]
  {
    if l.tail.Cons? {
      InitLast(l.tail);
    }
  }

  /**
   * `index(i)`: the i-th element, or empty when `i` is negative or past the
   * end.
   */
  method Index<T>(l: List<T>, index: int) returns (r: Maybe<T>)
    ensures r.Just? <==> 0 <= index < Length(l)
    ensures r.Just? ==> r.value == Elems(l)[index]
  {
    if index < 0 {
      return Nothing;
    }
    var list := l;
    var i := index;
    while i > 0
      invariant 0 <= i <= index
      invariant index - i <= Length(l)
      invariant list == Drop(l, index - i)
    {
      if list.Nil? {
        return Nothing;
      }
      DropTail(l, index - i);
      i := i - 1;
      list := list.tail;
    }
    r := MaybeHead(list);
  }

  // ---------------------------------------------------------------------
  // Folds

  /** `foldLeft(f, init)`: walk the cells head first. */
  function FoldLeft<T, B>(l: List<T>, f: (B, T) -> B, init: B): (r: B)
    ensures r == Seqs.FoldLeft(Elems(l), f, init)
  {
    match l
    case Nil => init
    case Cons(h, t) => FoldLeft(t, f, f(init, h))
  }

  /** `foldRight(f, init)`: copy into an array and fold from its last slot. */
  method FoldRight<T, B>(l: List<T>, f: (T, B) -> B, init: B) returns (r: B)
    ensures r == Seqs.FoldRight(Elems(l), f, init)
  {
    var list := Elems(l);
    r := init;
    var i := Length(l) - 1;
    while i >= 0
      invariant -1 <= i < |list|
      invariant r == Seqs.FoldRight(list[i + 1..], f, init)
    {
      assert list[i..][1..] == list[i + 1..];
      r := f(list[i], r);
      i := i - 1;
    }
  }

  /** `reduceLeft(f)`: fold the tail starting from the head. */
  function ReduceLeft<T>(l: List<T>, f: (T, T) -> T): (r: T)
    requires l.Cons?
    ensures r == Seqs.FoldLeft(Elems(l)[1..], f, Elems(l)[0])
  {
    FoldLeft(l.tail, f, l.head)
  }

  /** `reduceRight(f)`: reduce the reversed list with `f` flipped. */
  function ReduceRight<T>(l: List<T>, f: (T, T) -> T): (r: T)
    requires l.Cons?
  {
    ReduceLeft(Reverse(l), (a, b) => f(b, a))
  }

  /** Folding the reversal from the left with flipped `f` is folding from the right. */
  lemma {:induction false} FoldLeftReverse<T, B>(s: seq<T>, f: (T, B) -> B, init: B)
    ensures Seqs.FoldLeft(Seqs.Reverse(s), (b: B, a: T) => f(a, b), init) == Seqs.FoldRight(s, f, init)
    decreases |s|
  {
    if |s| > 0 {
      var g := (b: B, a: T) => f(a, b);
      Seqs.FoldLeftAppend(Seqs.Reverse(s[1..]), [s[0]], g, init);
      FoldLeftReverse(s[1..], f, init);
    }
  }

  /**
   * `reduceRight` is the right fold of every element but the last, starting
   * from the last: `f(x0, f(x1, ... f(x(n-2), x(n-1))))`.
   */
  lemma ReduceRightIsFoldRight<T>(l: List<T>, f: (T, T) -> T)
    requires l.Cons?
    ensures ReduceRight(l, f) == Seqs.FoldRight(Elems(Init(l)), f, Last(l))
  {
    var s := Elems(l);
    var n := |s|;
    var rs := Seqs.Reverse(s);
    Seqs.ReverseIndex(s);
    var g := (a: T, b: T) => f(b, a);
    assert s == s[..n - 1] + [s[n - 1]];
    Seqs.ReverseAppend(s[..n - 1], [s[n - 1]]);
    assert rs == [s[n - 1]] + Seqs.Reverse(s[..n - 1]);
    assert rs[1..] == Seqs.Reverse(s[..n - 1]);
    FoldLeftReverse(s[..n - 1], f, s[n - 1]);
  }

  // ---------------------------------------------------------------------
  // Transformations

  /** `filter(f)`: the elements satisfying `f`, in order. */
  function Filter<T>(l: List<T>, f: T -> bool): (r: List<T>)
    ensures Elems(r) == Seqs.Filter(Elems(l), f)
  {
    match l
    case Nil => Nil
    case Cons(h, t) => if f(h) then Cons(h, Filter(t, f)) else Filter(t, f)
  }

  /** `removeAll(f)`: the filter by the negation of `f`. */
  function RemoveAll<T>(l: List<T>, f: T -> bool): (r: List<T>)
    ensures Elems(r) == Seqs.Filter(Elems(l), Seqs.Not(f))
    ensures forall i :: 0 <= i < Length(r) ==> !f(Elems(r)[i])
    ensures Length(r) == Length(l) - Count(l, f)
  {
    var r := Filter(l, Seqs.Not(f));
    Seqs.FilterComplement(Elems(l), f);
    Seqs.FilterAll(Elems(l), Seqs.Not(f));
    r
  }

  /** `filter` and `removeAll` by the same predicate split the list's elements between them. */
  lemma FilterRemoveAllSplit<T>(l: List<T>, f: T -> bool)
    ensures multiset(Elems(Filter(l, f))) + multiset(Elems(RemoveAll(l, f))) == multiset(Elems(l))
    ensures Length(Filter(l, f)) + Length(RemoveAll(l, f)) == Length(l)
  {
    Seqs.FilterComplement(Elems(l), f);
  }

  /** The filter keeps exactly the satisfying elements. */
  lemma FilterMembers<T>(l: List<T>, f: T -> bool)
    ensures forall x :: x in Elems(Filter(l, f)) <==> x in Elems(l) && f(x)
    ensures Length(Filter(l, f)) <= Length(l)
  {
    Seqs.FilterMembers(Elems(l), f);
  }

  /** `count(f)`: how many elements satisfy `f`. */
  function Count<T>(l: List<T>, f: T -> bool): (r: nat)
    ensures r == Length(Filter(l, f))
  {
    match l
    case Nil => 0
    case Cons(h, t) => Count(t, f) + if f(h) then 1 else 0
  }

  /** `map(f)`: `f` applied to every element, in order. */
  function Map<T, B>(l: List<T>, f: T -> B): (r: List<B>)
    ensures Length(r) == Length(l)
    ensures forall i :: 0 <= i < Length(l) ==> Elems(r)[i] == f(Elems(l)[i])
  {
    match l
    case Nil => Nil
    case Cons(h, t) => Cons(f(h), Map(t, f))
  }

  /** `mapWithIndex(f)`: `f(i, x)` for the element `x` at index `i`. */
  function MapWithIndex<T, B>(l: List<T>, f: (int, T) -> B): (r: List<B>)
    ensures Length(r) == Length(l)
    ensures forall i :: 0 <= i < Length(l) ==> Elems(r)[i] == f(i, Elems(l)[i])
  {
    MapWithIndexFrom(l, f, 0)
  }

  function MapWithIndexFrom<T, B>(l: List<T>, f: (int, T) -> B, offset: int): (r: List<B>)
    ensures Length(r) == Length(l)
    ensures forall i :: 0 <= i < Length(l) ==> Elems(r)[i] == f(offset + i, Elems(l)[i])
  {
    match l
    case Nil => Nil
    case Cons(h, t) => Cons(f(offset, h), MapWithIndexFrom(t, f, offset + 1))
  }

  /** `zipWith(f, other)`: pairs elements at the same index until either list ends. */
  function ZipWith<T, B, C>(l1: List<T>, l2: List<B>, f: (T, B) -> C): (r: List<C>)
    ensures Length(r) == if Length(l1) < Length(l2) then Length(l1) else Length(l2)
    ensures forall i :: 0 <= i < Length(r) ==> Elems(r)[i] == f(Elems(l1)[i], Elems(l2)[i])
  {
    match (l1, l2)
    case (Cons(a, t1), Cons(b, t2)) => Cons(f(a, b), ZipWith(t1, t2, f))
    case _ => Nil
  }

  /** `append(list)`: this list's elements followed by `list`, which is reused as the tail. */
  function Append<T>(l1: List<T>, l2: List<T>): (r: List<T>)
    ensures Elems(r) == Elems(l1) + Elems(l2)
  {
    match l1
    case Nil => l2
    case Cons(h, t) =>
      if l2.Nil? then
        assert Elems(l2) == [];
        l1
      else
        Cons(h, Append(t, l2))
  }

  lemma {:induction false} AppendAssociative<T>(a: List<T>, b: List<T>, c: List<T>)
    ensures Append(Append(a, b), c) == Append(a, Append(b, c))
  {
    ElemsInjective(Append(Append(a, b), c), Append(a, Append(b, c)));
  }

  lemma AppendNil<T>(l: List<T>)
    ensures Append(l, Nil) == l && Append(Nil, l) == l
  {
  }

  /** `flatMap(f)`: the concatenation of `f(x)` over the elements `x`, in order. */
  function FlatMap<T, B>(l: List<T>, f: T -> List<B>): (r: List<B>)
    ensures Elems(r) == Seqs.Flatten(seq(Length(l), i requires 0 <= i < Length(l) => Elems(f(Elems(l)[i]))))
  {
    match l
    case Nil => Nil
    case Cons(h, t) =>
      var r := Append(f(h), FlatMap(t, f));
      assert seq(Length(l), i requires 0 <= i < Length(l) => Elems(f(Elems(l)[i])))[1..]
          == seq(Length(t), i requires 0 <= i < Length(t) => Elems(f(Elems(t)[i])));
      r
  }

  /** `reverse()`: cons every element onto an accumulator. */
  function Reverse<T>(l: List<T>): (r: List<T>)
    ensures Elems(r) == Seqs.Reverse(Elems(l))
  {
    ReverseOnto(l, Nil)
  }

  function ReverseOnto<T>(l: List<T>, acc: List<T>): (r: List<T>)
    ensures Elems(r) == Seqs.Reverse(Elems(l)) + Elems(acc)
  {
    match l
    case Nil => acc
    case Cons(h, t) => ReverseOnto(t, Cons(h, acc))
  }

  lemma ReverseReverse<T>(l: List<T>)
    ensures Reverse(Reverse(l)) == l
  {
    Seqs.ReverseInvolutive(Elems(l));
    ElemsInjective(Reverse(Reverse(l)), l);
  }

  /**
   * `mapAccumL(f, acc)`: threads an accumulator through the list like
   * `foldLeft` while collecting the second component of every step.
   */
  function MapAccumL<T, B, C>(l: List<T>, f: (B, T) -> (B, C), acc: B): (r: (B, List<C>))
    ensures r.0 == Seqs.FoldLeft(Elems(l), AccStep(f), acc)
    ensures Length(r.1) == Length(l)
    ensures forall i :: 0 <= i < Length(l) ==>
      Elems(r.1)[i] == f(Seqs.FoldLeft(Elems(l)[..i], AccStep(f), acc), Elems(l)[i]).1
  {
    match l
    case Nil => (acc, Nil)
    case Cons(h, t) =>
      var step := f(acc, h);
      var rest := MapAccumL(t, f, step.0);
      var r := (rest.0, Cons(step.1, rest.1));
      ConsIndex(h, t);
      ConsIndex(step.1, rest.1);
      forall i | 0 <= i < Length(l)
        ensures Elems(r.1)[i] == f(Seqs.FoldLeft(Elems(l)[..i], AccStep(f), acc), Elems(l)[i]).1
      {
        if i == 0 {
          assert Elems(l)[..0] == [];
        } else {
          assert Elems(l)[..i][1..] == Elems(t)[..i - 1];
          assert Seqs.FoldLeft(Elems(l)[..i], AccStep(f), acc) == Seqs.FoldLeft(Elems(t)[..i - 1], AccStep(f), step.0);
        }
      }
      r
  }

  /** The accumulator part of one `mapAccumL` step. */
  function AccStep<T, B, C>(f: (B, T) -> (B, C)): (B, T) -> B
  {
    (b: B, x: T) => f(b, x).0
  }

  // ---------------------------------------------------------------------
  // Queries

  /** `exists(f)`: some element satisfies `f`. */
  function Exists<T>(l: List<T>, f: T -> bool): (r: bool)
    ensures r ==> exists i :: 0 <= i < Length(l) && f(Elems(l)[i])
    ensures !r ==> forall i :: 0 <= i < Length(l) ==> !f(Elems(l)[i])
  {
    if l.Nil? then false
    else
      var r := f(l.head) || Exists(l.tail, f);
      assert r ==> exists i :: 0 <= i < Length(l) && f(Elems(l)[i]) by {
        if f(l.head) {
          assert f(Elems(l)[0]);
        } else if r {
          var j :| 0 <= j < Length(l.tail) && f(Elems(l.tail)[j]);
          assert f(Elems(l)[j + 1]);
        }
      }
      assert !r ==> forall i :: 0 <= i < Length(l) ==> !f(Elems(l)[i]) by {
        if !r {
          forall i | 0 <= i < Length(l)
            ensures !f(Elems(l)[i])
          {
            if i > 0 {
              assert Elems(l)[i] == Elems(l.tail)[i - 1];
            }
          }
        }
      }
      r
  }

  /** `every(f)`: all elements satisfy `f`. */
  function Every<T>(l: List<T>, f: T -> bool): (r: bool)
    ensures r ==> forall i :: 0 <= i < Length(l) ==> f(Elems(l)[i])
    ensures !r ==> exists i :: 0 <= i < Length(l) && !f(Elems(l)[i])
  {
    if l.Nil? then true
    else
      var r := f(l.head) && Every(l.tail, f);
      assert r ==> forall i :: 0 <= i < Length(l) ==> f(Elems(l)[i]) by {
        if r {
          forall i | 0 <= i < Length(l)
            ensures f(Elems(l)[i])
          {
            if i > 0 {
              assert Elems(l)[i] == Elems(l.tail)[i - 1];
            }
          }
        }
      }
      assert !r ==> exists i :: 0 <= i < Length(l) && !f(Elems(l)[i]) by {
        if !f(l.head) {
          assert !f(Elems(l)[0]);
        } else if !r {
          var j :| 0 <= j < Length(l.tail) && !f(Elems(l.tail)[j]);
          assert !f(Elems(l)[j + 1]);
        }
      }
      r
  }

  /** `contains(a)`: some element is `a` (Java compares references). */
  function Contains<T(==)>(l: List<T>, a: T): (r: bool)
    ensures r <==> a in Elems(l)
  {
    match l
    case Nil => false
    case Cons(h, t) => h == a || Contains(t, a)
  }

  /** `find(f)`: the first element satisfying `f` (see `FindAtFindIndex`). */
  function Find<T>(l: List<T>, f: T -> bool): (r: Maybe<T>)
    ensures r.Just? <==> Exists(l, f)
    ensures r.Just? ==> f(r.value)
  {
    match l
    case Nil => Nothing
    case Cons(h, t) => if f(h) then Just(h) else Find(t, f)
  }

  /** `findIndex(f)`: the index of the first element satisfying `f`. */
  function FindIndex<T>(l: List<T>, f: T -> bool): (r: Maybe<nat>)
    ensures r.Just? <==> Exists(l, f)
    ensures r.Just? ==> r.value < Length(l) && f(Elems(l)[r.value]) &&
                        forall j :: 0 <= j < r.value ==> !f(Elems(l)[j])
  {
    match l
    case Nil => Nothing
    case Cons(h, t) =>
      assert forall i :: 0 < i < Length(l) ==> Elems(l)[i] == Elems(t)[i - 1];
      if f(h) then Just(0) else Maybes.Map(FindIndex(t, f), (i: nat) => i + 1)
  }

  /** `find` returns the element `findIndex` points at. */
  lemma {:induction false} FindAtFindIndex<T>(l: List<T>, f: T -> bool)
    ensures FindIndex(l, f).Just? ==> Find(l, f) == Just(Elems(l)[FindIndex(l, f).value])
    ensures FindIndex(l, f).Nothing? ==> Find(l, f).Nothing?
  {
    match l
    case Nil =>
    case Cons(h, t) =>
      if !f(h) {
        FindAtFindIndex(t, f);
      }
  }

  /** `findMap(f)`: the first non-empty `f(x)` (see `FindMapAtFindIndex`). */
  function FindMap<T, B>(l: List<T>, f: T -> Maybe<B>): (r: Maybe<B>)
    ensures r.Nothing? ==> forall i :: 0 <= i < Length(l) ==> f(Elems(l)[i]).Nothing?
    ensures r.Just? ==> exists i :: 0 <= i < Length(l) && f(Elems(l)[i]) == r
  {
    if l.Nil? then Nothing
    else if f(l.head).Just? then
      assert f(Elems(l)[0]) == f(l.head);
      f(l.head)
    else
      var r := FindMap(l.tail, f);
      assert r.Nothing? ==> forall i :: 0 <= i < Length(l) ==> f(Elems(l)[i]).Nothing? by {
        if r.Nothing? {
          forall i | 0 <= i < Length(l)
            ensures f(Elems(l)[i]).Nothing?
          {
            if i > 0 {
              assert Elems(l)[i] == Elems(l.tail)[i - 1];
            }
          }
        }
      }
      assert r.Just? ==> exists i :: 0 <= i < Length(l) && f(Elems(l)[i]) == r by {
        if r.Just? {
          var j :| 0 <= j < Length(l.tail) && f(Elems(l.tail)[j]) == r;
          assert f(Elems(l)[j + 1]) == r;
        }
      }
      r
  }

  /** `findMap` returns `f` of the first element on which `f` is non-empty. */
  lemma {:induction false} FindMapAtFindIndex<T, B>(l: List<T>, f: T -> Maybe<B>)
    ensures FindIndex(l, IsJustAfter(f)).Just? ==> FindMap(l, f) == f(Elems(l)[FindIndex(l, IsJustAfter(f)).value])
  {
    match l
    case Nil =>
    case Cons(h, t) =>
      if f(h).Nothing? {
        FindMapAtFindIndex(t, f);
      }
  }

  /** The predicate "`f` gives no value". */
  function IsNothingAfter<T, B>(f: T -> Maybe<B>): T -> bool
  {
    x => f(x).Nothing?
  }

  /** The predicate "`f` gives a value". */
  function IsJustAfter<T, B>(f: T -> Maybe<B>): T -> bool
  {
    x => f(x).Just?
  }

  /**
   * `span(f)`: the longest prefix whose elements all satisfy `f`, and the
   * rest of the list (shared with the original).
   */
  function Span<T>(l: List<T>, f: T -> bool): (r: (List<T>, List<T>))
    ensures Elems(r.0) + Elems(r.1) == Elems(l)
    ensures forall i :: 0 <= i < Length(r.0) ==> f(Elems(r.0)[i])
    ensures r.1.Cons? ==> !f(r.1.head)
    ensures r.1 == Drop(l, Length(r.0))
  {
    match l
    case Nil => (Nil, Nil)
    case Cons(h, t) =>
      if f(h) then
        var s := Span(t, f);
        var r := (Cons(h, s.0), s.1);
        assert Elems(r.0) + Elems(r.1) == [h] + (Elems(s.0) + Elems(s.1));
        assert Drop(l, Length(r.0)) == Drop(t, Length(s.0));
        ConsIndex(h, s.0);
        r
      else
        assert [] + Elems(l) == Elems(l);
        (Nil, l)
  }

  // ---------------------------------------------------------------------
  // Take and drop

  /**
   * `take(n)` as the documentation describes it: the first `n` elements, or
   * the whole list when it is shorter.
   */
  function Take<T>(l: List<T>, n: int): (r: List<T>)
    ensures Elems(r) == Elems(l)[..Seqs.Clamp(n, Length(l))]
  {
    if n <= 0 then Nil
    else match l
      case Nil => Nil
      case Cons(h, t) => Cons(h, Take(t, n - 1))
  }

  /**
   * `drop(n)` as the documentation describes it: the list after its first
   * `n` elements (a shared suffix), or the empty list when it is shorter.
   */
  function Drop<T>(l: List<T>, n: int): (r: List<T>)
    ensures Elems(r) == Elems(l)[Seqs.Clamp(n, Length(l))..]
  {
    if n <= 0 then l
    else match l
      case Nil => Nil
      case Cons(_, t) => Drop(t, n - 1)
  }

  lemma {:induction false} TakeAppendDrop<T>(l: List<T>, n: int)
    ensures Append(Take(l, n), Drop(l, n)) == l
  {
    ElemsInjective(Append(Take(l, n), Drop(l, n)), l);
  }

  /**
   * `take(n)` as written: a non-empty list copies `n` heads, casting every
   * visited cell to a non-empty cell, so a list shorter than `n` ends in a
   * ClassCastException; the empty list returns itself for every `n`.
   */
  function TakeAsWritten<T>(l: List<T>, n: int): (r: Outcome<List<T>>)
  {
    if l.Nil? then Returns(l)
    else if n <= 0 then Returns(Nil)
    else TakeCells(l, n)
  }

  /** The copying loop of `take`: `n` casts and heads. */
  function TakeCells<T>(l: List<T>, n: nat): (r: Outcome<List<T>>)
  {
    if n == 0 then Returns(Nil)
    else match l
      case Nil => Throws(ClassCastException)
      case Cons(h, t) =>
        match TakeCells(t, n - 1)
        case Returns(rest) => Returns(Cons(h, rest))
        case Throws(e) => Throws(e)
        case NeverReturns => NeverReturns
  }

  /** Within the list's length, `take` as written agrees with the documented `take`. */
  lemma {:induction false} TakeAsWrittenInRange<T>(l: List<T>, n: int)
    requires n <= Length(l)
    ensures TakeAsWritten(l, n) == Returns(Take(l, n))
  {
    if l.Cons? && n > 0 {
      TakeCellsInRange(l, n);
    }
  }

  lemma {:induction false} TakeCellsInRange<T>(l: List<T>, n: nat)
    requires n <= Length(l)
    ensures TakeCells(l, n) == Returns(Take(l, n))
  {
    if n > 0 {
      TakeCellsInRange(l.tail, n - 1);
    }
  }

  /** Past the end of a non-empty list, `take` as written throws. */
  lemma {:induction false} TakeAsWrittenThrows<T>(l: List<T>, n: int)
    requires l.Cons? && n > Length(l)
    ensures TakeAsWritten(l, n) == Throws(ClassCastException)
  {
    TakeCellsPastEnd(l, n);
  }

  lemma {:induction false} TakeCellsPastEnd<T>(l: List<T>, n: nat)
    requires n > Length(l)
    ensures TakeCells(l, n) == Throws(ClassCastException)
  {
    if l.Cons? {
      TakeCellsPastEnd(l.tail, n - 1);
    }
  }

  /** The concrete case `[x].take(2)`. */
  lemma TakeTwoOfSingleton<T>(x: T)
    ensures TakeAsWritten(Cons(x, Nil), 2) == Throws(ClassCastException)
    ensures Take(Cons(x, Nil), 2) == Cons(x, Nil)
  {
    TakeAsWrittenThrows(Cons(x, Nil), 2);
  }

  /** One iteration of the loop of `drop`: step to the tail only when there is one. */
  function DropStep<T>(state: (List<T>, int)): (List<T>, int)
  {
    if state.0.Cons? then (state.0.tail, state.1 - 1) else state
  }

  /** The loop state of `drop` after `k` iterations. */
  function DropIterate<T>(state: (List<T>, int), k: nat): (List<T>, int)
    decreases k
  {
    if k == 0 then state else DropIterate(DropStep(state), k - 1)
  }

  /**
   * `drop(n)` as written, for the inputs on which its loop ends: a non-empty
   * list no shorter than `n`, or the empty list (which returns itself).
   */
  method DropAsWritten<T>(l: List<T>, n: int) returns (r: List<T>)
    requires l.Nil? || n <= Length(l)
    ensures r == Drop(l, n)
  {
    if l.Nil? || n <= 0 {
      return l;
    }
    var list := l;
    var k := n;
    while k > 0
      invariant 0 <= k <= Length(list)
      invariant Drop(list, k) == Drop(l, n)
    {
      if list.Cons? {
        list := list.tail;
        k := k - 1;
      }
    }
    r := list;
  }

  /**
   * For a non-empty list shorter than `n` the loop of `drop` never ends:
   * after any number of iterations its counter is still positive.
   */
  lemma {:induction false} DropLoopNeverExits<T>(l: List<T>, n: int, k: nat)
    requires Length(l) < n
    ensures DropIterate((l, n), k).1 > 0
    decreases k
  {
    if k > 0 {
      match l
      case Nil =>
        DropStuck(l, n, k);
      case Cons(_, t) =>
        DropLoopNeverExits(t, n - 1, k - 1);
    }
  }

  /** Once the list is empty the loop state of `drop` no longer changes. */
  lemma {:induction false} DropStuck<T>(l: List<T>, n: int, k: nat)
    requires l.Nil?
    ensures DropIterate((l, n), k) == (l, n)
    decreases k
  {
    if k > 0 {
      DropStuck(l, n, k - 1);
    }
  }

  /**
   * `patch(index, patchLength, replacements)`: the first `index` elements,
   * then the replacements, then the list after `index + patchLength`.
   */
  function Patch<T>(l: List<T>, index: int, patchLength: int, replacements: List<T>): (r: List<T>)
    ensures 0 <= index && 0 <= patchLength && index + patchLength <= Length(l) ==>
      Elems(r) == Elems(l)[..index] + Elems(replacements) + Elems(l)[index + patchLength..]
    ensures Length(r) == Seqs.Clamp(index, Length(l)) + Length(replacements) + Length(l) - Seqs.Clamp(index + patchLength, Length(l))
  {
    if l.Nil? then replacements
    else Append(Append(Take(l, index), replacements), Drop(l, index + patchLength))
  }

  /**
   * `drop(n)` as written, read as an outcome: the documented suffix when
   * its loop ends (`DropAsWritten`), and no result when it does not, in
   * which case the loop counter stays positive forever.
   */
  function DropOutcome<T>(l: List<T>, n: int): (r: Outcome<List<T>>)
    ensures r.Returns? <==> l.Nil? || n <= Length(l)
    ensures r.Returns? ==> r.value == Drop(l, n)
    ensures !r.Returns? ==> r == NeverReturns && forall k: nat :: DropIterate((l, n), k).1 > 0
  {
    if l.Nil? || n <= Length(l) then Returns(Drop(l, n))
    else
      assert forall k: nat :: DropIterate((l, n), k).1 > 0 by {
        forall k: nat ensures DropIterate((l, n), k).1 > 0 {
          DropLoopNeverExits(l, n, k);
        }
      }
      NeverReturns
  }

  /** Java's `int` addition: the exact sum wrapped into `[-2^31, 2^31)`. */
  function IntAdd(a: int, b: int): (r: int)
    ensures -0x8000_0000 <= r < 0x8000_0000
    ensures (a + b - r) % 0x1_0000_0000 == 0
    ensures -0x8000_0000 <= a + b < 0x8000_0000 ==> r == a + b
  {
    (a + b + 0x8000_0000) % 0x1_0000_0000 - 0x8000_0000
  }

  /**
   * `patch` as written: the empty list returns the replacements; a
   * non-empty list runs `take(index)` as written, then `drop` as written of
   * the `int` sum `index + patchLength`, and appends the three parts.
   */
  function PatchAsWritten<T>(l: List<T>, index: int, patchLength: int, replacements: List<T>): (r: Outcome<List<T>>)
  {
    if l.Nil? then Returns(replacements)
    else match TakeAsWritten(l, index)
      case Returns(front) =>
        (match DropOutcome(l, IntAdd(index, patchLength))
         case Returns(back) => Returns(Append(Append(front, replacements), back))
         case Throws(e) => Throws(e)
         case NeverReturns => NeverReturns)
      case Throws(e) => Throws(e)
      case NeverReturns => NeverReturns
  }

  /**
   * `patch` as written, case by case: it returns the replacements on the
   * empty list; on a non-empty list it throws when `index` is past the end,
   * never returns when the wrapped end `IntAdd(index, patchLength)` is past
   * the end, and otherwise returns the prefix, the replacements and the
   * suffix after the wrapped end. Without overflow and with both cut points
   * in range that is the documented patch.
   */
  lemma {:induction false} PatchAsWrittenBehaviour<T>(l: List<T>, index: int, patchLength: int, replacements: List<T>)
    ensures l.Nil? ==> PatchAsWritten(l, index, patchLength, replacements) == Returns(replacements)
    ensures l.Cons? && index > Length(l) ==>
      PatchAsWritten(l, index, patchLength, replacements) == Throws(ClassCastException)
    ensures l.Cons? && index <= Length(l) < IntAdd(index, patchLength) ==>
      PatchAsWritten(l, index, patchLength, replacements) == NeverReturns
    ensures l.Cons? && index <= Length(l) && IntAdd(index, patchLength) <= Length(l) ==>
      PatchAsWritten(l, index, patchLength, replacements)
        == Returns(Append(Append(Take(l, index), replacements), Drop(l, IntAdd(index, patchLength))))
    ensures -0x8000_0000 <= index + patchLength < 0x8000_0000 &&
            (l.Nil? || (index <= Length(l) && index + patchLength <= Length(l))) ==>
      PatchAsWritten(l, index, patchLength, replacements) == Returns(Patch(l, index, patchLength, replacements))
  {
    if l.Cons? {
      if index > Length(l) {
        TakeAsWrittenThrows(l, index);
      } else {
        TakeAsWrittenInRange(l, index);
      }
    }
  }

  /** The concrete cases `[x].patch(2, 0, r)` and `[x].patch(0, 2, r)`. */
  lemma PatchPastEndOfSingleton<T>(x: T, replacements: List<T>)
    ensures PatchAsWritten(Cons(x, Nil), 2, 0, replacements) == Throws(ClassCastException)
    ensures PatchAsWritten(Cons(x, Nil), 0, 2, replacements) == NeverReturns
    ensures Patch(Cons(x, Nil), 2, 0, replacements) == Append(Cons(x, Nil), replacements)
    ensures Patch(Cons(x, Nil), 0, 2, replacements) == replacements
  {
    PatchAsWrittenBehaviour(Cons(x, Nil), 2, 0, replacements);
    PatchAsWrittenBehaviour(Cons(x, Nil), 0, 2, replacements);
    AppendNil(Append(Cons(x, Nil), replacements));
    AppendNil(replacements);
  }

  /**
   * The concrete case `[x].patch(1, 2^31 - 1, r)`: the end `1 + (2^31 - 1)`
   * wraps to `-2^31`, `drop` of it keeps the whole list, and the element
   * comes back after the replacements.
   */
  lemma PatchWrapsAround<T>(x: T, replacements: List<T>)
    ensures PatchAsWritten(Cons(x, Nil), 1, 0x7fff_ffff, replacements)
      == Returns(Append(Append(Cons(x, Nil), replacements), Cons(x, Nil)))
    ensures Patch(Cons(x, Nil), 1, 0x7fff_ffff, replacements) == Append(Cons(x, Nil), replacements)
  {
    assert IntAdd(1, 0x7fff_ffff) == -0x8000_0000;
    PatchAsWrittenBehaviour(Cons(x, Nil), 1, 0x7fff_ffff, replacements);
    AppendNil(Append(Cons(x, Nil), replacements));
  }

  // ---------------------------------------------------------------------
  // Equality and hashing

  /**
   * `equals`: the same reference, or a non-empty list of equal length with
   * pairwise equal heads; a shared cell ends the comparison early. Java's
   * reference test is the parameter `same`, which may only hold of equal
   * lists and holds of the one shared empty list.
   */
  method Equals<T(==)>(a: List<T>, b: List<T>, same: (List<T>, List<T>) -> bool) returns (r: bool)
    requires forall x, y :: same(x, y) ==> x == y
    requires same(Nil, Nil)
    ensures r <==> a == b
  {
    if same(a, b) {
      return true;
    }
    if a.Nil? || b.Nil? {
      return false;
    }
    if Length(a) != Length(b) {
      ElemsLength(a, b);
      return false;
    }
    var l := a;
    var rr := b;
    while l.Cons? && rr.Cons?
      invariant Length(l) == Length(rr)
      invariant (a == b) <==> (l == rr)
      decreases Length(l)
    {
      if same(l, rr) {
        return true;
      }
      if l.head != rr.head {
        return false;
      }
      l := l.tail;
      rr := rr.tail;
    }
    r := same(l, rr);
  }

  lemma ElemsLength<T>(a: List<T>, b: List<T>)
    requires Length(a) != Length(b)
    ensures a != b
  {
  }

  /**
   * The parameters of `hashCode`: the builder's starting value, the fixed
   * hash of the empty list, the builder's mixing step and the elements'
   * own `hashCode`. Java's hash builder is not part of this model.
   */
  datatype HashCoding<!T> = HashCoding(start: int, nilHash: int, mix: (int, int) -> int, elemHash: T -> int)

  /**
   * The hash of a list: the empty list has the fixed `nilHash`; a non-empty
   * list folds its elements from the last one back, starting from `start`.
   */
  function HashOf<T>(l: List<T>, hc: HashCoding<T>): int
  {
    match l
    case Nil => hc.nilHash
    case Cons(_, _) => Seqs.FoldRight(Elems(l), HashStep(hc), hc.start)
  }

  /** One step of the hash builder: mix an element's hash into the running hash. */
  function HashStep<T>(hc: HashCoding<T>): (T, int) -> int
  {
    (x: T, h: int) => hc.mix(h, hc.elemHash(x))
  }

  /** The value the hash of a cell's tail contributes: `start` after the last cell. */
  function Seed<T>(t: List<T>, hc: HashCoding<T>): int
  {
    if t.Nil? then hc.start else HashOf(t, hc)
  }

  lemma HashOfCons<T>(h: T, t: List<T>, hc: HashCoding<T>)
    ensures HashOf(Cons(h, t), hc) == hc.mix(Seed(t, hc), hc.elemHash(h))
  {
    assert Elems(Cons(h, t))[1..] == Elems(t);
    assert Seqs.FoldRight(Elems(Cons(h, t)), HashStep(hc), hc.start)
        == HashStep(hc)(h, Seqs.FoldRight(Elems(t), HashStep(hc), hc.start));
  }

  /** A cache whose every entry holds the hash of its (non-empty) list. */
  ghost predicate CacheSound<T(!new)>(cache: List<T> -> Maybe<int>, hc: HashCoding<T>)
  {
    forall s: List<T> :: cache(s).Just? ==> s.Cons? && cache(s).value == HashOf(s, hc)
  }

  /**
   * `calcHashCode` of a non-empty list: walk down until a cell with a cached
   * hash (or the last cell), then mix the element hashes back up, returning
   * the hash and the (cell, hash) pairs written to the cells' caches.
   */
  method CalcHashCode<T(!new)>(l: List<T>, hc: HashCoding<T>, cache: List<T> -> Maybe<int>)
    returns (hash: int, written: seq<(List<T>, int)>)
    requires l.Cons?
    requires CacheSound(cache, hc)
    ensures hash == HashOf(l, hc)
    ensures forall i :: 0 <= i < |written| ==> written[i].0.Cons? && written[i].1 == HashOf(written[i].0, hc)
    ensures cache(l).Nothing? ==> |written| > 0 && written[|written| - 1] == (l, hash)
  {
    var seed, hashStack, sublistStack := HashWalkDown(l, hc, cache);
    hash, written := HashMixBack(l, hc, seed, hashStack, sublistStack);
  }

  /**
   * The first loop of `calcHashCode`: push each cell and its head's hash
   * until a cell with a cached hash (whose hash becomes the seed) or the last
   * cell (the seed stays `start`).
   */
  method HashWalkDown<T(!new)>(l: List<T>, hc: HashCoding<T>, cache: List<T> -> Maybe<int>)
    returns (seed: int, hashStack: seq<int>, sublistStack: seq<List<T>>)
    requires l.Cons?
    requires CacheSound(cache, hc)
    ensures |hashStack| == |sublistStack|
    ensures forall i :: 0 <= i < |sublistStack| ==> sublistStack[i] == Suffix(l, i)
    ensures forall i :: 0 <= i < |sublistStack| ==> sublistStack[i].Cons? && hashStack[i] == hc.elemHash(sublistStack[i].head)
    ensures seed == Seed(Suffix(l, |sublistStack|), hc)
    ensures cache(l).Nothing? <==> |sublistStack| > 0
  {
    var list := l;
    hashStack := [];
    sublistStack := [];
    seed := hc.start;
    while true
      invariant list.Cons?
      invariant |hashStack| == |sublistStack|
      invariant list == Suffix(l, |sublistStack|)
      invariant forall i :: 0 <= i < |sublistStack| ==> sublistStack[i] == Suffix(l, i)
      invariant forall i :: 0 <= i < |sublistStack| ==> sublistStack[i].Cons? && hashStack[i] == hc.elemHash(sublistStack[i].head)
      invariant cache(l).Just? ==> |sublistStack| == 0
      decreases Length(list)
    {
      if cache(list).Just? {
        seed := cache(list).value;
        return;
      }
      SuffixTail(l, |sublistStack|);
      hashStack := hashStack + [hc.elemHash(list.head)];
      sublistStack := sublistStack + [list];
      if list.tail.Cons? {
        list := list.tail;
      } else {
        return;
      }
    }
  }

  /**
   * The second loop of `calcHashCode`: from the deepest pushed cell back to
   * the first, mix the cell's head hash into the running hash and cache it.
   */
  method HashMixBack<T>(l: List<T>, hc: HashCoding<T>, seed: int, hashStack: seq<int>, sublistStack: seq<List<T>>)
    returns (hash: int, written: seq<(List<T>, int)>)
    requires l.Cons?
    requires |hashStack| == |sublistStack|
    requires forall i :: 0 <= i < |sublistStack| ==> sublistStack[i] == Suffix(l, i)
    requires forall i :: 0 <= i < |sublistStack| ==> sublistStack[i].Cons? && hashStack[i] == hc.elemHash(sublistStack[i].head)
    requires seed == Seed(Suffix(l, |sublistStack|), hc)
    ensures hash == HashOf(l, hc)
    ensures forall i :: 0 <= i < |written| ==> written[i].0.Cons? && written[i].1 == HashOf(written[i].0, hc)
    ensures |sublistStack| > 0 ==> |written| > 0 && written[|written| - 1] == (l, hash)
  {
    hash := seed;
    written := [];
    var k := |sublistStack| - 1;
    while k >= 0
      invariant -1 <= k < |sublistStack|
      invariant |written| == |sublistStack| - 1 - k
      invariant hash == Seed(Suffix(l, k + 1), hc)
      invariant forall i :: 0 <= i < |written| ==> written[i].0.Cons? && written[i].1 == HashOf(written[i].0, hc)
      invariant |written| > 0 ==> written[|written| - 1] == (sublistStack[k + 1], hash)
    {
      MixBackStep(l, hc, k, hash);
      hash := hc.mix(hash, hashStack[k]);
      written := written + [(sublistStack[k], hash)];
      k := k - 1;
    }
  }

  /** Mixing a cell's head hash into the seed of its tail gives the cell's hash. */
  lemma MixBackStep<T>(l: List<T>, hc: HashCoding<T>, k: nat, hash: int)
    requires Suffix(l, k).Cons?
    requires hash == Seed(Suffix(l, k + 1), hc)
    ensures hc.mix(hash, hc.elemHash(Suffix(l, k).head)) == HashOf(Suffix(l, k), hc) == Seed(Suffix(l, k), hc)
  {
    SuffixTail(l, k);
    HashOfCons(Suffix(l, k).head, Suffix(l, k).tail, hc);
  }

  /** The list after its first `i` cells (the empty list past the end). */
  function Suffix<T>(l: List<T>, i: nat): List<T>
  {
    if i == 0 then l
    else match l
      case Nil => Nil
      case Cons(_, t) => Suffix(t, i - 1)
  }

  lemma {:induction false} SuffixTail<T>(l: List<T>, i: nat)
    requires Suffix(l, i).Cons?
    ensures Suffix(l, i + 1) == Suffix(l, i).tail
    decreases i
  {
    if i > 0 {
      SuffixTail(l.tail, i - 1);
    }
  }

  /** Dropping one more element of a long enough list steps to the tail. */
  lemma {:induction false} DropTail<T>(l: List<T>, i: nat)
    requires Drop(l, i).Cons?
    ensures Drop(l, i + 1) == Drop(l, i).tail
    decreases i
  {
    if i > 0 {
      DropTail(l.tail, i - 1);
    }
  }

  /**
   * `toArray(target)`: when `target` is long enough the elements are written
   * over its front in place and `target` itself is returned (the rest of it
   * is kept); otherwise a new array of exactly the list's length is filled
   * and `target` is left alone.
   */
  method ToArray<T(0)>(l: List<T>, target: array<T>) returns (r: array<T>)
    modifies target
    ensures target.Length >= Length(l) ==> r == target && r[Length(l)..] == old(target[Length(l)..])
    ensures target.Length < Length(l) ==> fresh(r) && r.Length == Length(l) && unchanged(target)
    ensures Length(l) <= r.Length && r[..Length(l)] == Elems(l)
  {
    var length := Length(l);
    r := target;
    if target.Length < length {
      r := new T[length];
    }
    var list := l;
    var i := 0;
    while i < length
      invariant 0 <= i <= length <= r.Length
      invariant r == target || (fresh(r) && r.Length == length && unchanged(target))
      invariant r == target ==> r[length..] == old(target[length..])
      invariant Elems(list) == Elems(l)[i..]
      invariant r[..i] == Elems(l)[..i]
    {
      r[i] := list.head;
      list := list.tail;
      i := i + 1;
    }
  }

  /**
   * `partition(p)`: one pass writes the satisfying elements to the front of
   * an array and the others to its back (so those end up reversed); the
   * right list is then consed from the back part, which restores its order.
   */
  method Partition<T>(l: List<T>, p: T -> bool) returns (left: List<T>, right: List<T>)
    ensures Elems(left) == Elems(Filter(l, p))
    ensures Elems(right) == Elems(RemoveAll(l, p))
  {
    var result, lo := PartitionFill(l, p);
    right := ConsBackwards(result, lo);
    Seqs.ReverseInvolutive(Seqs.Filter(Elems(l), Seqs.Not(p)));
    var front := FromBounded(result, 0, lo);
    left := front.value;
    assert result[0..lo] == result[..lo];
  }

  /**
   * The `forEach` pass of `partition`: satisfying elements go to the next
   * free slot from the front, the others to the next free slot from the back.
   */
  method PartitionFill<T>(l: List<T>, p: T -> bool) returns (result: seq<T>, lo: nat)
    ensures |result| == Length(l) && lo <= |result|
    ensures result[..lo] == Seqs.Filter(Elems(l), p)
    ensures result[lo..] == Seqs.Reverse(Seqs.Filter(Elems(l), Seqs.Not(p)))
  {
    var xs := Elems(l);
    result := xs;  // Java's fresh array; its initial contents are all overwritten
    lo := 0;
    var hi: nat := |xs|;
    var i := 0;
    assert result[..0] == [] && result[hi..] == [];
    while i < |xs|
      invariant i <= |xs| && |result| == |xs|
      invariant Filled(xs[..i], p, result, lo, hi)
    {
      assert xs[..i + 1] == xs[..i] + [xs[i]];
      result, lo, hi := FillOne(xs[..i], xs[i], p, result, lo, hi);
      i := i + 1;
    }
    assert xs[..i] == xs && lo == hi;
  }

  /** One write of `partition`'s pass: a satisfying element to the front, any other to the back. */
  method FillOne<T>(ghost seen: seq<T>, a: T, p: T -> bool, result: seq<T>, lo: nat, hi: nat)
    returns (result': seq<T>, lo': nat, hi': nat)
    requires Filled(seen, p, result, lo, hi) && |seen| < |result|
    ensures |result'| == |result| && Filled(seen + [a], p, result', lo', hi')
  {
    FillStep(seen, a, p, result, lo, hi);
    if p(a) {
      result', lo', hi' := result[lo := a], lo + 1, hi;
    } else {
      result', lo', hi' := result[hi - 1 := a], lo, hi - 1;
    }
  }

  /** The state of `partition`'s array after the elements `seen` have been written. */
  ghost predicate Filled<T>(seen: seq<T>, p: T -> bool, result: seq<T>, lo: nat, hi: nat)
  {
    && lo <= hi <= |result|
    && lo + |result| - hi == |seen|
    && result[..lo] == Seqs.Filter(seen, p)
    && result[hi..] == Seqs.Reverse(Seqs.Filter(seen, Seqs.Not(p)))
  }

  /** Writing one more element to its slot keeps the array in the `Filled` state. */
  lemma FillStep<T>(seen: seq<T>, a: T, p: T -> bool, result: seq<T>, lo: nat, hi: nat)
    requires Filled(seen, p, result, lo, hi) && |seen| < |result|
    ensures p(a) ==> Filled(seen + [a], p, result[lo := a], lo + 1, hi)
    ensures !p(a) ==> hi > 0 && Filled(seen + [a], p, result[hi - 1 := a], lo, hi - 1)
  {
    PartitionStep(seen, a, p);
    if p(a) {
      assert result[lo := a][..lo + 1] == result[..lo] + [a];
      assert result[lo := a][hi..] == result[hi..];
    } else {
      assert result[hi - 1 := a][..lo] == result[..lo];
      assert result[hi - 1 := a][hi - 1..] == [a] + result[hi..];
    }
  }

  /** The final loop of `partition`: cons `result[from..]` from its front, which reverses it. */
  method ConsBackwards<T>(result: seq<T>, from: nat) returns (right: List<T>)
    requires from <= |result|
    ensures Elems(right) == Seqs.Reverse(result[from..])
  {
    right := Nil;
    var i := from;
    while i < |result|
      invariant from <= i <= |result|
      invariant Elems(right) == Seqs.Reverse(result[from..i])
    {
      assert result[from..i + 1] == result[from..i] + [result[i]];
      Seqs.ReverseAppend(result[from..i], [result[i]]);
      right := Cons(result[i], right);
      i := i + 1;
    }
    assert result[from..i] == result[from..];
  }

  /** How one more element extends the two halves `partition` has written. */
  lemma PartitionStep<T>(seen: seq<T>, a: T, p: T -> bool)
    ensures Seqs.Filter(seen + [a], p) == Seqs.Filter(seen, p) + if p(a) then [a] else []
    ensures Seqs.Reverse(Seqs.Filter(seen + [a], Seqs.Not(p)))
         == (if p(a) then [] else [a]) + Seqs.Reverse(Seqs.Filter(seen, Seqs.Not(p)))
  {
    Seqs.FilterAppend(seen, [a], p);
    Seqs.FilterAppend(seen, [a], Seqs.Not(p));
    assert Seqs.Filter([a], p) == if p(a) then [a] else [];
    assert Seqs.Filter([a], Seqs.Not(p)) == if p(a) then [] else [a];
    Seqs.ReverseAppend(Seqs.Filter(seen, Seqs.Not(p)), Seqs.Filter([a], Seqs.Not(p)));
  }
}

=== FILE: immutable_set.dfy ===
// ImmutableSet.java: a set is a hash table whose values are all unit; its
// elements are the table's keys, in the order the table's foldLeft visits
// them.
module ImmutableSets {
  import Seqs
  import ImmutableLists
  import opened HashTables
  import HashTableApi

  datatype ImmutableSet<!T> = ImmutableSet(data: HashTable<T, ()>)

  ghost predicate ValidSet<T>(s: ImmutableSet<T>)
  {
    ValidTable(s.data)
  }

  /** The keys of an entry list, in order. */
  function KeysOf<K, V>(es: seq<(K, V)>): (r: seq<K>)
    ensures |r| == |es|
  {
    seq(|es|, i requires 0 <= i < |es| => es[i].0)
  }

  /** The elements, in the order the table's folds visit them. */
  function Elements<T>(s: ImmutableSet<T>): seq<T>
  {
    KeysOf(Entries(s.data.root))
  }

  /** No element is listed twice. */
  ghost predicate NoDuplicates<T>(xs: seq<T>)
  {
    forall i, j :: 0 <= i < j < |xs| ==> xs[i] != xs[j]
  }

  /** The elements of a valid set are distinct. */
  lemma ElementsDistinct<T>(s: ImmutableSet<T>)
    requires ValidSet(s)
    ensures NoDuplicates(Elements(s))
  {
    LengthEntries(s.data.root, s.data.hasher.hash, 0);
  }

  /** `length()`: the table's length field, which counts the distinct elements. */
  function Length<T>(s: ImmutableSet<T>): (n: int)
    requires ValidSet(s)
    ensures n == |Members(Elements(s))|
  {
    ElementsDistinct(s);
    MembersCard(Elements(s));
    HashTableApi.Size(s.data)
  }

  /** `emptyUsingEquality()`, `emptyUsingIdentity()`: a set without elements under the given hasher. */
  function EmptySet<T>(hasher: Hasher<T>): (r: ImmutableSet<T>)
    ensures ValidSet(r) && Elements(r) == []
  {
    ImmutableSet(HashTableApi.EmptyTable(hasher))
  }

  /** `contains(datum)`: the datum is one of the elements. */
  function Contains<T(==)>(s: ImmutableSet<T>, x: T): (r: bool)
    requires ValidSet(s)
    ensures r <==> x in Elements(s)
  {
    var es := Entries(s.data.root);
    HasKeyIndex(es, x);
    assert forall j :: 0 <= j < |es| ==> Elements(s)[j] == es[j].0;
    HashTableApi.ContainsKey(s.data, x)
  }

  /** `put(datum)`: the datum joins the elements. */
  function Put<T(==, !new)>(s: ImmutableSet<T>, x: T): (r: ImmutableSet<T>)
    requires ValidSet(s)
    ensures ValidSet(r) && r.data.hasher == s.data.hasher
    ensures forall y :: Contains(r, y) <==> y == x || Contains(s, y)
  {
    ImmutableSet(HashTableApi.Put(s.data, x, ()))
  }

  /** `putAll(list)`: put each element of the list, front to back. */
  function PutAll<T(==, !new)>(s: ImmutableSet<T>, l: ImmutableLists.List<T>): (r: ImmutableSet<T>)
    requires ValidSet(s)
    ensures ValidSet(r) && r.data.hasher == s.data.hasher
    ensures forall y :: Contains(r, y) <==> y in ImmutableLists.Elems(l) || Contains(s, y)
    decreases l
  {
    match l
    case Nil => s
    case Cons(x, rest) =>
      assert forall y :: y in ImmutableLists.Elems(l) <==> y == x || y in ImmutableLists.Elems(rest);
      PutAll(Put(s, x), rest)
  }

  /** `remove(datum)`: the datum leaves the elements. */
  function Remove<T(==, !new)>(s: ImmutableSet<T>, x: T): (r: ImmutableSet<T>)
    requires ValidSet(s)
    ensures ValidSet(r) && r.data.hasher == s.data.hasher
    ensures forall y :: Contains(r, y) <==> y != x && Contains(s, y)
  {
    ImmutableSet(HashTableApi.Remove(s.data, x))
  }

  /**
   * `union(other)`: the table merge of the two sets. It uses the repaired
   * merge, so the union holds every element of both sets whatever hashers
   * built them; when both sets share a hasher its lookups are those of the
   * merge as written.
   */
  function Union<T(==, !new)>(s1: ImmutableSet<T>, s2: ImmutableSet<T>): (r: ImmutableSet<T>)
    requires ValidSet(s1) && ValidSet(s2)
    ensures ValidSet(r)
    ensures r.data.hasher == if s1.data.root.Empty? then s2.data.hasher else s1.data.hasher
    ensures forall y :: Contains(r, y) <==> Contains(s1, y) || Contains(s2, y)
    ensures s1.data.hasher == s2.data.hasher ==>
      forall y :: HashTableApi.Get(r.data, y) == HashTableApi.Get(HashTableApi.MergeAsWritten(s1.data, s2.data, HashTableApi.KeepRight), y)
  {
    ImmutableSet(HashTableApi.MergeRight(s1.data, s2.data))
  }

  /** `keys()` of HashTable: the table mapped to unit, read as a set. */
  function KeySet<K(==, !new), V>(t: HashTable<K, V>): (r: ImmutableSet<K>)
    requires ValidTable(t)
    ensures ValidSet(r)
    ensures forall k :: Contains(r, k) <==> HashTableApi.ContainsKey(t, k)
  {
    ImmutableSet(HashTableApi.Map(t, (_: V) => ()))
  }

  lemma {:induction false} FoldRightKeys<K, V, A>(es: seq<(K, V)>, f: (K, A) -> A, init: A)
    ensures Seqs.FoldRight(es, (p: (K, V), acc: A) => f(p.0, acc), init) == Seqs.FoldRight(KeysOf(es), f, init)
    decreases |es|
  {
    if |es| > 0 {
      assert KeysOf(es)[1..] == KeysOf(es[1..]);
      FoldRightKeys(es[1..], f, init);
    }
  }

  /**
   * `foldAbelian(f, init)`: the table's foldRight on the elements. The order
   * is the trie's; `FoldAbelianOrderFree` shows it does not matter when `f`
   * commutes.
   */
  function FoldAbelian<T, A>(s: ImmutableSet<T>, f: (T, A) -> A, init: A): (r: A)
    ensures r == Seqs.FoldRight(Elements(s), f, init)
  {
    FoldRightKeys(Entries(s.data.root), f, init);
    HashTableApi.FoldRight(s.data, (p: (T, ()), acc: A) => f(p.0, acc), init)
  }

  /** `f` gives the same result whichever of `a` and `b` it takes first. */
  ghost predicate Swaps<T, A>(f: (T, A) -> A, a: T, b: T, acc: A)
  {
    f(a, f(b, acc)) == f(b, f(a, acc))
  }

  /** The fold of `[x] + ys` applies `f` to `x` last. */
  lemma FoldRightFront<T, A>(x: T, ys: seq<T>, f: (T, A) -> A, init: A)
    ensures Seqs.FoldRight([x] + ys, f, init) == f(x, Seqs.FoldRight(ys, f, init))
  {
    assert ([x] + ys)[1..] == ys;
  }

  /** An element can be pulled to the front of a commuting fold. */
  lemma {:induction false} FoldRightPullFront<T, A>(xs: seq<T>, j: int, f: (T, A) -> A, init: A)
    requires 0 <= j < |xs|
    requires forall a, b, acc :: Swaps(f, a, b, acc)
    ensures Seqs.FoldRight(xs, f, init) == f(xs[j], Seqs.FoldRight(xs[..j] + xs[j + 1..], f, init))
    decreases j
  {
    if j > 0 {
      var ys := xs[1..];
      var ys' := ys[..j - 1] + ys[j..];
      FoldRightPullFront(ys, j - 1, f, init);
      assert xs == [xs[0]] + ys;
      FoldRightFront(xs[0], ys, f, init);
      assert xs[..j] + xs[j + 1..] == [xs[0]] + ys' by {
        assert xs[..j] == [xs[0]] + ys[..j - 1];
        assert xs[j + 1..] == ys[j..];
      }
      FoldRightFront(xs[0], ys', f, init);
      var x := Seqs.FoldRight(ys', f, init);
      assert ys[j - 1] == xs[j];
      assert Seqs.FoldRight(xs, f, init) == f(xs[0], f(xs[j], x));
      assert Swaps(f, xs[0], xs[j], x);
    } else {
      assert xs[..j] + xs[j + 1..] == xs[1..];
      assert xs == [xs[0]] + xs[1..];
      FoldRightFront(xs[0], xs[1..], f, init);
    }
  }

  /** Dropping the element at `j` takes one copy of it out of the multiset. */
  lemma RemoveAt<T>(ys: seq<T>, j: int)
    requires 0 <= j < |ys|
    ensures multiset(ys[..j] + ys[j + 1..]) == multiset(ys) - multiset{ys[j]}
  {
    assert ys == ys[..j] + [ys[j]] + ys[j + 1..];
  }

  /** Taking one copy of the same value out of two reorderings leaves two reorderings. */
  lemma RemoveBoth<T>(xs: seq<T>, ys: seq<T>, j: int)
    requires multiset(xs) == multiset(ys)
    requires |xs| > 0 && 0 <= j < |ys| && ys[j] == xs[0]
    ensures multiset(xs[1..]) == multiset(ys[..j] + ys[j + 1..])
  {
    RemoveAt(ys, j);
    assert xs == [xs[0]] + xs[1..];
    assert multiset(xs) == multiset{xs[0]} + multiset(xs[1..]);
  }

  /** A commuting fold gives the same result over any reordering of its elements. */
  lemma {:induction false} FoldRightPermutation<T, A>(xs: seq<T>, ys: seq<T>, f: (T, A) -> A, init: A)
    requires multiset(xs) == multiset(ys)
    requires forall a, b, acc :: Swaps(f, a, b, acc)
    ensures Seqs.FoldRight(xs, f, init) == Seqs.FoldRight(ys, f, init)
    decreases |xs|
  {
    if |xs| == 0 {
      assert |ys| == |multiset(ys)| == 0;
    } else {
      assert xs[0] in multiset(ys);
      var j :| 0 <= j < |ys| && ys[j] == xs[0];
      var rest := ys[..j] + ys[j + 1..];
      FoldRightPullFront(ys, j, f, init);
      RemoveBoth(xs, ys, j);
      FoldRightPermutation(xs[1..], rest, f, init);
      assert xs == [xs[0]] + xs[1..];
      FoldRightFront(xs[0], xs[1..], f, init);
    }
  }

  /** Two duplicate-free lists with the same members are reorderings of each other. */
  lemma SameMembersPermutation<T>(xs: seq<T>, ys: seq<T>)
    requires NoDuplicates(xs) && NoDuplicates(ys)
    requires forall y :: y in xs <==> y in ys
    ensures multiset(xs) == multiset(ys)
  {
    forall y ensures multiset(xs)[y] == multiset(ys)[y] {
      CountNoDuplicates(xs, y);
      CountNoDuplicates(ys, y);
    }
  }

  lemma {:induction false} CountNoDuplicates<T>(xs: seq<T>, y: T)
    requires NoDuplicates(xs)
    ensures multiset(xs)[y] == if y in xs then 1 else 0
    decreases |xs|
  {
    if |xs| > 0 {
      assert xs == [xs[0]] + xs[1..];
      assert NoDuplicates(xs[1..]) by {
        forall i, j | 0 <= i < j < |xs| - 1 ensures xs[1..][i] != xs[1..][j] {
          assert xs[1..][i] == xs[i + 1] && xs[1..][j] == xs[j + 1];
        }
      }
      CountNoDuplicates(xs[1..], y);
      if y == xs[0] {
        assert y !in xs[1..] by {
          forall i | 0 <= i < |xs| - 1 ensures xs[1..][i] != y {
            assert xs[1..][i] == xs[i + 1];
          }
        }
      }
    }
  }

  /** Sets with the same elements fold alike when the function commutes: the fold is abelian. */
  lemma FoldAbelianOrderFree<T, A>(s1: ImmutableSet<T>, s2: ImmutableSet<T>, f: (T, A) -> A, init: A)
    requires ValidSet(s1) && ValidSet(s2)
    requires forall y :: Contains(s1, y) <==> Contains(s2, y)
    requires forall a, b, acc :: f(a, f(b, acc)) == f(b, f(a, acc))
    ensures FoldAbelian(s1, f, init) == FoldAbelian(s2, f, init)
  {
    ElementsDistinct(s1);
    ElementsDistinct(s2);
    assert forall y :: y in Elements(s1) <==> y in Elements(s2) by {
      forall y ensures y in Elements(s1) <==> y in Elements(s2) {
        assert Contains(s1, y) <==> Contains(s2, y);
      }
    }
    SameMembersPermutation(Elements(s1), Elements(s2));
    assert forall a, b, acc :: Swaps(f, a, b, acc);
    FoldRightPermutation(Elements(s1), Elements(s2), f, init);
  }

  lemma {:induction false} FoldRightCons<T>(xs: seq<T>)
    ensures ImmutableLists.Elems(Seqs.FoldRight(xs, (v: T, acc: ImmutableLists.List<T>) => ImmutableLists.Cons(v, acc), ImmutableLists.Nil)) == xs
    decreases |xs|
  {
    if |xs| > 0 {
      FoldRightCons(xs[1..]);
    }
  }

  /** `toList()`: the elements consed from the back, so the list holds them in fold order. */
  function ToList<T>(s: ImmutableSet<T>): (r: ImmutableLists.List<T>)
    requires ValidSet(s)
    ensures ImmutableLists.Elems(r) == Elements(s)
    ensures ImmutableLists.Length(r) == HashTableApi.Size(s.data)
  {
    FoldRightCons(Elements(s));
    FoldAbelian(s, (v: T, acc: ImmutableLists.List<T>) => ImmutableLists.Cons(v, acc), ImmutableLists.Nil)
  }

  /** A fold that ands `p` of each key into the memo: whether every key satisfies `p`. */
  lemma {:induction false} FoldLeftAnd<K, V>(es: seq<(K, V)>, g: (bool, (K, V)) -> bool, p: K -> bool, memo: bool)
    requires forall m, e :: g(m, e) == (m && p(e.0))
    ensures Seqs.FoldLeft(es, g, memo) == (memo && forall j :: 0 <= j < |es| ==> p(es[j].0))
    decreases |es|
  {
    if |es| > 0 {
      FoldLeftAnd(es[1..], g, p, memo && p(es[0].0));
      assert forall j :: 1 <= j < |es| ==> es[j] == es[1..][j - 1];
    }
  }

  /** The members of a duplicate-free list. */
  ghost function Members<T>(xs: seq<T>): set<T>
  {
    set i | 0 <= i < |xs| :: xs[i]
  }

  lemma {:induction false} MembersCard<T>(xs: seq<T>)
    requires NoDuplicates(xs)
    ensures |Members(xs)| == |xs|
    decreases |xs|
  {
    if |xs| > 0 {
      var ys := xs[1..];
      assert NoDuplicates(ys) by {
        forall i, j | 0 <= i < j < |ys| ensures ys[i] != ys[j] {
          assert ys[i] == xs[i + 1] && ys[j] == xs[j + 1];
        }
      }
      MembersCard(ys);
      assert Members(xs) == Members(ys) + {xs[0]} by {
        forall x | x in Members(xs) ensures x in Members(ys) + {xs[0]} {
          var i :| 0 <= i < |xs| && xs[i] == x;
          if i > 0 {
            assert ys[i - 1] == x;
          }
        }
        forall x | x in Members(ys) ensures x in Members(xs) {
          var i :| 0 <= i < |ys| && ys[i] == x;
          assert xs[i + 1] == x;
        }
      }
      assert xs[0] !in Members(ys) by {
        forall i | 0 <= i < |ys| ensures ys[i] != xs[0] {
          assert ys[i] == xs[i + 1];
        }
      }
    }
  }

  /** Of two duplicate-free lists of one length, the first inside the second, the second is inside the first. */
  lemma SameLengthSubset<T>(xs: seq<T>, ys: seq<T>)
    requires NoDuplicates(xs) && NoDuplicates(ys) && |xs| == |ys|
    requires forall i :: 0 <= i < |xs| ==> xs[i] in ys
    ensures forall y :: y in ys ==> y in xs
  {
    MembersCard(xs);
    MembersCard(ys);
    var a, b := Members(xs), Members(ys);
    assert a <= b by {
      forall x | x in a ensures x in b {
        var i :| 0 <= i < |xs| && xs[i] == x;
        var j :| 0 <= j < |ys| && ys[j] == x;
      }
    }
    assert |b - a| == 0 by {
      assert a * b == a;
    }
    assert b == a by {
      assert b - a == {};
    }
    forall y | y in ys ensures y in xs {
      var j :| 0 <= j < |ys| && ys[j] == y;
      assert y in b;
    }
  }

  /**
   * `equals(other)`: the same length, and every element of this set is in
   * the other. The two sets then hold the same elements, and conversely.
   */
  function Equals<T(==, !new)>(s1: ImmutableSet<T>, s2: ImmutableSet<T>): (r: bool)
    requires ValidSet(s1) && ValidSet(s2)
    ensures r <==> forall y :: Contains(s1, y) <==> Contains(s2, y)
  {
    var es := Entries(s1.data.root);
    var r := HashTableApi.Size(s1.data) == HashTableApi.Size(s2.data)
      && HashTableApi.FoldLeft(s1.data, (m: bool, e: (T, ())) => m && HashTableApi.ContainsKey(s2.data, e.0), true);
    EqualsCorrect(s1, s2, r);
    r
  }

  lemma EqualsCorrect<T>(s1: ImmutableSet<T>, s2: ImmutableSet<T>, r: bool)
    requires ValidSet(s1) && ValidSet(s2)
    requires r == (HashTableApi.Size(s1.data) == HashTableApi.Size(s2.data)
      && HashTableApi.FoldLeft(s1.data, (m: bool, e: (T, ())) => m && HashTableApi.ContainsKey(s2.data, e.0), true))
    ensures r <==> forall y :: Contains(s1, y) <==> Contains(s2, y)
  {
    var es := Entries(s1.data.root);
    var xs, ys := Elements(s1), Elements(s2);
    FoldLeftAnd(es, (m: bool, e: (T, ())) => m && HashTableApi.ContainsKey(s2.data, e.0), (k: T) => HashTableApi.ContainsKey(s2.data, k), true);
    forall j | 0 <= j < |es| ensures HashTableApi.ContainsKey(s2.data, es[j].0) <==> xs[j] in ys {
      assert xs[j] == es[j].0;
      assert Contains(s2, xs[j]) == HashTableApi.ContainsKey(s2.data, xs[j]);
    }
    SameElementsIff(s1, s2);
  }

  /** Two sets hold the same elements exactly when they are equally long and one lies inside the other. */
  lemma SameElementsIff<T>(s1: ImmutableSet<T>, s2: ImmutableSet<T>)
    requires ValidSet(s1) && ValidSet(s2)
    ensures (forall y :: Contains(s1, y) <==> Contains(s2, y)) <==>
            (|Elements(s1)| == |Elements(s2)| && forall i :: 0 <= i < |Elements(s1)| ==> Elements(s1)[i] in Elements(s2))
  {
    var xs, ys := Elements(s1), Elements(s2);
    ElementsDistinct(s1);
    ElementsDistinct(s2);
    if |xs| == |ys| && forall i :: 0 <= i < |xs| ==> xs[i] in ys {
      SameLengthSubset(xs, ys);
      forall y ensures Contains(s1, y) <==> Contains(s2, y) {
        if y in xs {
          var i :| 0 <= i < |xs| && xs[i] == y;
        }
      }
    }
    if forall y :: Contains(s1, y) <==> Contains(s2, y) {
      assert forall y :: y in xs <==> y in ys by {
        forall y ensures y in xs <==> y in ys {
          assert Contains(s1, y) <==> Contains(s2, y);
        }
      }
      SameLengthSubsetCard(xs, ys);
      forall i | 0 <= i < |xs| ensures xs[i] in ys {
        assert Contains(s1, xs[i]) <==> Contains(s2, xs[i]);
      }
    }
  }

  /** Duplicate-free lists with the same members have the same length. */
  lemma SameLengthSubsetCard<T>(xs: seq<T>, ys: seq<T>)
    requires NoDuplicates(xs) && NoDuplicates(ys)
    requires forall y :: y in xs <==> y in ys
    ensures |xs| == |ys|
  {
    SameMembersPermutation(xs, ys);
    assert |multiset(xs)| == |multiset(ys)|;
  }
}

=== FILE: maybe.dfy ===
/**
 * The optional value of the library: a `Maybe` either holds a value or is
 * empty. Java stores the value in a nullable field; here the two states are
 * two constructors, and `Nullable` stands for a Java reference that may be
 * null, so that the conversions between the two can be stated.
 */
module Maybes {
  import opened Outcomes

  datatype Maybe<+A> = Nothing | Just(value: A)

  /** A Java reference of type A that may be null. */
  datatype Nullable<+A> = Null | Ref(target: A)

  /** `fromNullable`: a null reference becomes the empty Maybe. */
  function FromNullable<A>(x: Nullable<A>): (r: Maybe<A>)
    ensures r.Nothing? <==> x.Null?
    ensures r.Just? ==> r.value == x.target
  {
    if x.Null? then Nothing else Just(x.target)
  }

  /** `toNullable`: the stored reference, null when empty; it undoes `fromNullable`. */
  function ToNullable<A>(m: Maybe<A>): (r: Nullable<A>)
    ensures FromNullable(r) == m
  {
    match m
    case Nothing => Null
    case Just(v) => Ref(v)
  }

  lemma ToNullableFromNullable<A>(x: Nullable<A>)
    ensures ToNullable(FromNullable(x)) == x
  {
  }

  /** `iff(test, a)`: `a` exactly when the test holds. */
  function Iff<A>(test: bool, a: A): (r: Maybe<A>)
    ensures r.Just? <==> test
    ensures r.Just? ==> r.value == a
  {
    if test then Just(a) else Nothing
  }

  /** `maybe(def, f)`: the default for an empty Maybe, `f` of the value otherwise. */
  function Fold<A, B>(m: Maybe<A>, def: B, f: A -> B): (r: B)
    ensures m.Nothing? ==> r == def
    ensures m.Just? ==> r == f(m.value)
  {
    match m
    case Nothing => def
    case Just(v) => f(v)
  }

  /** `orJust(a)`: the value when there is one, `a` otherwise. */
  function OrJust<A>(m: Maybe<A>, a: A): (r: A)
    ensures r == Fold(m, a, x => x)
  {
    match m
    case Nothing => a
    case Just(v) => v
  }

  /**
   * `fromJust()`: the value of a `Just`; on `Nothing` the null check of
   * the stored value throws a NullPointerException.
   */
  function FromJust<A>(m: Maybe<A>): (r: Outcome<A>)
    ensures r.Returns? <==> m.Just?
    ensures r.Returns? ==> m == Just(r.value)
    ensures !r.Returns? ==> r == Throws(NullPointerException)
  {
    match m
    case Nothing => Throws(NullPointerException)
    case Just(v) => Returns(v)
  }

  function Map<A, B>(m: Maybe<A>, f: A -> B): (r: Maybe<B>)
    ensures r.Just? <==> m.Just?
    ensures r.Just? ==> r.value == f(m.value)
  {
    match m
    case Nothing => Nothing
    case Just(v) => Just(f(v))
  }

  /** `flatMap` (also `bind`). */
  function FlatMap<A, B>(m: Maybe<A>, f: A -> Maybe<B>): (r: Maybe<B>)
    ensures m.Nothing? ==> r.Nothing?
    ensures m.Just? ==> r == f(m.value)
  {
    match m
    case Nothing => Nothing
    case Just(v) => f(v)
  }

  function Join<A>(m: Maybe<Maybe<A>>): (r: Maybe<A>)
    ensures r.Just? <==> m.Just? && m.value.Just?
    ensures r.Just? ==> r.value == m.value.value
  {
    FlatMap(m, (x: Maybe<A>) => x)
  }

  /** `filterByPredicate` (and `filter`): keeps the value only if it satisfies `p`. */
  function Filter<A>(m: Maybe<A>, p: A -> bool): (r: Maybe<A>)
    ensures r.Just? <==> m.Just? && p(m.value)
    ensures r.Just? ==> r == m
  {
    match m
    case Nothing => m
    case Just(v) => if p(v) then m else Nothing
  }

  /** `eq`/`equals`: two Maybes are equal when their stored references are. */
  function Eq<A(==)>(a: Maybe<A>, b: Maybe<A>): (r: bool)
    ensures r <==> a == b
  {
    ToNullable(a) == ToNullable(b)
  }

  lemma MapIdentity<A>(m: Maybe<A>)
    ensures Map(m, x => x) == m
  {
  }

  lemma MapCompose<A, B, C>(m: Maybe<A>, f: A -> B, g: B -> C)
    ensures Map(Map(m, f), g) == Map(m, x => g(f(x)))
  {
  }

  lemma FlatMapLeftIdentity<A, B>(a: A, f: A -> Maybe<B>)
    ensures FlatMap(Just(a), f) == f(a)
  {
  }

  lemma FlatMapRightIdentity<A>(m: Maybe<A>)
    ensures FlatMap(m, (x: A) => Just(x)) == m
  {
  }

  lemma FlatMapAssociative<A, B, C>(m: Maybe<A>, f: A -> Maybe<B>, g: B -> Maybe<C>)
    ensures FlatMap(FlatMap(m, f), g) == FlatMap(m, x => FlatMap(f(x), g))
  {
  }

  /** `join` after `map` is `flatMap`. */
  lemma JoinMap<A, B>(m: Maybe<A>, f: A -> Maybe<B>)
    ensures Join(Map(m, f)) == FlatMap(m, f)
  {
  }

  lemma FilterFilter<A>(m: Maybe<A>, p: A -> bool, q: A -> bool)
    ensures Filter(Filter(m, p), q) == Filter(m, x => p(x) && q(x))
  {
  }
}

=== FILE: maybe_list.dfy ===
// The static helpers of Maybe.java that build immutable lists: catMaybes,
// mapMaybe and toList. They live apart from `Maybes` because lists are
// defined on top of Maybe.
module MaybeLists {
  import opened Maybes
  import Seqs
  import opened ImmutableLists

  /** The values of the `Just` elements of `s`, in order. */
  ghost function JustValues<A>(s: seq<Maybe<A>>): seq<A>
  {
    if |s| == 0 then []
    else (if s[0].Just? then [s[0].value] else []) + JustValues(s[1..])
  }

  /** A value is among the `Just` values exactly when `Just` of it is in the list. */
  lemma {:induction false} JustValuesMembers<A>(s: seq<Maybe<A>>, a: A)
    ensures a in JustValues(s) <==> Just(a) in s
    decreases |s|
  {
    if |s| > 0 {
      JustValuesMembers(s[1..], a);
      assert s == [s[0]] + s[1..];
    }
  }

  /** No more `Just` values than elements; as many exactly when every element is a `Just`. */
  lemma {:induction false} JustValuesLength<A>(s: seq<Maybe<A>>)
    ensures |JustValues(s)| <= |s|
    ensures |JustValues(s)| == |s| <==> forall i :: 0 <= i < |s| ==> s[i].Just?
    decreases |s|
  {
    if |s| > 0 {
      JustValuesLength(s[1..]);
      if forall i :: 0 <= i < |s| ==> s[i].Just? {
        assert forall i :: 0 <= i < |s| - 1 ==> s[1..][i] == s[i + 1];
      } else if s[0].Just? {
        var i :| 0 <= i < |s| && !s[i].Just?;
        assert s[1..][i - 1] == s[i];
      }
    }
  }

  /** `catMaybes(l)`: a right fold that conses the value of every `Just` and skips every `Nothing`. */
  function CatMaybes<A>(l: List<Maybe<A>>): (r: List<A>)
    ensures Elems(r) == JustValues(Elems(l))
  {
    var g := (a: Maybe<A>, b: List<A>) => Fold(a, b, (c: A) => Cons(c, b));
    CatFold(Elems(l), g);
    Seqs.FoldRight(Elems(l), g, Nil)
  }

  lemma {:induction false} MapMaybeFold<A, B>(s: seq<Maybe<A>>, f: A -> B, g: (Maybe<A>, List<B>) -> List<B>)
    requires forall a, b :: g(a, b) == if a.Just? then Cons(f(a.value), b) else b
    ensures Seqs.FoldRight(s, g, Nil) == ImmutableLists.Map(FromSeq(JustValues(s)), f)
    decreases |s|
  {
    if |s| > 0 {
      MapMaybeFold(s[1..], f, g);
      var rest := Seqs.FoldRight(s[1..], g, Nil);
      assert Seqs.FoldRight(s, g, Nil) == g(s[0], rest);
      if s[0].Just? {
        var js := JustValues(s);
        assert js == [s[0].value] + JustValues(s[1..]);
        assert js[0] == s[0].value && js[1..] == JustValues(s[1..]);
      } else {
        assert JustValues(s) == [] + JustValues(s[1..]) == JustValues(s[1..]);
        assert g(s[0], rest) == rest;
      }
    }
  }

  lemma CatFold<A>(s: seq<Maybe<A>>, g: (Maybe<A>, List<A>) -> List<A>)
    requires forall a, b :: g(a, b) == if a.Just? then Cons(a.value, b) else b
    ensures Elems(Seqs.FoldRight(s, g, Nil)) == JustValues(s)
  {
    var id := (v: A) => v;
    MapMaybeFold(s, id, g);
    var js := JustValues(s);
    var r := Seqs.FoldRight(s, g, Nil);
    assert forall i :: 0 <= i < |js| ==> Elems(r)[i] == id(Elems(FromSeq(js))[i]);
  }

  /** `mapMaybe(f, l)`: `f` applied to the value of every `Just`, in order, which is `map(f)` after `catMaybes`. */
  function MapMaybe<A, B>(f: A -> B, l: List<Maybe<A>>): (r: List<B>)
    ensures r == ImmutableLists.Map(CatMaybes(l), f)
    ensures Length(r) == |JustValues(Elems(l))|
  {
    var g := (a: Maybe<A>, b: List<B>) => Fold(a, b, (v: A) => Cons(f(v), b));
    MapMaybeFold(Elems(l), f, g);
    ElemsInjective(FromSeq(JustValues(Elems(l))), CatMaybes(l));
    Seqs.FoldRight(Elems(l), g, Nil)
  }

  /** `toList()`: the one-element list of a `Just`'s value, the empty list for `Nothing`. */
  function ToList<A>(m: Maybe<A>): (r: List<A>)
    ensures Length(r) <= 1
    ensures Elems(r) == JustValues([m])
  {
    assert [m][1..] == [];
    match m
    case Nothing => Nil
    case Just(v) => Cons(v, Nil)
  }
}

=== FILE: multi_hash_table.dfy ===
// MultiHashTable.java: a hash table from keys to immutable lists of values.
// A key that is absent reads as the empty list, so "present with no values"
// and "absent" look the same through `Get`.
module MultiHashTables {
  import opened Maybes
  import Seqs
  import ImmutableLists
  import opened HashTables
  import HashTableApi

  datatype MultiHashTable<!K, V> = MultiHashTable(data: HashTable<K, ImmutableLists.List<V>>)

  /** The underlying table is a valid hash trie. */
  ghost predicate ValidMulti<K, V>(m: MultiHashTable<K, V>)
  {
    ValidTable(m.data)
  }

  /** `emptyUsingEquality()` / `emptyUsingIdentity()`: no key has a value; the hasher is a parameter. */
  function Empty<K, V>(hasher: Hasher<K>): (r: MultiHashTable<K, V>)
    ensures ValidMulti(r) && r.data.hasher == hasher
    ensures Entries(r.data.root) == []
  {
    MultiHashTable(HashTableApi.EmptyTable(hasher))
  }

  /** `get(key)`: the list stored for the key, or the empty list. */
  function Get<K(==), V>(m: MultiHashTable<K, V>, k: K): (r: ImmutableLists.List<V>)
    requires ValidMulti(m)
    ensures HashTableApi.ContainsKey(m.data, k) ==> Just(r) == Lookup(Entries(m.data.root), k)
    ensures !HashTableApi.ContainsKey(m.data, k) ==> r == ImmutableLists.Nil
  {
    OrJust(HashTableApi.Get(m.data, k), ImmutableLists.Nil)
  }

  /** `put(key, value)`: the value is consed onto the key's list; other keys keep theirs. */
  function Put<K(==, !new), V>(m: MultiHashTable<K, V>, k: K, v: V): (r: MultiHashTable<K, V>)
    requires ValidMulti(m)
    ensures ValidMulti(r) && r.data.hasher == m.data.hasher
    ensures forall k' :: Get(r, k') == if k' == k then ImmutableLists.Cons(v, Get(m, k)) else Get(m, k')
  {
    MultiHashTable(HashTableApi.Put(m.data, k, ImmutableLists.Cons(v, Get(m, k))))
  }

  /** `remove(key)`: the key's list is gone; other keys keep theirs. */
  function Remove<K(==, !new), V>(m: MultiHashTable<K, V>, k: K): (r: MultiHashTable<K, V>)
    requires ValidMulti(m)
    ensures ValidMulti(r) && r.data.hasher == m.data.hasher
    ensures forall k' :: Get(r, k') == if k' == k then ImmutableLists.Nil else Get(m, k')
  {
    MultiHashTable(HashTableApi.Remove(m.data, k))
  }

  /**
   * `merge(tree, merger)`: the tables merged key by key; the merger combines
   * the two lists of a key held by both. The tables are merged with the
   * repaired `HashTableApi.Merge`, which rehashes the argument first.
   */
  function MergeWith<K(==, !new), V>(m1: MultiHashTable<K, V>, m2: MultiHashTable<K, V>,
                                     merger: (ImmutableLists.List<V>, ImmutableLists.List<V>) -> ImmutableLists.List<V>)
    : (r: MultiHashTable<K, V>)
    requires ValidMulti(m1) && ValidMulti(m2)
    ensures ValidMulti(r)
    ensures r.data.hasher == if m1.data.root.Empty? then m2.data.hasher else m1.data.hasher
    ensures m1.data.hasher == m2.data.hasher ==>
      forall k :: HashTableApi.Get(r.data, k) == HashTableApi.Get(HashTableApi.MergeAsWritten(m1.data, m2.data, merger), k)
    ensures forall k :: (Get(r, k) ==
      if HashTableApi.ContainsKey(m1.data, k) && HashTableApi.ContainsKey(m2.data, k) then merger(Get(m1, k), Get(m2, k))
      else if HashTableApi.ContainsKey(m1.data, k) then Get(m1, k)
      else Get(m2, k))
  {
    MultiHashTable(HashTableApi.Merge(m1.data, m2.data, merger))
  }

  /** `merge(tree)`: the default merger appends the argument's list to the receiver's. */
  function Merge<K(==, !new), V>(m1: MultiHashTable<K, V>, m2: MultiHashTable<K, V>): (r: MultiHashTable<K, V>)
    requires ValidMulti(m1) && ValidMulti(m2)
    ensures ValidMulti(r)
    ensures forall k :: ImmutableLists.Elems(Get(r, k)) == ImmutableLists.Elems(Get(m1, k)) + ImmutableLists.Elems(Get(m2, k))
  {
    var r := MergeWith(m1, m2, (a, b) => ImmutableLists.Append(a, b));
    assert forall k :: ImmutableLists.Elems(Get(r, k)) == ImmutableLists.Elems(Get(m1, k)) + ImmutableLists.Elems(Get(m2, k)) by {
      forall k ensures ImmutableLists.Elems(Get(r, k)) == ImmutableLists.Elems(Get(m1, k)) + ImmutableLists.Elems(Get(m2, k)) {
        assert ImmutableLists.Elems<V>(ImmutableLists.Nil) == [];
      }
    }
    r
  }

  /**
   * `entries()`: the table's pairs, one per key present, in entry order;
   * each pair's list is the key's `get`.
   */
  function EntryList<K(==, !new), V>(m: MultiHashTable<K, V>): (r: ImmutableLists.List<(K, ImmutableLists.List<V>)>)
    requires ValidMulti(m)
    ensures ImmutableLists.Elems(r) == Entries(m.data.root)
    ensures DistinctKeys(ImmutableLists.Elems(r))
    ensures forall k :: HashTableApi.ContainsKey(m.data, k) <==> HasKey(ImmutableLists.Elems(r), k)
    ensures ImmutableLists.Length(r) == HashTableApi.Size(m.data)
    ensures forall j :: 0 <= j < |ImmutableLists.Elems(r)| ==> Get(m, ImmutableLists.Elems(r)[j].0) == ImmutableLists.Elems(r)[j].1
  {
    var r := HashTableApi.EntryList(m.data);
    var es := Entries(m.data.root);
    LengthEntries(m.data.root, m.data.hasher.hash, 0);
    assert forall j :: 0 <= j < |es| ==> Get(m, es[j].0) == es[j].1 by {
      forall j | 0 <= j < |es| ensures Get(m, es[j].0) == es[j].1 {
        LookupAt(es, j);
      }
    }
    r
  }

  /** The entries with each list sent through `conv`, which also sees the key. */
  function ConvertEntries<K, V, B>(es: seq<(K, V)>, conv: (K, V) -> B): seq<(K, B)>
  {
    seq(|es|, j requires 0 <= j < |es| => (es[j].0, conv(es[j].0, es[j].1)))
  }

  lemma {:induction false} LookupConvert<K, V, B>(es: seq<(K, V)>, conv: (K, V) -> B, k: K)
    ensures Lookup(ConvertEntries(es, conv), k) == if Lookup(es, k).Just? then Just(conv(k, Lookup(es, k).value)) else Nothing
    decreases |es|
  {
    if |es| > 0 {
      assert ConvertEntries(es, conv)[1..] == ConvertEntries(es[1..], conv);
      LookupConvert(es[1..], conv, k);
    }
  }

  /**
   * `toHashTable(conversion)` with the key: a fold over the entries that puts
   * each converted list into an empty table with the same hasher, which is
   * `putAll` of the converted entries.
   */
  function ToHashTable<K(==, !new), V, B>(m: MultiHashTable<K, V>, conv: (K, ImmutableLists.List<V>) -> B): (r: HashTable<K, B>)
    requires ValidMulti(m)
    ensures ValidTable(r) && r.hasher == m.data.hasher
    ensures forall k :: (HashTableApi.Get(r, k) ==
      if HashTableApi.ContainsKey(m.data, k) then Just(conv(k, Get(m, k))) else Nothing)
  {
    var es := Entries(m.data.root);
    var cs := ConvertEntries(es, conv);
    var r := HashTableApi.PutAll(HashTableApi.EmptyTable(m.data.hasher), ImmutableLists.FromSeq(cs));
    LengthEntries(m.data.root, m.data.hasher.hash, 0);
    assert DistinctKeys(cs) by {
      forall a, b | 0 <= a < b < |cs| ensures cs[a].0 != cs[b].0 {
        assert cs[a].0 == es[a].0 && cs[b].0 == es[b].0;
      }
    }
    assert Seqs.Reverse(cs) + [] == Seqs.Reverse(cs);
    assert forall k :: HashTableApi.Get(r, k) == if HashTableApi.ContainsKey(m.data, k) then Just(conv(k, Get(m, k))) else Nothing by {
      forall k ensures HashTableApi.Get(r, k) == if HashTableApi.ContainsKey(m.data, k) then Just(conv(k, Get(m, k))) else Nothing {
        HashTableApi.LookupReverse(cs, k);
        LookupConvert(es, conv, k);
      }
    }
    r
  }

  /** `toHashTable(conversion)` without the key. */
  function ToHashTableOfValues<K(==, !new), V, B>(m: MultiHashTable<K, V>, conv: ImmutableLists.List<V> -> B): (r: HashTable<K, B>)
    requires ValidMulti(m)
    ensures ValidTable(r) && r.hasher == m.data.hasher
    ensures forall k :: HashTableApi.Get(r, k) == Maybes.Map(HashTableApi.Get(m.data, k), conv)
  {
    ToHashTable(m, (k: K, vs: ImmutableLists.List<V>) => conv(vs))
  }

  /** The lists of the entries, in Entries order. */
  function ListsOf<K, V>(es: seq<(K, ImmutableLists.List<V>)>): (r: seq<ImmutableLists.List<V>>)
    ensures |r| == |es| && forall j :: 0 <= j < |es| ==> r[j] == es[j].1
  {
    seq(|es|, j requires 0 <= j < |es| => es[j].1)
  }

  lemma {:induction false} FoldLeftCons<K, V>(es: seq<(K, ImmutableLists.List<V>)>,
                                               g: (ImmutableLists.List<ImmutableLists.List<V>>, (K, ImmutableLists.List<V>)) -> ImmutableLists.List<ImmutableLists.List<V>>,
                                               init: ImmutableLists.List<ImmutableLists.List<V>>)
    requires forall acc, p :: g(acc, p) == ImmutableLists.Cons(p.1, acc)
    ensures ImmutableLists.Elems(Seqs.FoldLeft(es, g, init)) == Seqs.Reverse(ListsOf(es)) + ImmutableLists.Elems(init)
    decreases |es|
  {
    if |es| > 0 {
      FoldLeftCons(es[1..], g, g(init, es[0]));
      assert ListsOf(es) == [es[0].1] + ListsOf(es[1..]);
      Seqs.ReverseAppend([es[0].1], ListsOf(es[1..]));
      assert Seqs.Reverse([es[0].1]) == [es[0].1];
    }
  }

  /** `values()`: consing each entry's list onto the accumulator leaves them in reverse Entries order. */
  function Values<K, V>(m: MultiHashTable<K, V>): (r: ImmutableLists.List<ImmutableLists.List<V>>)
    requires ValidMulti(m)
    ensures ImmutableLists.Elems(r) == Seqs.Reverse(ListsOf(Entries(m.data.root)))
    ensures ImmutableLists.Length(r) == HashTableApi.Size(m.data)
  {
    var g := (acc: ImmutableLists.List<ImmutableLists.List<V>>, p: (K, ImmutableLists.List<V>)) => ImmutableLists.Cons(p.1, acc);
    FoldLeftCons(Entries(m.data.root), g, ImmutableLists.Nil);
    Seqs.ReverseIndex(ListsOf(Entries(m.data.root)));
    assert Seqs.Reverse(ListsOf(Entries(m.data.root))) + [] == Seqs.Reverse(ListsOf(Entries(m.data.root)));
    HashTableApi.FoldLeft(m.data, g, ImmutableLists.Nil)
  }

  /** Every value of every entry, entry after entry. */
  function Gathered<K, V>(es: seq<(K, ImmutableLists.List<V>)>): seq<V>
  {
    if |es| == 0 then [] else ImmutableLists.Elems(es[0].1) + Gathered(es[1..])
  }

  lemma {:induction false} FoldLeftAppend<K, V>(es: seq<(K, ImmutableLists.List<V>)>,
                                                 g: (ImmutableLists.List<V>, (K, ImmutableLists.List<V>)) -> ImmutableLists.List<V>,
                                                 init: ImmutableLists.List<V>)
    requires forall acc, p :: ImmutableLists.Elems(g(acc, p)) == ImmutableLists.Elems(acc) + ImmutableLists.Elems(p.1)
    ensures ImmutableLists.Elems(Seqs.FoldLeft(es, g, init)) == ImmutableLists.Elems(init) + Gathered(es)
    decreases |es|
  {
    if |es| == 0 {
      assert ImmutableLists.Elems(init) + [] == ImmutableLists.Elems(init);
    } else {
      var acc := g(init, es[0]);
      FoldLeftAppend(es[1..], g, acc);
      calc {
        ImmutableLists.Elems(Seqs.FoldLeft(es, g, init));
        ImmutableLists.Elems(Seqs.FoldLeft(es[1..], g, acc));
        ImmutableLists.Elems(acc) + Gathered(es[1..]);
        (ImmutableLists.Elems(init) + ImmutableLists.Elems(es[0].1)) + Gathered(es[1..]);
        ImmutableLists.Elems(init) + (ImmutableLists.Elems(es[0].1) + Gathered(es[1..]));
        ImmutableLists.Elems(init) + Gathered(es);
      }
    }
  }

  /** `gatherValues()`: the lists appended in Entries order. */
  function GatherValues<K, V>(m: MultiHashTable<K, V>): (r: ImmutableLists.List<V>)
    requires ValidMulti(m)
    ensures ImmutableLists.Elems(r) == Gathered(Entries(m.data.root))
  {
    var g := (acc: ImmutableLists.List<V>, p: (K, ImmutableLists.List<V>)) => ImmutableLists.Append(acc, p.1);
    FoldLeftAppend(Entries(m.data.root), g, ImmutableLists.Nil);
    HashTableApi.FoldLeft(m.data, g, ImmutableLists.Nil)
  }

  /** `mapValues(f)`: every key's list mapped through `f`. */
  function MapValues<K(==, !new), V, B>(m: MultiHashTable<K, V>, f: V -> B): (r: MultiHashTable<K, B>)
    requires ValidMulti(m)
    ensures ValidMulti(r) && r.data.hasher == m.data.hasher
    ensures forall k :: Get(r, k) == ImmutableLists.Map(Get(m, k), f)
  {
    var lf := (l: ImmutableLists.List<V>) => ImmutableLists.Map(l, f);
    var r := MultiHashTable(HashTableApi.Map(m.data, lf));
    assert forall k :: Get(r, k) == ImmutableLists.Map(Get(m, k), f) by {
      forall k ensures Get(r, k) == ImmutableLists.Map(Get(m, k), f) {
        if HashTableApi.Get(m.data, k).Nothing? {
          assert ImmutableLists.Map(ImmutableLists.Nil, f) == ImmutableLists.Nil;
        }
      }
    }
    r
  }
}

=== FILE: outcome.dfy ===
/**
 * How a Java call ends: with a value, with one of the runtime exceptions
 * the library's code can raise on inputs it does not guard against, or not
 * at all, when a loop of the code never exits.
 */
module Outcomes {

  datatype JavaException =
    | ClassCastException
    | NullPointerException
    | ArrayIndexOutOfBoundsException

  datatype Outcome<+R> = Returns(value: R) | Throws(exception: JavaException) | NeverReturns
}

=== FILE: seqs.dfy ===
/**
 * Reference definitions on Dafny sequences. The persistent structures of the
 * library are abstracted to sequences, and their operations are specified
 * against the definitions here.
 */
module Seqs {

  /** Classic "foldl": `f(... f(f(init, s[0]), s[1]) ..., s[|s|-1])`. */
  function FoldLeft<A, B>(s: seq<A>, f: (B, A) -> B, init: B): B
  {
    if |s| == 0 then init else FoldLeft(s[1..], f, f(init, s[0]))
  }

  /** Classic "foldr": `f(s[0], f(s[1], ... f(s[|s|-1], init) ...))`. */
  function FoldRight<A, B>(s: seq<A>, f: (A, B) -> B, init: B): B
  {
    if |s| == 0 then init else f(s[0], FoldRight(s[1..], f, init))
  }

  /** The elements of `s` that satisfy `p`, in their original order. */
  function Filter<A>(s: seq<A>, p: A -> bool): seq<A>
  {
    if |s| == 0 then [] else (if p(s[0]) then [s[0]] else []) + Filter(s[1..], p)
  }

  /** The negation of a predicate. */
  function Not<A>(p: A -> bool): A -> bool
  {
    x => !p(x)
  }

  /** `s` read back to front. */
  function Reverse<A>(s: seq<A>): seq<A>
  {
    if |s| == 0 then [] else Reverse(s[1..]) + [s[0]]
  }

  /** The concatenation of all sequences of `ss`, in order. */
  function Flatten<A>(ss: seq<seq<A>>): seq<A>
  {
    if |ss| == 0 then [] else ss[0] + Flatten(ss[1..])
  }

  /** `n` clamped to the index range `0..len`, as the list operations clamp counts. */
  function Clamp(n: int, len: nat): (r: nat)
    ensures r <= len
    ensures 0 <= n <= len ==> r == n
  {
    if n <= 0 then 0 else if n >= len then len else n
  }

  lemma {:induction false} FoldLeftAppend<A, B>(a: seq<A>, b: seq<A>, f: (B, A) -> B, init: B)
    ensures FoldLeft(a + b, f, init) == FoldLeft(b, f, FoldLeft(a, f, init))
    decreases |a|
  {
    if |a| == 0 {
      assert a + b == b;
    } else {
      assert (a + b)[1..] == a[1..] + b;
      FoldLeftAppend(a[1..], b, f, f(init, a[0]));
    }
  }

  lemma {:induction false} FoldRightAppend<A, B>(a: seq<A>, b: seq<A>, f: (A, B) -> B, init: B)
    ensures FoldRight(a + b, f, init) == FoldRight(a, f, FoldRight(b, f, init))
    decreases |a|
  {
    if |a| == 0 {
      assert a + b == b;
    } else {
      assert (a + b)[1..] == a[1..] + b;
      FoldRightAppend(a[1..], b, f, init);
    }
  }

  lemma {:induction false} FilterAppend<A>(a: seq<A>, b: seq<A>, p: A -> bool)
    ensures Filter(a + b, p) == Filter(a, p) + Filter(b, p)
    decreases |a|
  {
    if |a| == 0 {
      assert a + b == b;
    } else {
      assert (a + b)[1..] == a[1..] + b;
      FilterAppend(a[1..], b, p);
      var h := if p(a[0]) then [a[0]] else [];
      assert Filter(a + b, p) == h + Filter(a[1..] + b, p);
      assert Filter(a, p) == h + Filter(a[1..], p);
    }
  }

  /** The filter keeps exactly the satisfying elements, and never grows. */
  lemma {:induction false} FilterMembers<A>(s: seq<A>, p: A -> bool)
    ensures |Filter(s, p)| <= |s|
    ensures forall x :: x in Filter(s, p) <==> x in s && p(x)
    decreases |s|
  {
    if |s| > 0 {
      FilterMembers(s[1..], p);
      assert s == [s[0]] + s[1..];
    }
  }

  /** Every element the filter keeps satisfies `p`. */
  lemma {:induction false} FilterAll<A>(s: seq<A>, p: A -> bool)
    ensures forall i :: 0 <= i < |Filter(s, p)| ==> p(Filter(s, p)[i])
    decreases |s|
  {
    if |s| > 0 {
      FilterAll(s[1..], p);
    }
  }

  /** Filtering by `p` and by its negation splits `s` into two parts. */
  lemma {:induction false} FilterComplement<A>(s: seq<A>, p: A -> bool)
    ensures multiset(Filter(s, p)) + multiset(Filter(s, Not(p))) == multiset(s)
    ensures |Filter(s, p)| + |Filter(s, Not(p))| == |s|
    decreases |s|
  {
    if |s| > 0 {
      FilterComplement(s[1..], p);
      assert s == [s[0]] + s[1..];
    }
  }

  lemma {:induction false} ReverseAppend<A>(a: seq<A>, b: seq<A>)
    ensures Reverse(a + b) == Reverse(b) + Reverse(a)
    decreases |a|
  {
    if |a| == 0 {
      assert a + b == b;
    } else {
      assert (a + b)[1..] == a[1..] + b;
      ReverseAppend(a[1..], b);
    }
  }

  /** Reversal reads the sequence from its end. */
  lemma {:induction false} ReverseIndex<A>(s: seq<A>)
    ensures |Reverse(s)| == |s|
    ensures forall i :: 0 <= i < |s| ==> Reverse(s)[i] == s[|s| - 1 - i]
    decreases |s|
  {
    if |s| > 0 {
      ReverseIndex(s[1..]);
    }
  }

  lemma ReverseInvolutive<A>(s: seq<A>)
    ensures Reverse(Reverse(s)) == s
  {
    ReverseIndex(s);
    ReverseIndex(Reverse(s));
  }

  lemma {:induction false} FlattenAppend<A>(a: seq<seq<A>>, b: seq<seq<A>>)
    ensures Flatten(a + b) == Flatten(a) + Flatten(b)
    decreases |a|
  {
    if |a| == 0 {
      assert a + b == b;
    } else {
      assert (a + b)[1..] == a[1..] + b;
      FlattenAppend(a[1..], b);
    }
  }
}
